=== FILE: README.md ===
# ascale job-trigger core, in Dafny

A Dafny model of the core of the ascale Go service: the job-trigger pipeline and the small decision
and encoding functions around it.

**Job-trigger pipeline**
- A Redis-backed distributed lock whose value is a random token followed by metadata.
- The lock's retry strategies: linear, no-retry, count-limited and clamped exponential.
- The trigger dispatcher. It decodes a trigger message, looks up the job, acks, takes the job's lock, runs the handler, releases and reports metrics.
- The run-once job registry.
- The bounded-worker fan-out `doPublishConcurrently`.
- The Pub/Sub create-if-absent helpers and the receive-failure counter.
- The drop-on-full cache queue and its round-robin fan-out.
- The lock-key builders.

**Around the pipeline**
- The int64 id codec (8 little-endian bytes in unpadded base64url, section 5 of RFC 4648), the worker number and the 32-bit short id.
- The MySQL node: master flag, nested transactions, replica rotation with failover, deadlock retry and DSN address parsing.
- The fixed-window rate limiter and the maintenance-window gate.
- The bearer/cookie authorisation chain.
- The header-derived request metadata: timeout propagation, client IP priority, mirror, colour and port.
- The HTTP engine helpers and the access-log level selection.
- The `xtime` helpers.
- The cache-key builders.

**Conventions**
- Every operation is a pure function or a method over immutable values.
- The Redis store is a `map<string, Entry(value, expiresAt)>`. An entry whose expiry instant has been reached reads as absent.
- The Pub/Sub bus is a set of topics plus a map of subscriptions.
- Time is an integer number of nanoseconds.
- Go's int64 wrap-around and its truncating `/` and `%` are written out in `GoInt`.
- Whatever the Go code gets from outside is a parameter: the clock, randomness, whether a connection could be had, and the answers of the identity service, replicas and bus.
- Goroutines run one after another. Which worker takes an item is an input.

**Support modules**
- `Results`: Option and Result.
- `GoInt`: int64, wrap-around, truncating division.
- `Strs`: the `strings.Index`, `Split` and `TrimSpace` the code calls.
- `Strconv`: `%d`, `ParseInt` and `ParseBool`.
- `Base64Url`: `RawURLEncoding`.
- `Redis`: SET NX EX, GET, DEL, PEXPIRE, PTTL, INCR and EXPIRE.

They model the Go standard library and the Redis server, not this repository, so they have no rows of their own. The exception is the codec and parsing members the rows below cite at their call sites.

Where the code and its comments disagree, the model follows the code:
- `fanoutCacheproc`'s comment promises to close every output stream once the intake closes. The distributor only returns. `CacheQueue.Fanout` reports the streams as never closed.
- `Options.Context` is documented as giving timeout and cancellation control over the lock attempt, but `Obtain` never reads it. The deadline is the caller's context deadline, else now + ttl.
- `Config.On` of the rate limiter is commented as its on/off switch, but it is never consulted.

Behaviour worth noting:
- The receive-failure counter of the subscription workers is never reset. It counts all failures, not consecutive ones.
- `jobTrigger` starts its duration clock right after the first ack, before the lock attempt, not just before the handler.
- `Time.Scan` of an out-of-range numeric string stores `ParseInt`'s clamped bound together with the error, not 0.
- The slow-run warning of `jobTrigger` and the dead-letter timing read the clock through `xtime`, so outside production they include its offset.

## Model

| member | source | states |
|---|---|---|
| LockKeys.CronJobLockInjective | pkg/def/lock.go:11-13 | different job names never share a lock key |
| LockKeys.OrderLockInjective | pkg/def/lock.go:7-9 | different order ids never share a lock key |
| LockKeys.LockNamespacesDisjoint | pkg/def/lock.go:7-13 | no order lock key equals any job lock key |
| Strconv.FormatIntInjective | pkg/def/lock.go:8 | the `%d` rendering of integers is injective, which the numeric key builders rely on |
| Strconv.ParseInt | pkg/net/http/vin/metadata.go:75 | the result is an int64; the digits are read left to right and the first event decides: a digit run whose value reaches 2^64 is a range error (MAX_INT64, or MIN_INT64 after '-') even if garbage follows; otherwise an empty magnitude or a non-digit is a syntax error with value 0; otherwise a value beyond int64 is a range error with the bound on its sign's side, and anything else parses exactly |
| Strconv.OverflowBeforeGarbage | pkg/net/http/vin/metadata.go:75 | a digit run of at least 2^64 followed by a non-digit parses as MAX_INT64 (MIN_INT64 with '-') with a range error, not as a syntax error |
| Strconv.ParseFormat | pkg/xtime/time.go:119 | every int64 survives rendering in decimal and parsing back, with no error |
| Retry.Clamp | pkg/dlock/dlock.go:321-327 | below min gives min; otherwise above a non-zero max gives max; otherwise the value itself; with a positive max not below min the result lies in [min, max] |
| Retry.LinearConstant | pkg/dlock/dlock.go:266-280 | a linear strategy answers its interval on every request and never changes; NoRetry gives up on every request |
| Retry.LimitRetryBackoffs | pkg/dlock/dlock.go:282-299 | LimitRetry(s, max) answers request k exactly as s would while k < max, and 0 from then on |
| Retry.ExponentialBackoffs | pkg/dlock/dlock.go:301-328 | request n waits 2^(n+1) ms, or 2^26 ms from n = 25 on, clamped; with 0 < min <= max the wait lies in [min, max] |
| Retry.ExpMillisMonotone | pkg/dlock/dlock.go:316-319 | the unclamped exponential wait never decreases from one request to the next |
| DLock.Token | pkg/dlock/dlock.go:144-146 | a 22-character prefix of the value; the slice panics exactly when the value is shorter |
| DLock.Metadata | pkg/dlock/dlock.go:149-151 | the token followed by the metadata is the whole value; panics exactly when the value is shorter than a token |
| DLock.RandomToken | pkg/dlock/dlock.go:110-122 | succeeds exactly when the random read does; the token is 22 base64url characters that decode back to the 16 random bytes |
| DLock.TryObtain | pkg/dlock/dlock.go:85-108 | true exactly when connected, the ttl has at least one whole second and the key is absent, and then the key holds the value until now plus the whole seconds; false exactly when the key is held; otherwise an error; the store changes only on true |
| DLock.ObtainLoop | pkg/dlock/dlock.go:56-82 | a free key with a working connection and a ttl of at least one second is taken at that attempt; a held key is retried when the strategy's backoff is at least 1 and the next attempt falls before the deadline; ErrNotObtained exactly follows an attempt that found the key held and a backoff below 1 or reaching the deadline; on success the lock is this key and value and the store gained exactly that entry; on failure the store is unchanged and a store failure comes from the last attempt's connection or ttl |
| DLock.ObtainWithToken | pkg/dlock/dlock.go:47-62 | a free key with a working connection and a whole-second ttl is taken at the first attempt with the token followed by the metadata as value, and both split back out; ErrNotObtained means the last attempt found the key held and the strategy gave up or the deadline came; a success leaves exactly that entry with the ttl's expiry |
| DLock.Obtain | pkg/dlock/dlock.go:40-83 | an entropy failure ends with no attempt; a lock obtained is on the key, carries the encoded entropy as token and the option metadata, and is the only change to the store; no retry is made at or after the deadline (the caller's, else now + ttl) |
| DLock.ObtainSuccessAndGiveUp | pkg/dlock/dlock.go:56-105 | with entropy, a working connection, a ttl of at least a second and a free key, Obtain succeeds at its first attempt; ErrNotObtained comes only after an attempt that found the key held, when the backoff was below 1 or the next attempt would reach the deadline |
| DLock.ValueParts | pkg/dlock/dlock.go:144-151 | a value built as token followed by metadata splits back into those two parts |
| DLock.ObtainWithoutRetryTriesOnce | pkg/dlock/dlock.go:251-280 | with no options or no strategy, exactly one SET attempt; on a held key it ends with ErrNotObtained |
| DLock.ObtainExcludesHeldKey | pkg/dlock/dlock.go:94-105 | while a key is held until some expiry instant, no Obtain on it succeeds before that instant |
| DLock.SubSecondTtlNeverObtains | pkg/dlock/dlock.go:94 | a ttl below one second truncates to 0 seconds and Obtain fails after one attempt |
| DLock.ObtainStopsOnStoreFailure | pkg/dlock/dlock.go:58-60 | a connection failure on the first attempt ends Obtain with that error, whatever the strategy |
| DLock.Ttl | pkg/dlock/dlock.go:154-173 | errors exactly without a connection; 0 for a lock not held and for a held key with no expiry; otherwise the remaining time rounded down to whole milliseconds, never negative |
| DLock.Refresh | pkg/dlock/dlock.go:177-194 | succeeds exactly when the lock is held, and then moves the expiry to now plus the whole milliseconds of ttl (deleting the key for a non-positive ttl); a lock not held gets ErrNotObtained and the store is unchanged |
| DLock.Release | pkg/dlock/dlock.go:198-218 | deletes the key exactly when this lock holds it; otherwise ErrLockNotHeld with the store unchanged |
| DLock.ObtainThenRelease | pkg/dlock/dlock.go:198-218 | a lock just obtained can be released, after which the key can be taken again at once |
| DLock.ForeignValueUntouched | pkg/dlock/dlock.go:17-19 | when the key holds another client's value, Release, Refresh and TTL leave it alone and report not held / not obtained / 0 |
| JobTrigger.RegisterTriggerJob | app/api/service/job_trigger.go:26-28 | the name is bound to the handler, overwriting any earlier binding, and nothing else changes |
| JobTrigger.InitialTriggerJob | app/api/service/job_trigger.go:30-35 | the first call adds exactly the two jobs (the second registration winning on a shared name) and keeps every other job's handler; later calls change nothing |
| JobTrigger.InitialTriggerJobOnce | app/api/service/job_trigger.go:30-35 | initialising twice equals initialising once; from an empty table it yields exactly the two registrations |
| JobTrigger.Report | app/api/service/job_trigger.go:86-99 | one timing sample in whole ms and one count under "cronjob:<job>", then a slow warning exactly when the two `xtime.NowUnix` readings (the clock's offset included) differ by more than 60 s, carrying that difference |
| JobTrigger.ElapsedMsBounds | app/api/service/job_trigger.go:89-92 | the reported milliseconds are the elapsed time truncated toward zero: within one millisecond below a forward run, and non-positive for a backward one |
| JobTrigger.SlowBounds | app/api/service/job_trigger.go:86-96 | whatever the clock's offset, a warned run lasted more than 60 s of real time and a run of 62 s or more is always warned |
| JobTrigger.OffsetDecidesWarning | app/api/service/job_trigger.go:87-95 | the offset can flip the verdict: 0.9 s to 61 s is warned with no offset and not with a 0.2 s offset |
| JobTrigger.Locked | app/api/service/job_trigger.go:107-117 | with the lock: the handler runs once, a failure is logged, the message is acked again, and the release comes last |
| JobTrigger.LockedGuarded | app/api/service/job_trigger.go:107-113 | within the locked part every handler run follows the lock being taken and precedes its release |
| JobTrigger.NotObtainedTrace | app/api/service/job_trigger.go:101-106 | without the lock the message is acked once, the handler never runs, and timing and count are still reported once each |
| JobTrigger.ObtainedTrace | app/api/service/job_trigger.go:101-117 | with the lock the handler runs exactly once, the message is acked twice, the release is recorded, and the metrics are reported once each |
| JobTrigger.AfterLookup | app/api/service/job_trigger.go:101-117 | the handler runs exactly when the lock was obtained; on failure the store is as the attempt left it; on success the lock is released at the handler's return |
| JobTrigger.HandleTrigger | app/api/service/job_trigger.go:69-120 | every message is acked first; an undecodable or unknown job is only acked, with the store untouched; a known job goes through its CronJobLock key; every handler run is guarded by the lock and belongs to the message's job |
| JobTrigger.TriggerTriesLockOnce | app/api/service/job_trigger.go:101-106 | the trigger's Obtain makes exactly one attempt on CronJobLock(job) and fails with ErrNotObtained when the key is held |
| JobTrigger.LockLapsesAfterTtl | app/api/service/job_trigger.go:102 | 30 s after the lock was taken, another client can take the same key, even while the handler still runs |
| JobTrigger.ReleaseAfterTtlFails | app/api/service/job_trigger.go:107 | a release 30 s or more after taking the lock finds it gone and reports an error |
| JobTrigger.SlowHandlerReleaseFails | app/api/service/job_trigger.go:101-113 | a handler that returns 30 s or more after the lock was taken leaves a failed release in the trace |
| JobTrigger.TriggerTimeIrrelevant | app/api/service/job_trigger.go:102 | handling depends on the job name only, never on the trigger time |
| JobTrigger.DoPublishConcurrently | app/api/service/job_trigger.go:37-67 | a negative concurrency panics; zero workers leak the sender when there are items; otherwise each id is received once, in input order, by a worker below the concurrency, and each worker calls fn on exactly the ids it received, in input order; calls by different workers may overlap, so no order between them is promised |
| JobTrigger.ReceivesPerWorker | app/api/service/job_trigger.go:48-60 | when each receive pairs an item with its assigned worker, every worker's fn calls are exactly its assigned items, in input order |
| PubSub.EnsureTopic | app/api/service/pubsub.go:17-27 | an existence-check error is returned with nothing created; an existing topic is returned; an absent one is created unless creation fails; subscriptions are never touched |
| PubSub.EnsureTopicIdempotent | app/api/service/pubsub.go:17-27 | after one successful EnsureTopic a second creates nothing |
| PubSub.SubscriptionIdInjective | app/api/service/pubsub.go:36 | different topics get different subscription ids "<topic>.sub.ascale" |
| PubSub.EnsureSubscription | app/api/service/pubsub.go:29-52 | an existence-check error is returned unchanged; an existing subscription is returned as is; an absent one is created on the topic with the given dead-letter policy and its id returned unless creation fails, whose error is then returned with nothing created; topics are never touched |
| PubSub.ExistingSubscriptionKeepsPolicy | app/api/service/pubsub.go:37-51 | a policy passed for an existing subscription is not applied |
| PubSub.Publish | app/api/service/pubsub.go:64-85 | a marshalling error is returned with nothing sent; otherwise the data is sent and the error is exactly the acknowledgement's |
| PubSub.ReceiveLoop | app/api/service/pubsub.go:120-130 | the loop keeps running exactly while the total number of failures is at most 10, and terminates on the failure that makes it 11 |
| PubSub.StartSubscriber | app/api/service/pubsub.go:109-118 | a worker starts exactly when its subscription is ensured, and then receives synchronously with the given message bound and 10^10 bytes |
| PubSub.EnsureTopics | app/api/service/pubsub.go:101-107 | when no check or creation fails it succeeds; on success every listed topic exists afterwards, no other topic was added and no subscription changed |
| PubSub.EnsureTopicsFailsIff | app/api/service/pubsub.go:101-107 | the topic loop stops exactly when some topic's existence check errs, or that topic is new (not before the loop, not earlier in the list) and its creation errs |
| PubSub.SubscribersSynchronousSingle | app/api/service/pubsub.go:116-118 | the subscribers started by `subscriptions` receive synchronously one message at a time, and a new subscription carries no dead-letter policy |
| PubSub.LogDeadLetter | app/api/service/pubsub.go:151-164 | exactly three events: one ack, then the whole milliseconds since the `xtime.Now()` start reading (offset included) and one count, both under "consumer:<dead-letter topic>" |
| PubSub.DeadLetterTiming | app/api/service/pubsub.go:152-158 | the reported milliseconds are the real run truncated to whole milliseconds in production, and the run less the clock offset outside it |
| CacheQueue.AddCache | app/api/service/service.go:68-86 | below 4096 pending the closure is appended; at capacity it is dropped and "chan full" logged; the queue never exceeds 4096 |
| CacheQueue.AddAll | app/api/service/service.go:68-86 | a run of enqueues keeps an in-order prefix of the new closures, drops the rest, and drops anything only once the buffer is full |
| CacheQueue.Fanout | app/api/service/service.go:104-128 | a negative n panics, n = 0 spins; otherwise item k goes to stream k mod n, exactly n streams, each holding its round-robin lane, never closed |
| CacheQueue.LanesPartition | app/api/service/service.go:113-123 | the lanes together hold exactly the intake: every item is forwarded once |
| CacheQueue.Cacheproc | app/api/service/service.go:88-102 | four consumers, consumer j running the closures of lane j in received order, together exactly the queued closures |
| Base64Url.Encode | pkg/gid/gid.go:49 | the unpadded encoding has the length of whole quanta plus 2 or 3 characters for a tail, all in the URL-safe alphabet, never 1 mod 4 |
| Base64Url.Decode | pkg/gid/gid.go:53 | fails exactly when, with line breaks dropped, a character lies outside the alphabet or the length is 1 mod 4 |
| Base64Url.DecodeEncode | pkg/gid/gid.go:46-59 | decoding what was encoded gives back the same bytes |
| Gid.LittleEndianRoundTrip | pkg/gid/gid.go:48 | the n little-endian bytes of a number below 256^n read back as that number |
| Gid.EncodeInt64ToString | pkg/gid/gid.go:46-50 | every id encodes to 11 URL-safe base64 characters |
| Gid.DecodeStringToInt64 | pkg/gid/gid.go:52-59 | a base64 error is returned; fewer than 8 decoded bytes panics; otherwise the id is the two's-complement reading of the first 8 bytes |
| Gid.DecodeEncodeId | pkg/gid/gid.go:46-59 | every int64 id survives encoding then decoding |
| Gid.DecodeUsesFirstEightBytes | pkg/gid/gid.go:57 | inputs whose decodings agree on the first 8 bytes decode to the same id |
| Gid.WorkerId | pkg/gid/gid.go:19-30 | with an IP (configured, else internal) a non-negative address gives address mod 1024, in [0, 1024); without one, the random draw |
| Gid.Init | pkg/gid/gid.go:18-36 | succeeds exactly when the worker number is accepted (no IP at all, a non-negative address, or an address divisible by 1024), and then with that worker number, in [0, 1023] |
| Gid.NewIdInt32 | pkg/gid/gid.go:42-44 | the remainder of the generated id by 10^8 with Go's sign rule: it fits in int32, and quotient times 10^8 plus it is the id |
| Sqalx.NewContext | pkg/database/sqalx/sqalx.go:25-27 | the context carries the given master flag |
| Sqalx.UseMaster | pkg/database/sqalx/sqalx.go:29-36 | true exactly when the context carries the flag true |
| Sqalx.UseMasterNewContext | pkg/database/sqalx/sqalx.go:25-36 | reading the flag back gives what was stored; a bare context reads false |
| Sqalx.Beginx | pkg/database/sqalx/sqalx.go:193-211 | without a transaction a real one is begun and becomes the driver, or its error is returned; inside one, the copy only becomes nested and shares it |
| Sqalx.Commit | pkg/database/sqalx/sqalx.go:234-253 | no transaction is ErrNotInTransaction; a real commit error leaves the node; a nested node or a successful commit clears transaction and driver |
| Sqalx.Rollback | pkg/database/sqalx/sqalx.go:213-232 | as Commit, except that no transaction is not an error |
| Sqalx.NestedNeverTouchesRealTx | pkg/database/sqalx/sqalx.go:213-253 | a nested node's commit and rollback succeed whatever the real transaction would answer |
| Sqalx.BeginCommitClears | pkg/database/sqalx/sqalx.go:193-253 | begin followed by a successful commit leaves neither transaction nor driver |
| Sqalx.ReadIndex | pkg/database/sqalx/sqalx.go:423-429 | 0 with no replicas and the counter untouched; otherwise the counter advances with int64 wrap-around and the index is its Go remainder by the replica count |
| Sqalx.ReadIndexAdvances | pkg/database/sqalx/sqalx.go:423-429 | successive reads start one replica further on, modulo the replica count |
| Sqalx.Rotate | pkg/database/sqalx/sqalx.go:302 | the k-th replica tried from start is (start + k) mod len |
| Sqalx.RotateBijective | pkg/database/sqalx/sqalx.go:301-302 | the rotation from any start visits every replica exactly once |
| Sqalx.Probe | pkg/database/sqalx/sqalx.go:301-307 | the first step whose replica is not unavailable, all earlier ones unavailable; none when all remaining are unavailable |
| Sqalx.Rotation | pkg/database/sqalx/sqalx.go:299-309 | tries distinct replicas from the start index, stops at the first not unavailable, else falls back after trying all of them, which were all unavailable |
| Sqalx.Read | pkg/database/sqalx/sqalx.go:288-310 | Select, and likewise Get (361-382) and Queryx (400-421): the master flag sends a read outside a transaction to the write database; inside a transaction to the driver (write for Queryx); otherwise the replica rotation, falling back only when all are unavailable |
| Sqalx.ClearedNodeReadsHitNil | pkg/database/sqalx/sqalx.go:309 | after a commit cleared the driver, a Select or Get that finds every replica unavailable reaches the nil driver |
| Sqalx.ExecTarget | pkg/database/sqalx/sqalx.go:312-327 | writes never reach a replica: the transaction when there is one, else the write database |
| Sqalx.GetByMasterTarget | pkg/database/sqalx/sqalx.go:384-394 | the write database outside a transaction, never a replica |
| Sqalx.ExecContextWithRetry | pkg/database/sqalx/sqalx.go:329-359 | one to three tries, each retry only after MySQL error 1213; the answer is the last try's result; stops at once on success or any other error |
| Sqalx.ParseDsnAddrMatches | pkg/database/sqalx/sqalx.go:432-444 | the address is the text after the first "@@" up to the next "@@" or the first "?"; "" without "@@" |
| Sqalx.ParseDsnAddrClean | pkg/database/sqalx/sqalx.go:432-444 | the address never contains "?" or "@@" |
| Antispam.Validate | pkg/net/http/vin/middleware/antispam/antispam.go:39-50 | rejects, in order, a nil config, Second < 1, then Hour < 1; accepts exactly the valid configs and never looks at N or M |
| Antispam.New | pkg/net/http/vin/middleware/antispam/antispam.go:53-62 | a rejected config fails with validate's error; otherwise the limiter holds that config |
| Antispam.Reload | pkg/net/http/vin/middleware/antispam/antispam.go:65-71 | a rejected config keeps the previous one; validity is preserved |
| Antispam.WindowStart | pkg/net/http/vin/middleware/antispam/antispam.go:79-81 | the window start is the truncated quotient times the size, and for non-negative x lies in (x - size, x] |
| Antispam.RateTotalKeysDisjoint | pkg/net/http/vin/middleware/antispam/antispam.go:117-123 | per-second and per-hour counter keys never coincide |
| Antispam.Check | pkg/net/http/vin/middleware/antispam/antispam.go:98-115 | fails open without a connection or on an INCR error; rejects exactly when the incremented counter exceeds count; no other key changes |
| Redis.IncrCanonical | pkg/net/http/vin/middleware/antispam/antispam.go:104-107 | a stored canonical int64 decimal is incremented by one, or refused at the int64 maximum; with `Incr`'s own ensures, a success always came from the canonical text of the previous count |
| Redis.IncrRejectsNonCanonical | pkg/net/http/vin/middleware/antispam/antispam.go:104-107 | a stored text with a leading zero, a '+' or a "-0" start is refused with an error and the store is left as it was, so the limiter lets the request pass |
| Antispam.CheckFreshWindow | pkg/net/http/vin/middleware/antispam/antispam.go:104-110 | the first request of a window sets the counter to 1 with an expiry of interval seconds |
| Antispam.CheckRunningWindow | pkg/net/http/vin/middleware/antispam/antispam.go:104-114 | a later request adds one, keeps the expiry, and is rejected exactly when the new count exceeds count |
| Antispam.Rate | pkg/net/http/vin/middleware/antispam/antispam.go:74-83 | no uid passes unchanged; otherwise the check on the user's, path's and current second-window's key |
| Antispam.Total | pkg/net/http/vin/middleware/antispam/antispam.go:86-96 | as Rate over hour windows, the counter expiring after hour·3600 seconds |
| Antispam.ServeHttp | pkg/net/http/vin/middleware/antispam/antispam.go:125-136 | the per-second check first; the per-hour check only after it passed; no uid or no connections pass unchanged |
| Antispam.OnIgnored | pkg/net/http/vin/middleware/antispam/antispam.go:125-136 | switching the limiter off changes nothing |
| Antispam.SecondRequestBlocked | pkg/net/http/vin/middleware/antispam/antispam_test.go:53-71 | with one request per window, a fresh user's first request passes and the immediate second is rejected |
| Supervisor.Reload | pkg/net/http/vin/middleware/supervisor/supervisor.go:33-39 | nil changes nothing; otherwise the gate is on exactly when On and Begin is before End |
| Supervisor.New | pkg/net/http/vin/middleware/supervisor/supervisor.go:24-30 | the gate is on exactly when a config with On and Begin before End was given |
| Supervisor.Forbid | pkg/net/http/vin/middleware/supervisor/supervisor.go:58-61 | GET is never forbidden, nor is anything at or outside the window's ends |
| Supervisor.ServeHttp | pkg/net/http/vin/middleware/supervisor/supervisor.go:41-51 | an off gate lets everything through; an abort answers ServiceUpdate and is never for GET |
| Supervisor.GateCharacterised | pkg/net/http/vin/middleware/supervisor/supervisor.go:41-61 | with the gate on, a request is aborted exactly when it is not GET and Begin < now < End |
| Supervisor.BoundariesAllowed | pkg/net/http/vin/middleware/supervisor/supervisor.go:58-61 | requests at exactly Begin or End go through |
| Supervisor.InvertedWindowOff | pkg/net/http/vin/middleware/supervisor/supervisor.go:37 | an empty or inverted window never blocks anything |
| Auth.GetBearer | pkg/net/http/vin/middleware/auth/auth.go:144-150 | a returned token contains no space |
| Auth.GetBearerCharacterised | pkg/net/http/vin/middleware/auth/auth.go:144-150 | a header yields token t exactly when it is "Bearer " followed by a space-free t |
| Auth.Decide | pkg/net/http/vin/middleware/auth/auth.go:72-89 | the lookup error, then not logged in or a role other than "user" (NoLogin), then impersonation on a non-GET (MethodNoPermission); the uid exactly when none applies |
| Auth.AuthToken | pkg/net/http/vin/middleware/auth/auth.go:62-90 | no usable bearer token is NoLogin without a lookup; otherwise the decision on that token's reply |
| Auth.AuthCookie | pkg/net/http/vin/middleware/auth/auth.go:93-117 | a missing cookie is NoLogin without a lookup; otherwise the same decision on the cookie's token |
| Auth.SetAccountId | pkg/net/http/vin/middleware/auth/auth.go:134-142 | "uid" and "origin" are set in the context keys, and in the metadata exactly when there is one |
| Auth.MidAuth | pkg/net/http/vin/middleware/auth/auth.go:119-131 | success records account and origin; MethodNoPermission is answered as itself, every other failure as Unauthorized |
| Auth.User | pkg/net/http/vin/middleware/auth/auth.go:41-59 | a token cookie means cookie auth with origin "web", otherwise bearer auth with origin "app" |
| Auth.UserAuthorisedIff | pkg/net/http/vin/middleware/auth/auth.go:41-131 | a request is let through exactly when its token source yields a non-empty token (any cookie) whose reply passes the decision |
| Auth.ImpersonationReadOnly | pkg/net/http/vin/middleware/auth/auth.go:112-131 | an impersonated cookie session is authorised for GET and refused with MethodNoPermission for anything else |
| Metadata.Mirror | pkg/net/http/vin/metadata.go:26-40 | true exactly when the header parses as Go boolean true |
| Metadata.MirrorSpellings | pkg/net/http/vin/metadata.go:26-40 | the six spellings of true set the flag; empty, "0", "false", "yes" and "on" do not |
| Metadata.Color | pkg/net/http/vin/metadata.go:58-64 | the header, or the deployment colour when it is empty |
| Metadata.SetTimeout | pkg/net/http/vin/metadata.go:67-70 | the header parses back to the duration in whole milliseconds (truncated) and no other header changes |
| Metadata.Timeout | pkg/net/http/vin/metadata.go:73-80 | an int64 duration; a header ParseInt rejects as a syntax error gives 0 (a digit run that overflows first is a range error, see OutOfRangeTimeoutNotPositive) |
| Metadata.TimeoutReduces | pkg/net/http/vin/metadata.go:73-80 | v milliseconds give v - 20 ms when v > 20, v ms otherwise |
| Metadata.OutOfRangeTimeoutNotPositive | pkg/net/http/vin/metadata.go:75-79 | a number outside int64 yields -1 ms or 0 after the multiplication wraps, never a positive timeout |
| Metadata.TimeoutSetTimeout | pkg/net/http/vin/metadata.go:67-80 | what one hop reads back is what was set, in whole ms, less 20 ms |
| Metadata.RemoteIp | pkg/net/http/vin/metadata.go:85-100 | the trusted proxy header wins unless empty or "null" |
| Metadata.ForwardedFirst | pkg/net/http/vin/metadata.go:89-94 | present exactly when X-Forwarded-For holds a comma, and then the trimmed text before the first comma |
| Metadata.RemoteIpPriority | pkg/net/http/vin/metadata.go:85-100 | each later source is used exactly when every earlier one is unusable; the remote address gives its text before the first ':' and panics without one |
| Metadata.SingleForwardedIgnored | pkg/net/http/vin/metadata.go:89-94 | an X-Forwarded-For without a comma changes nothing |
| Metadata.RemotePort | pkg/net/http/vin/metadata.go:102-107 | the header as it stands: "null" comes out exactly when it went in |
| Metadata.RemotePortKeepsNull | pkg/net/http/vin/metadata.go:102-107 | "null" is passed through rather than replaced |
| Server.Last | pkg/net/http/vin/server.go:78-83 | nil exactly for an empty chain, else the final handler |
| Server.LastAppend | pkg/net/http/vin/server.go:78-83 | the handler appended last is the one returned |
| Server.ParseDsn | pkg/net/http/vin/server.go:48-61 | nil exactly for ""; a bad DSN panics; otherwise the bound config |
| Server.SetConfig | pkg/net/http/vin/server.go:297-308 | refused exactly when the timeout is not positive, and then the config stays; otherwise installed with an empty network defaulted to "tcp" |
| Server.SetConfigInstalls | pkg/net/http/vin/server.go:297-308 | an installed config has a network and a positive timeout |
| Server.AddRoute | pkg/net/http/vin/server.go:358-375 | accepted exactly for a path starting with '/', a method, a handler and a (method, path) pair not yet registered; the method is then recorded under the path with every other metastore entry kept, and the pair is registered |
| Server.AddRouteLaterWins | pkg/net/http/vin/server.go:363-366 | registering a path again under a different, not yet registered method succeeds and leaves the later method in the metastore |
| Server.AddRouteTwiceRefused | pkg/net/http/vin/server.go:374 | registering the same method and path a second time panics |
| Server.EffectiveTimeout | pkg/net/http/vin/server.go:510-517 | the server timeout, or the header timeout when that is positive and smaller: never above either |
| Server.RequestDeadline | pkg/net/http/vin/server.go:527-531 | a deadline in the future exactly when the timeout is positive |
| Server.PropagatedTimeoutBounds | pkg/net/http/vin/server.go:514-516 | across one hop the callee's timeout is the smaller of its own and the caller's less 20 ms, and stays positive |
| Server.RedirectCode | pkg/net/http/vin/server.go:642-654 | 301 exactly for GET, else 307 |
| Server.RedirectTrailingSlash | pkg/net/http/vin/server.go:617-628 | after the prefix, a trailing slash is removed when there is one, added otherwise |
| Server.TrailingSlashToggles | pkg/net/http/vin/server.go:617-628 | without a prefix, redirecting twice gives back the path unless it ends in "//" |
| Server.TrailingSlashExamples | pkg/net/http/vin/server.go:617-628 | "/a" → "/a/", "/a/" → "/a", "/" → "//", and the prefix "/api" gives "/api//a/" |
| AccessLog.CallerName | pkg/net/http/vin/logger.go:52-55 | never empty: exactly the caller when one is given, exactly "no_user" when it is empty |
| AccessLog.LogLevel | pkg/net/http/vin/logger.go:82-102 | with an error Warn for a positive code, else Error; without one Warn when slow |
| AccessLog.SkipOnlyRoutineIgnored | pkg/net/http/vin/logger.go:82-102 | no record exactly for a fast, error-free request on an ignored path; Info exactly for one elsewhere |
| AccessLog.ErrorLevelIgnoresDuration | pkg/net/http/vin/logger.go:82-91 | with an error the level depends on the code only |
| AccessLog.Logger | pkg/net/http/vin/logger.go:52-102 | an empty path panics; otherwise stats under the caller name and the path without its first character, logged at LogLevel |
| AccessLog.LoggerExamples | pkg/net/http/vin/logger.go:52-102 | a fast ping is skipped under "no_user", a slow one warns, a negative code is an error |
| XTime.Sub | pkg/xtime/time.go:106 | the difference, saturated to the int64 range |
| XTime.Now | pkg/xtime/time.go:24-30 | the wall time in production, shifted by delta elsewhere |
| XTime.NowUnix | pkg/xtime/time.go:32-38 | Now floored to whole seconds |
| XTime.SetSystemTimeDelta | pkg/xtime/time.go:101-107 | a no-op in production; elsewhere delta becomes the target minus the wall time |
| XTime.ResetSystemTimeDelta | pkg/xtime/time.go:93-99 | a no-op in production; elsewhere delta becomes 0 |
| XTime.SetThenNow | pkg/xtime/time.go:101-107 | outside production, after setting to dt Now reads dt and then runs at wall speed; a reset restores the wall time |
| XTime.ProdIgnoresDelta | pkg/xtime/time.go:93-107 | in production Now is the wall time whatever is set or reset |
| XTime.Scan | pkg/xtime/time.go:113-123 | an instant becomes its floored Unix seconds; a string becomes ParseInt's value and error: 0 on a syntax error, the int64 bound on its sign's side on a range error, even when garbage follows an overflowing digit run; anything else changes nothing |
| XTime.Value | pkg/xtime/time.go:126-128 | an instant on a whole second whose Unix seconds are the stored value |
| XTime.ToTime | pkg/xtime/time.go:131-133 | the same instant as Value |
| XTime.ScanValue | pkg/xtime/time.go:113-128 | scanning back what Value or a decimal string gives restores the timestamp, whatever was stored before |
| XTime.UnmarshalText | pkg/xtime/time.go:139-145 | a parse error leaves the duration; success replaces it |
| XTime.UnmarshalIdempotent | pkg/xtime/time.go:139-145 | unmarshalling the same text twice equals once |
| XTime.Shrink | pkg/xtime/time.go:149-158 | never above d; a smaller remaining time is returned with the caller's own context; otherwise d with a child whose deadline is no later than now + d or the parent's |
| XTime.ShrinkIsMin | pkg/xtime/time.go:149-158 | with a deadline the result is min(remaining, d) |
| CacheKeys.TokenKeysDisjoint | pkg/def/def.go:5-11 | access and refresh token keys never collide |
| CacheKeys.TokenKeysInjective | pkg/def/def.go:5-11 | different tokens get different access keys and different refresh keys |
| CacheKeys.ValcodeKeysShared | pkg/def/def.go:13-19 | mobile and e-mail validation codes share one key format |
| CacheKeys.AcuityDatesAndTimesExtend | pkg/def/def.go:21-32 | a per-type dates or times key is the per-doctor key, "_" and the type |
| CacheKeys.AcuityBitmapExtends | pkg/def/def.go:34-40 | a per-day bitmap key begins with the per-doctor bitmap key and ":" |
| CacheKeys.AcuityTimeplanExtends | pkg/def/def.go:42-48 | a per-day timeplan key begins with the per-doctor timeplan key and ":" |
| CacheKeys.AcuityDateExtends | pkg/def/def.go:54-60 | the date key is the per-doctor key, ":" and the type |
| CacheKeys.AcuityDatesPrefixNotPerDoctor | pkg/def/def.go:21-26 | the per-doctor dates key has no trailing separator, so doctor 5's key also prefixes doctor 55's per-type key |
| CacheKeys.AppointmentUpcomingInjective | pkg/def/def.go:74-76 | the id follows the prefix directly, and different ids give different keys |

## Left out

- Real Redis, MySQL and Pub/Sub clients: connection pools, Lua execution and drivers. The store, the bus and the replicas are values, and their answers and errors are inputs.
- Goroutines, channels, WaitGroups and timers run one after another. Which worker takes an item and whether a connection is available are inputs. In `doPublishConcurrently` only the receives and each worker's own calls are ordered; how the calls of different workers interleave is not modelled.
- Cryptographic randomness, `rand.Intn` and every clock are inputs.
- JSON decoding in `jobTrigger` and JSON encoding in `Publish`: their results are inputs.
- The handler functions and the names in `def.TriggerJob` are parameters; `def.TriggerJob` is not part of this model.
- `getAllTopics` uses reflection over `def.Topics`. `EnsureTopics` takes the topic list as a parameter.
- `Options.Context` is not modelled, because `Obtain` never reads it.
- DLock.Obtain: attempts are instantaneous, and when the backoff timer and the deadline fall due together the deadline is taken. Go's `select` would choose at random.
- DLock.TtlSeconds: `int64(ttl.Seconds())` goes through a float64. It is modelled as exact truncation toward zero, which differs only for durations beyond 2^53 ns.
- Retry.NextBackoff: the exponential counter is a Go `uint`. Its wrap-around after 2^64 requests is not modelled.
- Antispam.Rate and Antispam.Total require Second (Hour) of at least 1. With 0, Go divides by zero and panics. Both are only called with a config that passed `validate`.
- Antispam: the Redis pool settings in `Config` and the EXPIRE reply are not modelled. The rate limiter ignores that reply anyway.
- Gid.WorkerId: `ip.InetAtoN` is not part of this model, so its result is an input. The snowflake generator is reduced to its node-number range 0..1023.
- Sqalx.Read requires a non-negative read counter below the int64 maximum when there are replicas. After wrap-around Go's `%` gives a negative index and `n.read[...]` panics; that path is not modelled.
- Sqalx: query results, `Ping`, `Close`, `Rebind` and timeouts are not modelled. The model records only which database a call reaches.
- Header canonicalisation (`textproto.CanonicalMIMEHeaderKey`) is not modelled. Headers are keyed by their canonical names directly.
- `dsn.Parse`/`Bind`, `path.Clean` and `time.ParseDuration` are not part of this model. Their results are inputs.
- Server.AddRoute: the route tree (`tree.go`) is not part of this model. Only an exact repeat of a method and path is refused; the tree's wildcard and catch-all conflict panics are not modelled.
- The route tree, `handleHTTPRequest`, rendering, the server lifecycle and the metadata map built in `ServeHTTP` are left out.
- AccessLog.Logger: the log fields, the stats sinks and the timeout quota are not modelled. Only the caller, the stats key and the level are.
- XTime.Now: `time.Time.Add` can overflow for an extreme delta. The model adds exactly.
- XTime: the timezone and calendar helpers (`BeginingOf*`, `EndOfMonthUnix` and others) need the tz database. They are left out.
- JobTrigger.Report: `time.Now()` and `xtime.NowUnix()` are read one after the other in the source; the model takes both readings at the same instant, so the nanoseconds between them are not modelled.
- CacheKeys: the `%d` verb applied to a string in `AcuityBitmapLockKey` renders `%!d(string=…)`. That key is not modelled.
- CacheKeys: the key builders take Go `int32` type ids. The model uses unbounded integers, which every int32 argument fits.

=== FILE: antispam.dfy ===
/**
  The fixed-window rate limiter of pkg/net/http/vin/middleware/antispam:
  per user and path, a Redis counter per window of `Second` seconds (at most
  `N` requests) and per window of `Hour` hours (at most `M` requests).
  Redis is the store of the Redis module; whether a connection could be had
  is an input, and the clock is an instant in nanoseconds.
 */
module Antispam {
  import opened Results
  import opened GoInt
  import opened Redis
  import Strconv

  const DEF_SECOND: int := 1
  const DEF_HOUR: int := 1

  /** `Config` without the Redis pool settings. */
  datatype Config = Config(on: bool, second: int, n: int, hour: int, m: int)

  datatype ConfigError = EmptyConfig | InvalidSecond | InvalidHour

  /** `validate`: a nil config, then Second, then Hour; N and M are never looked at. */
  function Validate(c: Option<Config>): (r: Option<ConfigError>)
    ensures r == Some(EmptyConfig) <==> c.None?
    ensures r == Some(InvalidSecond) <==> c.Some? && c.value.second < DEF_SECOND
    ensures r == Some(InvalidHour) <==> c.Some? && c.value.second >= DEF_SECOND && c.value.hour < DEF_HOUR
    ensures r.None? <==> c.Some? && Valid(c.value)
  {
    match c
    case None => Some(EmptyConfig)
    case Some(conf) =>
      if conf.second < DEF_SECOND then Some(InvalidSecond)
      else if conf.hour < DEF_HOUR then Some(InvalidHour)
      else None
  }

  predicate Valid(c: Config) {
    c.second >= DEF_SECOND && c.hour >= DEF_HOUR
  }

  /** The limiter's configuration, once `New` has accepted one. */
  datatype Antispam = Antispam(conf: Config)

  /** `New`: panics (here: `Err`) on a config `validate` rejects. */
  function New(c: Option<Config>): (r: Result<Antispam, ConfigError>)
    ensures r.Ok? <==> Validate(c).None?
    ensures r.Err? ==> r.error == Validate(c).value
    ensures r.Ok? ==> r.value.conf == c.value && Valid(r.value.conf)
  {
    match Validate(c)
    case Some(e) => Err(e)
    case None => Ok(Antispam(c.value))
  }

  /** `Reload`: a rejected config is logged and the previous one stays. */
  function Reload(s: Antispam, c: Option<Config>): (r: Antispam)
    ensures Validate(c).Some? ==> r == s
    ensures Validate(c).None? ==> r.conf == c.value
    ensures Valid(s.conf) ==> Valid(r.conf)
  {
    if Validate(c).Some? then s else Antispam(c.value)
  }

  /** The start of the window of `size` units that contains x: `x - x%size` with Go's `%`. */
  function WindowStart(x: int, size: int): (w: int)
    requires size >= 1
    ensures w == Quo(x, size) * size
    ensures x >= 0 ==> w <= x < w + size
  {
    x - Rem(x, size)
  }

  /** `rateKey`: "r_<uid>_<path>_<burst>". */
  function RateKey(uid: int64, path: string, burst: int): string {
    "r_" + Strconv.FormatInt(uid) + "_" + path + "_" + Strconv.FormatInt(burst)
  }

  /** `totalKey`: "t_<uid>_<path>_<burst>". */
  function TotalKey(uid: int64, path: string, burst: int): string {
    "t_" + Strconv.FormatInt(uid) + "_" + path + "_" + Strconv.FormatInt(burst)
  }

  /** The per-second and per-hour counters never share a key. */
  lemma RateTotalKeysDisjoint(u1: int64, p1: string, b1: int, u2: int64, p2: string, b2: int)
    ensures RateKey(u1, p1, b1) != TotalKey(u2, p2, b2)
  {
    assert RateKey(u1, p1, b1)[0] == 'r';
    assert TotalKey(u2, p2, b2)[0] == 't';
  }

  datatype Verdict = Pass | LimitExceed

  /**
    `antispam`: INCR the window's counter, give it an expiry of `interval`
    seconds when it has just become 1, and reject when it exceeds `count`.
    No connection, or an INCR error, lets the request through.
   */
  function Check(st: Store, key: string, interval: int, count: int, now: int, connOk: bool): (r: (Store, Verdict))
    ensures !connOk || Incr(st, key, now).1.Err? ==> r == (st, Pass)
    ensures r.1 == LimitExceed <==> connOk && Incr(st, key, now).1.Ok? && Incr(st, key, now).1.value > count
    ensures forall k :: k != key ==> (k in r.0 <==> k in st) && (k in st ==> r.0[k] == st[k])
  {
    if !connOk then (st, Pass)
    else
      var (st1, reply) := Incr(st, key, now);
      match reply
      case Err(_) => (st, Pass)
      case Ok(incred) =>
        var st2 := if incred == 1 then Expire(st1, key, interval, now) else st1;
        (st2, if incred > count then LimitExceed else Pass)
  }

  /** The first request of a window starts the counter at 1 with an expiry of `interval` seconds. */
  lemma CheckFreshWindow(st: Store, key: string, interval: int, count: int, now: int)
    requires Get(st, key, now).None?
    ensures var r := Check(st, key, interval, count, now, true);
      (r.1 == LimitExceed <==> count < 1) &&
      (interval > 0 ==> r.0 == st[key := Entry("1", Some(now + interval * SECOND))]) &&
      (interval <= 0 ==> r.0 == st - {key})
  {
    var st1 := st[key := Entry("1", None)];
    assert Get(st1, key, now).Some?;
    if interval <= 0 {
      assert Expire(st1, key, interval, now) == st - {key};
    }
  }

  /**
    A later request in the same window adds one to the live counter v and
    leaves its expiry alone; it is rejected exactly when v + 1 exceeds `count`.
   */
  lemma CheckRunningWindow(st: Store, key: string, interval: int, count: int, now: int, v: int)
    requires Get(st, key, now) == Some(Strconv.FormatInt(v))
    requires IsInt64(v) && v != MAX_INT64 && v != 0
    ensures var r := Check(st, key, interval, count, now, true);
      (r.1 == LimitExceed <==> v + 1 > count) &&
      r.0 == st[key := Entry(Strconv.FormatInt(v + 1), st[key].expiresAt)]
  {
    Strconv.ParseFormat(v);
    var text := Strconv.FormatInt(v);
    assert text[0] != '+' by {
      if v >= 0 {
        assert Strconv.IsDigit(text[0]);
      }
    }
  }

  /**
    `Rate`: without a "uid" the request is not limited; otherwise the key is
    the user's, the path's and the current `second`-second window's. `now` is
    in nanoseconds; `time.Now().Unix()` floors it to seconds.
   */
  function Rate(st: Store, uid: Option<int64>, path: string, second: int, count: int, now: int, connOk: bool): (r: (Store, Verdict))
    requires second >= 1
    ensures uid.None? ==> r == (st, Pass)
    ensures uid.Some? ==> r == Check(st, RateKey(uid.value, path, WindowStart(now / SECOND, second)), second, count, now, connOk)
  {
    match uid
    case None => (st, Pass)
    case Some(u) =>
      var curSecond := now / SECOND;
      Check(st, RateKey(u, path, WindowStart(curSecond, second)), second, count, now, connOk)
  }

  /** `Total`: as `Rate` over windows of `hour` hours, the counter expiring after hour·3600 seconds. */
  function Total(st: Store, uid: Option<int64>, path: string, hour: int, count: int, now: int, connOk: bool): (r: (Store, Verdict))
    requires hour >= 1
    ensures uid.None? ==> r == (st, Pass)
    ensures uid.Some? ==> r == Check(st, TotalKey(uid.value, path, WindowStart(Quo(now / SECOND, 3600), hour)), hour * 3600, count, now, connOk)
  {
    var second := hour * 3600;
    match uid
    case None => (st, Pass)
    case Some(u) =>
      var curHour := Quo(now / SECOND, 3600);
      Check(st, TotalKey(u, path, WindowStart(curHour, hour)), second, count, now, connOk)
  }

  /**
    `ServeHTTP`: the per-second check first, the per-hour check only if that
    passed; a rejection answers LimitExceed and aborts the chain. The `On`
    switch is not consulted. `rateConn` and `totalConn` say whether each
    check got a connection.
   */
  function ServeHttp(s: Antispam, st: Store, uid: Option<int64>, path: string, now: int, rateConn: bool, totalConn: bool): (r: (Store, Verdict))
    requires Valid(s.conf)
    ensures Rate(st, uid, path, s.conf.second, s.conf.n, now, rateConn).1 == LimitExceed ==>
      r == Rate(st, uid, path, s.conf.second, s.conf.n, now, rateConn)
    ensures Rate(st, uid, path, s.conf.second, s.conf.n, now, rateConn).1 == Pass ==>
      var st1 := Rate(st, uid, path, s.conf.second, s.conf.n, now, rateConn).0;
      r == Total(st1, uid, path, s.conf.hour, s.conf.m, now, totalConn)
    ensures uid.None? ==> r == (st, Pass)
    ensures !rateConn && !totalConn ==> r == (st, Pass)
  {
    var (st1, v1) := Rate(st, uid, path, s.conf.second, s.conf.n, now, rateConn);
    if v1 == LimitExceed then (st1, LimitExceed)
    else Total(st1, uid, path, s.conf.hour, s.conf.m, now, totalConn)
  }

  /** Switching the limiter "off" changes nothing. */
  lemma OnIgnored(s: Antispam, st: Store, uid: Option<int64>, path: string, now: int, rateConn: bool, totalConn: bool)
    requires Valid(s.conf)
    ensures ServeHttp(Antispam(s.conf.(on := false)), st, uid, path, now, rateConn, totalConn)
      == ServeHttp(Antispam(s.conf.(on := true)), st, uid, path, now, rateConn, totalConn)
  {
  }

  /**
    With one request allowed per second and per hour, a user's first request
    to a path in a fresh window passes and an immediate second one is rejected.
   */
  lemma SecondRequestBlocked(st: Store, u: int64, path: string, now: int)
    requires Get(st, RateKey(u, path, WindowStart(now / SECOND, 1)), now).None?
    requires Get(st, TotalKey(u, path, WindowStart(Quo(now / SECOND, 3600), 1)), now).None?
    ensures var s := Antispam(Config(true, 1, 1, 1, 1));
      var first := ServeHttp(s, st, Some(u), path, now, true, true);
      first.1 == Pass && ServeHttp(s, first.0, Some(u), path, now, true, true).1 == LimitExceed
  {
    var rk := RateKey(u, path, WindowStart(now / SECOND, 1));
    var tk := TotalKey(u, path, WindowStart(Quo(now / SECOND, 3600), 1));
    RateTotalKeysDisjoint(u, path, WindowStart(now / SECOND, 1), u, path, WindowStart(Quo(now / SECOND, 3600), 1));
    CheckFreshWindow(st, rk, 1, 1, now);
    var st1 := Check(st, rk, 1, 1, now, true).0;
    assert Get(st1, tk, now).None?;
    CheckFreshWindow(st1, tk, 3600, 1, now);
    var st2 := Check(st1, tk, 3600, 1, now, true).0;
    assert st2[rk] == st1[rk];
    assert Get(st2, rk, now) == Some(Strconv.FormatInt(1));
    CheckRunningWindow(st2, rk, 1, 1, now, 1);
  }
}

=== FILE: auth.dfy ===
/**
  The user authorisation middleware of pkg/net/http/vin/middleware/auth:
  a bearer token (apps) or a "token" cookie (web) is looked up with the
  identity service, and the reply decides between an account id and an
  error code. The identity service is a parameter: the reply it gives for
  each token.
 */
module Auth {
  import opened Results
  import opened GoInt
  import Strs

  /** `ecode` values the middleware answers with. */
  const METHOD_NO_PERMISSION: int := 4
  const NO_LOGIN: int := 101
  const UNAUTHORIZED: int := 401

  const METHOD_GET: string := "GET"
  /** `def.UserRole.User`. */
  const ROLE_USER: string := "user"
  /** `def.Origin`. */
  const ORIGIN_WEB: string := "web"
  const ORIGIN_APP: string := "app"

  /** The parts of `AuthReply` that are consulted. */
  datatype AuthReply = AuthReply(login: bool, role: string, uid: int64, impersonate: bool)

  /** What the identity service answers for a token: a reply or an error code. */
  type Identity = string -> Result<AuthReply, int>

  /** The request as far as authorisation reads it; a missing header reads as "". */
  datatype Request = Request(authorization: string, tokenCookie: Option<string>, verb: string)

  /** The answer of an auth function, and the token it asked the identity service about, if any. */
  datatype AuthOutcome = AuthOutcome(result: Result<int64, int>, lookedUp: Option<string>)

  /**
    `getBearer`: the header split on single spaces must give exactly two
    pieces, the first of them exactly "Bearer".
   */
  function GetBearer(header: string): (r: Option<string>)
    ensures r.Some? ==> Strs.Free(r.value, " ")
  {
    var parts := Strs.Split(header, " ");
    Strs.SplitPieces(header, " ");
    if |parts| == 2 && parts[0] == "Bearer" then Some(parts[1]) else None
  }

  /** Exactly the headers "Bearer " followed by a space-free token carry a token, and that token is returned. */
  lemma GetBearerCharacterised(header: string, t: string)
    ensures GetBearer(header) == Some(t) <==> header == "Bearer " + t && Strs.Free(t, " ")
  {
    if GetBearer(header) == Some(t) {
      var parts := Strs.Split(header, " ");
      Strs.JoinSplit(header, " ");
      Strs.JoinCons(parts[0], parts[1..], " ");
      assert parts[1..] == [t];
    }
    if header == "Bearer " + t && Strs.Free(t, " ") {
      BearerSplit(t);
    }
  }

  lemma BearerSplit(t: string)
    requires Strs.Free(t, " ")
    ensures Strs.Split("Bearer " + t, " ") == ["Bearer", t]
  {
    var h := "Bearer " + t;
    assert Strs.OccursAt(h, " ", 6);
    forall j: nat | j < 6 ensures !Strs.OccursAt(h, " ", j) {
      assert h[j + 0] != " "[0];
    }
    var f := Strs.Find(h, " ");
    assert f == Some(6);
    assert h[..6] == "Bearer" && h[7..] == t;
    Strs.SplitFirst(h, " ");
    Strs.SplitSecond(h, " ");
    Strs.SplitFirst(t, " ");
    Strs.SplitPieces(h, " ");
    var parts := Strs.Split(h, " ");
    assert parts == [h[..6]] + Strs.Split(h[7..], " ");
  }

  /**
    The decision both auth functions apply to the identity reply: its error,
    then not logged in, then a role other than "user" (both NoLogin), then
    an impersonated session attempting anything but GET.
   */
  function Decide(reply: Result<AuthReply, int>, verb: string): (r: Result<int64, int>)
    ensures r.Ok? <==> (reply.Ok? && reply.value.login && reply.value.role == ROLE_USER &&
                        !(reply.value.impersonate && verb != METHOD_GET))
    ensures r.Ok? ==> r.value == reply.value.uid
    ensures reply.Err? ==> r == Err(reply.error)
    ensures reply.Ok? && (!reply.value.login || reply.value.role != ROLE_USER) ==> r == Err(NO_LOGIN)
    ensures reply.Ok? && reply.value.login && reply.value.role == ROLE_USER && reply.value.impersonate && verb != METHOD_GET ==>
      r == Err(METHOD_NO_PERMISSION)
  {
    match reply
    case Err(e) => Err(e)
    case Ok(rep) =>
      if !rep.login then Err(NO_LOGIN)
      else if rep.role != ROLE_USER then Err(NO_LOGIN)
      else if rep.impersonate && verb != METHOD_GET then Err(METHOD_NO_PERMISSION)
      else Ok(rep.uid)
  }

  /** `AuthToken`: no usable bearer token is NoLogin without asking the identity service. */
  function AuthToken(req: Request, identity: Identity): (r: AuthOutcome)
    ensures GetBearer(req.authorization).None? || GetBearer(req.authorization) == Some("") ==>
      r == AuthOutcome(Err(NO_LOGIN), None)
    ensures r.lookedUp.Some? ==>
      GetBearer(req.authorization) == r.lookedUp && r.lookedUp.value != "" &&
      r.result == Decide(identity(r.lookedUp.value), req.verb)
  {
    var token := match GetBearer(req.authorization) case Some(v) => v case None => "";
    if token == "" then AuthOutcome(Err(NO_LOGIN), None)
    else AuthOutcome(Decide(identity(token), req.verb), Some(token))
  }

  /** `AuthCookie`: the same decision, with the token taken from the "token" cookie. */
  function AuthCookie(req: Request, identity: Identity): (r: AuthOutcome)
    ensures req.tokenCookie.None? ==> r == AuthOutcome(Err(NO_LOGIN), None)
    ensures req.tokenCookie.Some? ==>
      r.lookedUp == req.tokenCookie && r.result == Decide(identity(req.tokenCookie.value), req.verb)
  {
    match req.tokenCookie
    case None => AuthOutcome(Err(NO_LOGIN), None)
    case Some(v) => AuthOutcome(Decide(identity(v), req.verb), Some(v))
  }

  /** A value stored in the request context or its metadata. */
  datatype Value = IntValue(i: int) | StrValue(s: string)

  /** The request context's keys and, when present, its metadata map. */
  datatype Context = Context(keys: map<string, Value>, md: Option<map<string, Value>>)

  /** `setAccountID`: "uid" and "origin" in the context, and in the metadata when there is one. */
  function SetAccountId(ctx: Context, id: int64, origin: string): (r: Context)
    ensures r.keys == ctx.keys["uid" := IntValue(id)]["origin" := StrValue(origin)]
    ensures r.md.Some? <==> ctx.md.Some?
    ensures r.md.Some? ==> r.md.value == ctx.md.value["uid" := IntValue(id)]["origin" := StrValue(origin)]
  {
    var keys := ctx.keys["uid" := IntValue(id)]["origin" := StrValue(origin)];
    match ctx.md
    case None => Context(keys, None)
    case Some(md) => Context(keys, Some(md["uid" := IntValue(id)]["origin" := StrValue(origin)]))
  }

  /** What the middleware does with the request: lets it on with updated context, or answers an error and aborts. */
  datatype Response = Authorised(ctx: Context) | Aborted(code: int)

  /**
    `midAuth`: MethodNoPermission is answered as itself, any other failure
    as Unauthorized; success records the account and origin.
   */
  function MidAuth(ctx: Context, result: Result<int64, int>, origin: string): (r: Response)
    ensures result.Ok? <==> r.Authorised?
    ensures result.Ok? ==> r == Authorised(SetAccountId(ctx, result.value, origin))
    ensures result.Err? ==> r.code == (if result.error == METHOD_NO_PERMISSION then METHOD_NO_PERMISSION else UNAUTHORIZED)
  {
    match result
    case Ok(id) => Authorised(SetAccountId(ctx, id, origin))
    case Err(e) => Aborted(if e == METHOD_NO_PERMISSION then METHOD_NO_PERMISSION else UNAUTHORIZED)
  }

  /** `User`: cookie authorisation with origin "web" when a "token" cookie is present, else bearer with origin "app". */
  function User(ctx: Context, req: Request, identity: Identity): (r: Response)
    ensures req.tokenCookie.Some? ==> r == MidAuth(ctx, AuthCookie(req, identity).result, ORIGIN_WEB)
    ensures req.tokenCookie.None? ==> r == MidAuth(ctx, AuthToken(req, identity).result, ORIGIN_APP)
  {
    if req.tokenCookie.Some? then MidAuth(ctx, AuthCookie(req, identity).result, ORIGIN_WEB)
    else MidAuth(ctx, AuthToken(req, identity).result, ORIGIN_APP)
  }

  /**
    End to end: a request is let through exactly when its token's reply is a
    logged-in "user" that is not impersonating a write, and then the context
    carries that account id and the origin the token came from.
   */
  lemma UserAuthorisedIff(ctx: Context, req: Request, identity: Identity)
    ensures var token := if req.tokenCookie.Some? then req.tokenCookie else GetBearer(req.authorization);
      var origin := if req.tokenCookie.Some? then ORIGIN_WEB else ORIGIN_APP;
      User(ctx, req, identity).Authorised? <==>
        token.Some? && (req.tokenCookie.Some? || token.value != "") &&
        identity(token.value).Ok? && Decide(identity(token.value), req.verb).Ok?
  {
  }

  /** An impersonated session may read but never write; the write is refused as itself, not as Unauthorized. */
  lemma ImpersonationReadOnly(ctx: Context, req: Request, identity: Identity, token: string, rep: AuthReply)
    requires req.tokenCookie == Some(token) && identity(token) == Ok(rep)
    requires rep.login && rep.role == ROLE_USER && rep.impersonate
    ensures req.verb == METHOD_GET ==> User(ctx, req, identity) == Authorised(SetAccountId(ctx, rep.uid, ORIGIN_WEB))
    ensures req.verb != METHOD_GET ==> User(ctx, req, identity) == Aborted(METHOD_NO_PERMISSION)
  {
  }
}

=== FILE: base64url.dfy ===
/**
  Unpadded base64 over the URL- and filename-safe alphabet (section 5 of
  RFC 4648), as Go's `base64.RawURLEncoding` implements it: no '=' padding,
  carriage returns and line feeds ignored when decoding, and non-zero
  trailing bits in the last quantum accepted.
 */
module Base64Url {
  import opened Results

  type byte = x: int | 0 <= x < 256
  type sextet = x: int | 0 <= x < 64

  /** The character for a 6-bit value: 'A'-'Z', 'a'-'z', '0'-'9', '-', '_'. */
  function IndexChar(i: sextet): char {
    if i < 26 then (65 + i) as char
    else if i < 52 then (97 + i - 26) as char
    else if i < 62 then (48 + i - 52) as char
    else if i == 62 then '-'
    else '_'
  }

  predicate InAlphabet(c: char) {
    ('A' <= c <= 'Z') || ('a' <= c <= 'z') || ('0' <= c <= '9') || c == '-' || c == '_'
  }

  predicate AllInAlphabet(s: string) {
    forall i :: 0 <= i < |s| ==> InAlphabet(s[i])
  }

  /** The 6-bit value of an alphabet character; the inverse of IndexChar. */
  function CharIndex(c: char): (i: sextet)
    requires InAlphabet(c)
    ensures IndexChar(i) == c
  {
    if 'A' <= c <= 'Z' then c as int - 65
    else if 'a' <= c <= 'z' then c as int - 97 + 26
    else if '0' <= c <= '9' then c as int - 48 + 52
    else if c == '-' then 62
    else 63
  }

  lemma IndexCharInverse(i: sextet)
    ensures InAlphabet(IndexChar(i)) && CharIndex(IndexChar(i)) == i
  {
  }

  /** Three bytes, most significant bit first, as four 6-bit values. */
  function EncodeQuantum(b0: byte, b1: byte, b2: byte): (r: string)
    ensures |r| == 4 && AllInAlphabet(r)
  {
    IndexCharInverse(b0 / 4);
    IndexCharInverse((b0 % 4) * 16 + b1 / 16);
    IndexCharInverse((b1 % 16) * 4 + b2 / 64);
    IndexCharInverse(b2 % 64);
    [IndexChar(b0 / 4), IndexChar((b0 % 4) * 16 + b1 / 16),
     IndexChar((b1 % 16) * 4 + b2 / 64), IndexChar(b2 % 64)]
  }

  /** The number of characters the unpadded encoding of n bytes takes. */
  function EncodedLen(n: nat): nat {
    if n >= 3 then 4 + EncodedLen(n - 3) else if n == 0 then 0 else n + 1
  }

  /** `RawURLEncoding.EncodeToString`: whole quanta, then 2 or 3 characters for a 1- or 2-byte tail. */
  function Encode(bs: seq<byte>): (s: string)
    ensures |s| == EncodedLen(|bs|)
    ensures AllInAlphabet(s)
    ensures |s| % 4 != 1
  {
    if |bs| >= 3 then EncodeQuantum(bs[0], bs[1], bs[2]) + Encode(bs[3..])
    else if |bs| == 2 then EncodeQuantum(bs[0], bs[1], 0)[..3]
    else if |bs| == 1 then EncodeQuantum(bs[0], 0, 0)[..2]
    else ""
  }

  /** Four 6-bit values back to three bytes. */
  function DecodeQuantum(c0: sextet, c1: sextet, c2: sextet, c3: sextet): seq<byte> {
    [c0 * 4 + c1 / 16, (c1 % 16) * 16 + c2 / 4, (c2 % 4) * 64 + c3]
  }

  /** A full quantum of four alphabet characters back to three bytes. */
  function DecodeFour(q: string): (bs: seq<byte>)
    requires |q| == 4 && AllInAlphabet(q)
    ensures |bs| == 3
  {
    DecodeQuantum(CharIndex(q[0]), CharIndex(q[1]), CharIndex(q[2]), CharIndex(q[3]))
  }

  /** Decodes a newline-free string that is all alphabet and whose length is not 1 mod 4. */
  function DecodeValid(s: string): (bs: seq<byte>)
    requires AllInAlphabet(s) && |s| % 4 != 1
    ensures EncodedLen(|bs|) == |s|
  {
    if |s| >= 4 then
      DecodeFour(s[..4]) + DecodeValid(s[4..])
    else if |s| == 3 then
      DecodeQuantum(CharIndex(s[0]), CharIndex(s[1]), CharIndex(s[2]), 0)[..2]
    else if |s| == 2 then
      DecodeQuantum(CharIndex(s[0]), CharIndex(s[1]), 0, 0)[..1]
    else []
  }

  function StripNewlines(s: string): (t: string)
    ensures |t| <= |s|
    ensures forall i :: 0 <= i < |t| ==> t[i] != '\r' && t[i] != '\n'
  {
    if |s| == 0 then ""
    else if s[0] == '\r' || s[0] == '\n' then StripNewlines(s[1..])
    else [s[0]] + StripNewlines(s[1..])
  }

  datatype CorruptInput = CorruptInput

  /**
    `RawURLEncoding.DecodeString`: after dropping line breaks, the input must be
    all alphabet characters and must not leave a single character in its last quantum.
   */
  function Decode(s: string): (r: Result<seq<byte>, CorruptInput>)
    ensures r.Err? <==> !AllInAlphabet(StripNewlines(s)) || |StripNewlines(s)| % 4 == 1
  {
    var t := StripNewlines(s);
    if AllInAlphabet(t) && |t| % 4 != 1 then Ok(DecodeValid(t)) else Err(CorruptInput)
  }

  /** The regrouping of bits across the 6-bit boundaries is undone by decoding. */
  lemma Regroup(b0: byte, b1: byte, b2: byte)
    ensures ((b0 % 4) * 16 + b1 / 16) / 16 == b0 % 4 && ((b0 % 4) * 16 + b1 / 16) % 16 == b1 / 16
    ensures ((b1 % 16) * 4 + b2 / 64) / 4 == b1 % 16 && ((b1 % 16) * 4 + b2 / 64) % 4 == b2 / 64
  {
  }

  lemma QuantumRoundTrip(b0: byte, b1: byte, b2: byte)
    ensures DecodeFour(EncodeQuantum(b0, b1, b2)) == [b0, b1, b2]
  {
    var c0, c1, c2, c3 := b0 / 4, (b0 % 4) * 16 + b1 / 16, (b1 % 16) * 4 + b2 / 64, b2 % 64;
    Regroup(b0, b1, b2);
    IndexCharInverse(c0);
    IndexCharInverse(c1);
    IndexCharInverse(c2);
    IndexCharInverse(c3);
    var q := EncodeQuantum(b0, b1, b2);
    assert q == [IndexChar(c0), IndexChar(c1), IndexChar(c2), IndexChar(c3)];
    assert DecodeFour(q) == DecodeQuantum(c0, c1, c2, c3);
  }

  /** A two-byte tail encodes to three characters that decode back to it. */
  lemma TwoByteTailRoundTrip(b0: byte, b1: byte)
    ensures DecodeValid(EncodeQuantum(b0, b1, 0)[..3]) == [b0, b1]
  {
    var q := EncodeQuantum(b0, b1, 0);
    var t := q[..3];
    QuantumRoundTrip(b0, b1, 0);
    assert t[0] == q[0] && t[1] == q[1] && t[2] == q[2];
    var x, y, z := CharIndex(q[0]), CharIndex(q[1]), CharIndex(q[2]);
    assert DecodeValid(t) == DecodeQuantum(x, y, z, 0)[..2];
    assert DecodeQuantum(x, y, z, 0)[..2] == DecodeQuantum(x, y, z, CharIndex(q[3]))[..2];
  }

  /** A one-byte tail encodes to two characters that decode back to it. */
  lemma OneByteTailRoundTrip(b0: byte)
    ensures DecodeValid(EncodeQuantum(b0, 0, 0)[..2]) == [b0]
  {
    var q := EncodeQuantum(b0, 0, 0);
    var t := q[..2];
    QuantumRoundTrip(b0, 0, 0);
    assert t[0] == q[0] && t[1] == q[1];
    var x, y := CharIndex(q[0]), CharIndex(q[1]);
    assert DecodeValid(t) == DecodeQuantum(x, y, 0, 0)[..1];
    assert DecodeQuantum(x, y, 0, 0)[..1] == DecodeQuantum(x, y, CharIndex(q[2]), CharIndex(q[3]))[..1];
  }

  lemma StripNewlinesNoop(s: string)
    requires AllInAlphabet(s)
    ensures StripNewlines(s) == s
  {
    if |s| > 0 {
      StripNewlinesNoop(s[1..]);
    }
  }

  /** Decoding a full quantum followed by more input decodes the two separately. */
  lemma DecodeValidCons(q: string, rest: string)
    requires |q| == 4 && AllInAlphabet(q) && AllInAlphabet(rest) && |rest| % 4 != 1
    ensures AllInAlphabet(q + rest) && |q + rest| % 4 != 1
    ensures DecodeValid(q + rest) == DecodeFour(q) + DecodeValid(rest)
  {
    var s := q + rest;
    assert s[..4] == q && s[4..] == rest;
  }

  /** An encoded quantum in front of more valid input decodes to its three bytes in front. */
  lemma QuantumConsRoundTrip(b0: byte, b1: byte, b2: byte, rest: string)
    requires AllInAlphabet(rest) && |rest| % 4 != 1
    ensures AllInAlphabet(EncodeQuantum(b0, b1, b2) + rest)
    ensures |EncodeQuantum(b0, b1, b2) + rest| % 4 != 1
    ensures DecodeValid(EncodeQuantum(b0, b1, b2) + rest) == [b0, b1, b2] + DecodeValid(rest)
  {
    DecodeValidCons(EncodeQuantum(b0, b1, b2), rest);
    QuantumRoundTrip(b0, b1, b2);
  }

  lemma HeadThree(bs: seq<byte>)
    requires |bs| >= 3
    ensures bs == [bs[0], bs[1], bs[2]] + bs[3..]
  {
  }

  /** The inductive step: the first quantum round-trips and the rest is as decoded before. */
  lemma FullQuantumStep(bs: seq<byte>)
    requires |bs| >= 3 && DecodeValid(Encode(bs[3..])) == bs[3..]
    ensures DecodeValid(Encode(bs)) == bs
  {
    HeadThree(bs);
    var rest := Encode(bs[3..]);
    assert Encode(bs) == EncodeQuantum(bs[0], bs[1], bs[2]) + rest;
    QuantumConsRoundTrip(bs[0], bs[1], bs[2], rest);
  }

  /** Decoding what was encoded gives back the same bytes. */
  lemma {:induction false} DecodeValidEncode(bs: seq<byte>)
    ensures DecodeValid(Encode(bs)) == bs
    decreases |bs|
  {
    if |bs| >= 3 {
      DecodeValidEncode(bs[3..]);
      FullQuantumStep(bs);
    } else if |bs| == 2 {
      TwoByteTailRoundTrip(bs[0], bs[1]);
    } else if |bs| == 1 {
      OneByteTailRoundTrip(bs[0]);
    }
  }

  lemma DecodeEncode(bs: seq<byte>)
    ensures Decode(Encode(bs)) == Ok(bs)
  {
    StripNewlinesNoop(Encode(bs));
    DecodeValidEncode(bs);
  }
}

=== FILE: cache_keys.dfy ===
/**
  The cache-key builders of pkg/def/def.go. Every `%d` renders an integer in
  decimal, every `%s` and `%v` of a string inserts it verbatim.
 */
module CacheKeys {
  import opened GoInt
  import opened Strconv

  function AccessTokenKey(token: string): string { "ak_" + token }

  function RefreshTokenKey(token: string): string { "rk_" + token }

  function MobileValcodeKey(vtype: int, mobile: string): string {
    "rc_" + FormatInt(vtype) + "_" + mobile
  }

  function EmailValcodeKey(vtype: int, emailHex: string): string {
    "rc_" + FormatInt(vtype) + "_" + emailHex
  }

  function AcuityDatesKey(doctorID: int64, appointmentTypeID: int): string {
    "acuity_dates_" + FormatInt(doctorID) + "_" + FormatInt(appointmentTypeID)
  }

  function AcuityDatesKeyByDoctorId(doctorID: int64): string {
    "acuity_dates_" + FormatInt(doctorID)
  }

  function AcuityTimesKey(doctorID: int64, appointmentTypeID: int): string {
    "acuity_times_" + FormatInt(doctorID) + "_" + FormatInt(appointmentTypeID)
  }

  function AcuityTimesKeyByDoctorId(doctorID: int64): string {
    "acuity_times_" + FormatInt(doctorID)
  }

  function AcuityBitmapKey(doctorID: int64, dayStr: string, typeId: int): string {
    "bitmap:" + FormatInt(doctorID) + ":" + dayStr + ":" + FormatInt(typeId)
  }

  function AcuityBitmapKeyByDoctorId(doctorID: int64): string {
    "bitmap:" + FormatInt(doctorID)
  }

  function AcuityTimeplanKey(doctorID: int64, dayStr: string, typeId: int): string {
    "timeplan:" + FormatInt(doctorID) + ":" + dayStr + ":" + FormatInt(typeId)
  }

  function AcuityTimeplanKeyByDoctorId(doctorID: int64): string {
    "timeplan:" + FormatInt(doctorID)
  }

  function AcuityDateKey(doctorID: int64, typeId: int): string {
    "acuity_refactor_date:" + FormatInt(doctorID) + ":" + FormatInt(typeId)
  }

  function AcuityDateKeyByDoctorId(doctorID: int64): string {
    "acuity_refactor_date:" + FormatInt(doctorID)
  }

  function TimePlanWeeklyArgsKey(doctorID: int64): string {
    "time_plan_weekly_args:" + FormatInt(doctorID)
  }

  function TimePlanProcessStatusKey(keySuffix: int64): string {
    "time_plan_process_status:" + FormatInt(keySuffix)
  }

  function FollowUpCalKeyByDoctorId(doctorID: int64): string {
    "follow_up_cal:" + FormatInt(doctorID)
  }

  function AppointmentUpcoming(appointment: int64): string {
    "zoom_upcoming" + FormatInt(appointment)
  }

  function AppointmentLateRecord(appointment: int64, recordType: string, role: string): string {
    "zoom_late" + FormatInt(appointment) + "_" + recordType + "_" + role
  }

  function UserSignInKey(userId: int64, month: string): string {
    "user:sign:" + FormatInt(userId) + ":" + month
  }

  function TimePlanDaysKey(doctorID: int64, date: string): string {
    "time_plan_days:" + FormatInt(doctorID) + ":" + date
  }

  function AtZoomWaitingRoomTooLongKey(meetStartTime: int64, meetingID: string, userName: string): string {
    "zoom_waiting_too_long_reminder" + meetingID + "_" + FormatInt(meetStartTime) + "_" + userName
  }

  function StripeOrderNew(orderID: int64): string { "stripe_order_" + FormatInt(orderID) }

  function AcuityDoctor(doctorUserID: int64): string { "acuity_doctor_" + FormatInt(doctorUserID) }

  function AcuityWeekRuleDoctor(doctorUserID: int64): string {
    "acuity_week_rule_doctor_" + FormatInt(doctorUserID)
  }

  function OrderPaymentFailPopUpKey(uid: int64): string {
    "order_payment_fail_pop_up_" + FormatInt(uid)
  }

  function AnnualPromotionKey(uid: int64): string {
    "user:annual:pop:" + FormatInt(uid) + ",annual_promotion"
  }

  function AnnualFailKey(uid: int64): string {
    "user:annual:fail:" + FormatInt(uid) + ",annual_fail_pop"
  }

  function ChartAuditOccupyKey(auditID: int64): string {
    "privider:chart_audit:occupy:" + FormatInt(auditID) + ",quest_occupy"
  }

  function RefillRequestOccupyKey(requestId: int64): string {
    "privider:refill:occupy:" + FormatInt(requestId) + ",quest_occupy"
  }

  function UrgentRefillPopFlag(uid: int64): string {
    "privider:refill:popo:" + FormatInt(uid) + ",urgent_pop"
  }

  function PaymentMethodKey(number: string, expMonth: string, expYear: string, cvc: string): string {
    "payment_method:" + number + "," + expMonth + "," + expYear + "," + cvc
  }

  function ReferralFriendEmailKey(uid: int64, email: string): string {
    "referral_friend_email_" + FormatInt(uid) + "_" + email
  }

  function GoogleCalendarCodeCheckKey(code: string): string { "google_calendar_code_" + code }

  function PaypalOrderNew(orderID: int64): string { "paypal_order_" + FormatInt(orderID) }

  const CANCEL_RX_ORDER_COUNT_KEY: string := "cancel_rx_order_count_key"
  const SYSTEM_TIME_DELTA_KEY: string := "system_time_delta"
  const FULL_ES_TASK: string := "full_es_task"
  const VERIFIABLE_PROVIDER_KEY: string := "verifiable_provider_key"
  const ZOOM_WAITING_ROOM_KEY: string := "zoom_waiting_room_key"
  const ZOOM_SERVER_TO_SERVER_TOKEN: string := "zoom_server_to_server_token"

  /** Access-token and refresh-token keys never collide, whatever the tokens. */
  lemma TokenKeysDisjoint(t: string, u: string)
    ensures AccessTokenKey(t) != RefreshTokenKey(u)
  {
    assert AccessTokenKey(t)[0] == 'a' && RefreshTokenKey(u)[0] == 'r';
  }

  /** Each token has its own access key and its own refresh key. */
  lemma TokenKeysInjective(t: string, u: string)
    ensures AccessTokenKey(t) == AccessTokenKey(u) ==> t == u
    ensures RefreshTokenKey(t) == RefreshTokenKey(u) ==> t == u
  {
    assert AccessTokenKey(t)[3..] == t && AccessTokenKey(u)[3..] == u;
    assert RefreshTokenKey(t)[3..] == t && RefreshTokenKey(u)[3..] == u;
  }

  /** Mobile and e-mail validation codes share one key space: equal arguments give equal keys. */
  lemma ValcodeKeysShared(vtype: int, s: string)
    ensures MobileValcodeKey(vtype, s) == EmailValcodeKey(vtype, s)
  {
  }

  /** A per-type dates/times key is the per-doctor key extended by "_" and the type. */
  lemma AcuityDatesAndTimesExtend(doctorID: int64, typeID: int)
    ensures AcuityDatesKey(doctorID, typeID) == AcuityDatesKeyByDoctorId(doctorID) + "_" + FormatInt(typeID)
    ensures AcuityTimesKey(doctorID, typeID) == AcuityTimesKeyByDoctorId(doctorID) + "_" + FormatInt(typeID)
  {
  }

  /** A sequence is a prefix of itself extended by anything. */
  lemma PrefixOfAppend(a: string, b: string)
    ensures a <= a + b
  {
    assert (a + b)[..|a|] == a;
  }

  /** A per-day bitmap key extends the per-doctor bitmap key followed by ":". */
  lemma AcuityBitmapExtends(doctorID: int64, dayStr: string, typeID: int)
    ensures AcuityBitmapKeyByDoctorId(doctorID) + ":" <= AcuityBitmapKey(doctorID, dayStr, typeID)
  {
    var p := AcuityBitmapKeyByDoctorId(doctorID) + ":";
    var rest := dayStr + ":" + FormatInt(typeID);
    assert AcuityBitmapKey(doctorID, dayStr, typeID) == p + rest;
    PrefixOfAppend(p, rest);
  }

  /** A per-day timeplan key extends the per-doctor timeplan key followed by ":". */
  lemma AcuityTimeplanExtends(doctorID: int64, dayStr: string, typeID: int)
    ensures AcuityTimeplanKeyByDoctorId(doctorID) + ":" <= AcuityTimeplanKey(doctorID, dayStr, typeID)
  {
    var p := AcuityTimeplanKeyByDoctorId(doctorID) + ":";
    var rest := dayStr + ":" + FormatInt(typeID);
    assert AcuityTimeplanKey(doctorID, dayStr, typeID) == p + rest;
    PrefixOfAppend(p, rest);
  }

  /** The refactored date key is the per-doctor key extended by ":" and the type. */
  lemma AcuityDateExtends(doctorID: int64, typeID: int)
    ensures AcuityDateKey(doctorID, typeID) == AcuityDateKeyByDoctorId(doctorID) + ":" + FormatInt(typeID)
  {
  }

  /**
    Because the per-doctor dates key has no trailing separator, it is also a
    prefix of another doctor's per-type key: doctor 5's "acuity_dates_5" begins
    doctor 55's "acuity_dates_55_1".
   */
  lemma AcuityDatesPrefixNotPerDoctor()
    ensures AcuityDatesKeyByDoctorId(5) <= AcuityDatesKey(55, 1)
  {
    assert FormatInt(5) == "5";
    assert FormatInt(55) == "55";
    assert FormatInt(1) == "1";
  }

  /** The upcoming-appointment key puts the id right after the prefix, with no separator. */
  lemma AppointmentUpcomingInjective(a: int64, b: int64)
    ensures AppointmentUpcoming(a) == AppointmentUpcoming(b) ==> a == b
    ensures AppointmentUpcoming(a)[13..] == FormatInt(a)
  {
    var p := "zoom_upcoming";
    assert |p| == 13;
    assert AppointmentUpcoming(a)[13..] == FormatInt(a);
    assert AppointmentUpcoming(b)[13..] == FormatInt(b);
    FormatIntInjective(a, b);
  }
}

=== FILE: cache_queue.dfy ===
/**
  The deferred-cache queue of app/api/service/service.go: `addCache` puts a
  closure on a buffered channel of 4096 without ever blocking, and
  `cacheproc` spreads the channel round-robin over four unbuffered streams,
  each drained by its own consumer. Closures are opaque values of type T;
  the goroutines run one after another.
 */
module CacheQueue {

  const CAPACITY: int := 1024 * 4

  /** The pending closures and whether `addCache` logged "cacheproc chan full". */
  datatype AddOutcome<T> = AddOutcome(pending: seq<T>, loggedFull: bool)

  /** `addCache`: enqueue when the buffer has room, otherwise drop the closure and log. */
  function AddCache<T>(pending: seq<T>, f: T): (r: AddOutcome<T>)
    ensures |pending| < CAPACITY ==> r == AddOutcome(pending + [f], false)
    ensures |pending| >= CAPACITY ==> r == AddOutcome(pending, true)
    ensures |pending| <= CAPACITY ==> |r.pending| <= CAPACITY
  {
    if |pending| < CAPACITY then AddOutcome(pending + [f], false) else AddOutcome(pending, true)
  }

  /** Enqueueing a run of closures into a bounded buffer: the accepted ones in order, the others logged as dropped. */
  function AddAll<T>(pending: seq<T>, fs: seq<T>): (r: (seq<T>, nat))
    requires |pending| <= CAPACITY
    ensures |pending| <= |r.0| <= CAPACITY && |r.0| <= |pending| + |fs|
    ensures r.0 == pending + fs[..|r.0| - |pending|]
    ensures |r.0| - |pending| + r.1 == |fs|
    ensures r.1 > 0 ==> |r.0| == CAPACITY
    decreases |fs|
  {
    if |fs| == 0 then (pending, 0)
    else
      var a := AddCache(pending, fs[0]);
      var (q, dropped) := AddAll(a.pending, fs[1..]);
      if a.loggedFull then
        assert fs[..|q| - |pending|] == [];
        (q, dropped + 1)
      else
        assert fs[..|q| - |pending|] == [fs[0]] + fs[1..][..|q| - |a.pending|];
        (q, dropped)
  }

  /** The items a round-robin over n streams sends to stream j: those whose index is j modulo n, in order. */
  function Lane<T>(items: seq<T>, n: nat, j: nat): (lane: seq<T>)
    requires n > 0
    ensures |lane| <= |items|
  {
    if |items| == 0 then []
    else Lane(items[..|items| - 1], n, j) + (if (|items| - 1) % n == j then [items[|items| - 1]] else [])
  }

  /** One step of the distributor: item k went to stream `stream`. */
  datatype Forward<T> = Forward(stream: nat, item: T)

  /**
    How `fanoutCacheproc` behaves: `make` panics on a negative n; with no
    streams the distributor spins without taking anything; otherwise it
    forwards. The streams are never closed, even after the intake closes.
   */
  datatype FanoutOutcome<T> = MakePanics | Spins | Distributed(trace: seq<Forward<T>>, streams: seq<seq<T>>, closed: bool)

  /**
    `fanoutCacheproc` with the distributor run to the end of the intake:
    strict round robin, one intake item per step.
   */
  method Fanout<T>(items: seq<T>, n: int) returns (r: FanoutOutcome<T>)
    ensures n < 0 <==> r.MakePanics?
    ensures n == 0 <==> r.Spins?
    ensures n > 0 ==> r.Distributed? && !r.closed && |r.streams| == n && |r.trace| == |items|
    ensures n > 0 ==> forall k | 0 <= k < |items| :: r.trace[k] == Forward(k % n, items[k])
    ensures n > 0 ==> forall j | 0 <= j < n :: r.streams[j] == Lane(items, n, j)
  {
    if n < 0 {
      return MakePanics;
    }
    if n == 0 {
      return Spins;
    }
    var streams: seq<seq<T>> := seq(n, _ => []);
    var trace: seq<Forward<T>> := [];
    var k := 0;
    while k < |items|
      invariant 0 <= k <= |items|
      invariant |streams| == n && |trace| == k
      invariant forall i | 0 <= i < k :: trace[i] == Forward(i % n, items[i])
      invariant forall j | 0 <= j < n :: streams[j] == Lane(items[..k], n, j)
    {
      var c := k % n;
      assert items[..k + 1] == items[..k] + [items[k]];
      forall j | 0 <= j < n
        ensures Lane(items[..k + 1], n, j) == Lane(items[..k], n, j) + (if c == j then [items[k]] else [])
      {
        LaneStep(items[..k], n, j, items[k]);
      }
      streams := streams[c := streams[c] + [items[k]]];
      trace := trace + [Forward(c, items[k])];
      k := k + 1;
    }
    assert items[..k] == items;
    return Distributed(trace, streams, false);
  }

  lemma LaneStep<T>(items: seq<T>, n: nat, j: nat, x: T)
    requires n > 0
    ensures Lane(items + [x], n, j) == Lane(items, n, j) + (if |items| % n == j then [x] else [])
  {
    assert (items + [x])[..|items|] == items;
  }

  /** Lanes 0 .. m-1 of the round robin over n streams. */
  function LanesUpTo<T>(items: seq<T>, n: nat, m: nat): (ls: seq<seq<T>>)
    requires n > 0
    ensures |ls| == m
    ensures forall j | 0 <= j < m :: ls[j] == Lane(items, n, j)
  {
    if m == 0 then [] else LanesUpTo(items, n, m - 1) + [Lane(items, n, m - 1)]
  }

  /** Everything the streams hold together. */
  function Union<T>(streams: seq<seq<T>>): multiset<T> {
    if |streams| == 0 then multiset{} else Union(streams[..|streams| - 1]) + multiset(streams[|streams| - 1])
  }

  /** Appending an item to one stream adds exactly that item to the union. */
  lemma {:induction false} UnionAppend<T>(streams: seq<seq<T>>, c: nat, x: T)
    requires c < |streams|
    ensures Union(streams[c := streams[c] + [x]]) == Union(streams) + multiset{x}
    decreases |streams|
  {
    var last := |streams| - 1;
    var updated := streams[c := streams[c] + [x]];
    if c == last {
      assert updated[..last] == streams[..last];
      assert multiset(streams[c] + [x]) == multiset(streams[c]) + multiset{x};
    } else {
      UnionAppend(streams[..last], c, x);
      assert updated[..last] == streams[..last][c := streams[c] + [x]];
      assert updated[last] == streams[last];
    }
  }

  /** One more item goes to the lane its index selects, and the other lanes stay as they are. */
  lemma LanesUpToStep<T>(items: seq<T>, n: nat, x: T)
    requires n > 0
    ensures var c := |items| % n;
      LanesUpTo(items + [x], n, n) == LanesUpTo(items, n, n)[c := Lane(items, n, c) + [x]]
  {
    var c := |items| % n;
    var before, after := LanesUpTo(items, n, n), LanesUpTo(items + [x], n, n);
    forall j | 0 <= j < n
      ensures after[j] == before[c := Lane(items, n, c) + [x]][j]
    {
      LaneStep(items, n, j, x);
    }
  }

  /** Every intake item is forwarded exactly once: the streams together hold exactly the intake. */
  lemma {:induction false} LanesPartition<T>(items: seq<T>, n: nat)
    requires n > 0
    ensures Union(LanesUpTo(items, n, n)) == multiset(items)
    decreases |items|
  {
    if |items| == 0 {
      EmptyLanes(items, n, n);
    } else {
      var front, x := items[..|items| - 1], items[|items| - 1];
      var c := |front| % n;
      var lanes := LanesUpTo(front, n, n);
      assert front + [x] == items;
      calc {
        Union(LanesUpTo(items, n, n));
        { LanesUpToStep(front, n, x); }
        Union(lanes[c := lanes[c] + [x]]);
        { UnionAppend(lanes, c, x); }
        Union(lanes) + multiset{x};
        { LanesPartition(front, n); }
        multiset(front) + multiset{x};
        multiset(items);
      }
    }
  }

  lemma {:induction false} EmptyLanes<T>(empty: seq<T>, n: nat, m: nat)
    requires n > 0 && |empty| == 0
    ensures Union(LanesUpTo(empty, n, m)) == multiset{}
    decreases m
  {
    if m > 0 {
      EmptyLanes(empty, n, m - 1);
      var ls := LanesUpTo(empty, n, m);
      assert ls[..m - 1] == LanesUpTo(empty, n, m - 1);
    }
  }

  /** `cacheproc`: four streams, and consumer j runs exactly the closures of stream j, in the order received. */
  method Cacheproc<T>(pending: seq<T>) returns (runs: seq<seq<T>>)
    ensures |runs| == 4
    ensures forall j | 0 <= j < 4 :: runs[j] == Lane(pending, 4, j)
    ensures Union(runs) == multiset(pending)
  {
    var r := Fanout(pending, 4);
    runs := r.streams;
    LanesPartition(pending, 4);
    assert runs == LanesUpTo(pending, 4, 4);
  }
}

=== FILE: dlock.dfy ===
/**
  The Redis-backed distributed lock of pkg/dlock/dlock.go. A lock is a key
  holding a random 22-character token followed by caller metadata; only the
  holder of that exact value may refresh, inspect or release it, which the
  three server-side scripts enforce by comparing before acting.

  One client runs sequentially: each attempt happens at the instant the model
  gives it, time moves only by the backoff between attempts, and whether the
  pool produced a connection for an attempt is an input.
 */
module DLock {
  import opened Results
  import opened GoInt
  import opened Redis
  import B64 = Base64Url
  import Retry

  const TOKEN_LEN: int := 22
  const ENTROPY_LEN: int := 16

  datatype Error =
    | ErrNotObtained
    | ErrLockNotHeld
    | StoreFailure(msg: string)
    | EntropyFailure(msg: string)

  /** Whether `GetContext` handed out a connection. */
  datatype Conn = ConnOk | ConnDown(msg: string)

  /** The connection of attempt i: listed ones first, a working one after the list runs out. */
  function ConnAt(conns: seq<Conn>, i: nat): Conn {
    if i < |conns| then conns[i] else ConnOk
  }

  /** `Options`, without its unused `Context` field; a nil `*Options` is `None`. */
  datatype Options = Options(retry: Option<Retry.Strategy>, metadata: string)

  function GetMetadata(opt: Option<Options>): string {
    if opt.Some? then opt.value.metadata else ""
  }

  function GetRetryStrategy(opt: Option<Options>): Retry.Strategy {
    if opt.Some? && opt.value.retry.Some? then opt.value.retry.value else Retry.NoRetry()
  }

  datatype Lock = Lock(key: string, value: string)

  /** `Token`: the first 22 characters of the value; a shorter value makes the slice panic (None). */
  function Token(l: Lock): (r: Option<string>)
    ensures r.Some? <==> |l.value| >= TOKEN_LEN
    ensures r.Some? ==> |r.value| == TOKEN_LEN && r.value <= l.value
  {
    if |l.value| >= TOKEN_LEN then Some(l.value[..TOKEN_LEN]) else None
  }

  /** `Metadata`: what follows the token; panics (None) on a value shorter than a token. */
  function Metadata(l: Lock): (r: Option<string>)
    ensures r.Some? <==> |l.value| >= TOKEN_LEN
    ensures r.Some? ==> Token(l).value + r.value == l.value
  {
    if |l.value| >= TOKEN_LEN then Some(l.value[TOKEN_LEN..]) else None
  }

  /** `randomToken`: 16 random bytes in unpadded base64url, or the read error. */
  function RandomToken(entropy: Result<seq<B64.byte>, string>): (r: Result<string, Error>)
    requires entropy.Ok? ==> |entropy.value| == ENTROPY_LEN
    ensures r.Ok? <==> entropy.Ok?
    ensures r.Ok? ==> |r.value| == TOKEN_LEN && B64.AllInAlphabet(r.value)
    ensures r.Ok? ==> B64.Decode(r.value) == Ok(entropy.value)
  {
    match entropy
    case Err(msg) => Err(EntropyFailure(msg))
    case Ok(bytes) =>
      B64.DecodeEncode(bytes);
      Ok(B64.Encode(bytes))
  }

  /** `int64(ttl.Seconds())`: whole seconds, truncated toward zero. */
  function TtlSeconds(ttl: int): int {
    Quo(ttl, SECOND)
  }

  /** When a lock taken at instant t with the given ttl expires: t plus the whole seconds of ttl. */
  function ExpiryAt(t: int, ttl: int): int {
    t + TtlSeconds(ttl) * SECOND
  }

  /**
    `obtain`: one SET NX EX attempt. A missing connection or an error reply is
    an error; a nil reply (the key is held) is a plain false.
   */
  function TryObtain(st: Store, key: string, value: string, ttl: int, now: int, conn: Conn)
    : (r: (Store, Result<bool, Error>))
    ensures r.1 == Ok(true) <==> conn.ConnOk? && TtlSeconds(ttl) > 0 && Get(st, key, now).None?
    ensures r.1 == Ok(false) <==> conn.ConnOk? && TtlSeconds(ttl) > 0 && Get(st, key, now).Some?
    ensures r.1.Err? <==> conn.ConnDown? || TtlSeconds(ttl) <= 0
    ensures r.1 == Ok(true) ==> r.0 == st[key := Entry(value, Some(ExpiryAt(now, ttl)))]
    ensures r.1 != Ok(true) ==> r.0 == st
  {
    match conn
    case ConnDown(msg) => (st, Err(StoreFailure(msg)))
    case ConnOk =>
      var (st', reply) := SetNxEx(st, key, value, TtlSeconds(ttl), now);
      match reply
      case SetOk => (st', Ok(true))
      case SetNil => (st', Ok(false))
      case SetError(msg) => (st', Err(StoreFailure(msg)))
  }

  /**
    How an `Obtain` call ended: its result, the store afterwards, how many SET
    attempts it made, the retry strategy as it stands afterwards (the counting
    strategies are shared by reference in Go, so their counters persist), the
    instant of the last attempt, and the backoff the strategy answered after
    that attempt (0 when it was not asked).
   */
  datatype Outcome = Outcome(
    result: Result<Lock, Error>,
    store: Store,
    attempts: nat,
    strategy: Retry.Strategy,
    lastAttempt: int,
    lastBackoff: int)

  /** Whether the loop stops after a refused attempt at t: the strategy gave up or the deadline comes first. */
  predicate GivesUp(backoff: int, t: int, deadline: int) {
    backoff < 1 || deadline <= t + backoff
  }

  /**
    The retry loop of `Obtain` from attempt number i (0-based) at time t. When
    both the backoff timer and the deadline are due, the deadline is taken.
   */
  function ObtainLoop(st: Store, key: string, value: string, ttl: int, strategy: Retry.Strategy,
                      t: int, deadline: int, conns: seq<Conn>, i: nat): (o: Outcome)
    ensures o.attempts > i
    ensures o.lastAttempt >= t
    ensures o.attempts > i + 1 ==> o.lastAttempt < deadline
    ensures o.result.Ok? ==> o.result.value == Lock(key, value)
    ensures o.result.Ok? ==> Get(st, key, o.lastAttempt).None? && Get(o.store, key, o.lastAttempt) == Some(value)
    ensures o.result.Ok? ==> o.store == st[key := Entry(value, Some(ExpiryAt(o.lastAttempt, ttl)))]
    ensures o.result.Err? ==> o.store == st
    ensures o.result.Err? && o.result.error.StoreFailure? ==>
      ConnAt(conns, o.attempts - 1).ConnDown? || TtlSeconds(ttl) <= 0
    ensures o.result.Err? ==> o.result.error.StoreFailure? || o.result.error == ErrNotObtained
    ensures ConnAt(conns, i).ConnOk? && TtlSeconds(ttl) > 0 && Get(st, key, t).None? ==>
      o.result == Ok(Lock(key, value)) && o.attempts == i + 1 && o.lastAttempt == t
    ensures o.result == Err(ErrNotObtained) ==>
      ConnAt(conns, o.attempts - 1).ConnOk? && TtlSeconds(ttl) > 0 && Get(st, key, o.lastAttempt).Some?
    ensures o.result == Err(ErrNotObtained) ==> GivesUp(o.lastBackoff, o.lastAttempt, deadline)
    ensures (ConnAt(conns, i).ConnOk? && TtlSeconds(ttl) > 0 && Get(st, key, t).Some? &&
             !GivesUp(Retry.NextBackoff(strategy).0, t, deadline)) ==> o.attempts > i + 1
    decreases deadline - t
  {
    var (st', r) := TryObtain(st, key, value, ttl, t, ConnAt(conns, i));
    match r
    case Err(e) => Outcome(Err(e), st, i + 1, strategy, t, 0)
    case Ok(true) => Outcome(Ok(Lock(key, value)), st', i + 1, strategy, t, 0)
    case Ok(false) =>
      var (backoff, strategy') := Retry.NextBackoff(strategy);
      if GivesUp(backoff, t, deadline) then Outcome(Err(ErrNotObtained), st, i + 1, strategy', t, backoff)
      else ObtainLoop(st, key, value, ttl, strategy', t + backoff, deadline, conns, i + 1)
  }

  /** The instant `Obtain` stops retrying at: the caller's deadline, else now + ttl. */
  function ObtainDeadline(ctxDeadline: Option<int>, now: int, ttl: int): int {
    if ctxDeadline.Some? then ctxDeadline.value else now + ttl
  }

  /**
    `Obtain`: draws the token, appends the metadata, and tries until it
    succeeds, an attempt errors, the strategy gives up or the deadline (the
    caller's, else now + ttl) arrives.
   */
  function Obtain(st: Store, key: string, ttl: int, opt: Option<Options>, ctxDeadline: Option<int>,
                  now: int, entropy: Result<seq<B64.byte>, string>, conns: seq<Conn>): (o: Outcome)
    requires entropy.Ok? ==> |entropy.value| == ENTROPY_LEN
    ensures entropy.Err? ==> o.result == Err(EntropyFailure(entropy.error)) && o.attempts == 0 && o.store == st
    ensures o.result.Ok? ==> entropy.Ok? && o.result.value.key == key
    ensures o.result.Ok? ==> Token(o.result.value) == Some(B64.Encode(entropy.value))
    ensures o.result.Ok? ==> Metadata(o.result.value) == Some(GetMetadata(opt))
    ensures o.result.Ok? ==> Get(st, key, o.lastAttempt).None?
    ensures o.result.Ok? ==> Get(o.store, key, o.lastAttempt) == Some(o.result.value.value)
    ensures o.result.Ok? ==>
      o.store == st[key := Entry(o.result.value.value, Some(ExpiryAt(o.lastAttempt, ttl)))]
    ensures o.result.Err? ==> o.store == st
    ensures o.attempts > 1 ==> o.lastAttempt < ObtainDeadline(ctxDeadline, now, ttl)
  {
    var token := RandomToken(entropy);
    if token.Err? then Outcome(Err(token.error), st, 0, GetRetryStrategy(opt), now, 0)
    else
      var deadline := ObtainDeadline(ctxDeadline, now, ttl);
      ObtainWithToken(st, key, token.value, GetMetadata(opt), ttl, GetRetryStrategy(opt), now, deadline, conns)
  }

  /**
    When `Obtain` succeeds and when it gives up: a free key with a working
    connection and a ttl of at least a second is taken at the first attempt;
    ErrNotObtained means the last attempt found the key held and the strategy
    gave up or the deadline came first.
   */
  lemma ObtainSuccessAndGiveUp(st: Store, key: string, ttl: int, opt: Option<Options>, ctxDeadline: Option<int>,
                               now: int, entropy: Result<seq<B64.byte>, string>, conns: seq<Conn>)
    requires entropy.Ok? ==> |entropy.value| == ENTROPY_LEN
    ensures var o := Obtain(st, key, ttl, opt, ctxDeadline, now, entropy, conns);
      entropy.Ok? && ConnAt(conns, 0).ConnOk? && TtlSeconds(ttl) > 0 && Get(st, key, now).None? ==>
        o.result.Ok? && o.attempts == 1 && o.lastAttempt == now
    ensures var o := Obtain(st, key, ttl, opt, ctxDeadline, now, entropy, conns);
      o.result == Err(ErrNotObtained) ==>
        o.attempts >= 1 && ConnAt(conns, o.attempts - 1).ConnOk? && TtlSeconds(ttl) > 0 &&
        Get(st, key, o.lastAttempt).Some? && GivesUp(o.lastBackoff, o.lastAttempt, ObtainDeadline(ctxDeadline, now, ttl))
  {
  }

  /** The attempts of `Obtain` once the token is drawn: the value is the token followed by the metadata. */
  function ObtainWithToken(st: Store, key: string, token: string, meta: string, ttl: int, strategy: Retry.Strategy,
                           now: int, deadline: int, conns: seq<Conn>): (o: Outcome)
    requires |token| == TOKEN_LEN
    ensures o.result.Ok? ==> o.result.value == Lock(key, token + meta)
    ensures o.result.Ok? ==> Token(o.result.value) == Some(token) && Metadata(o.result.value) == Some(meta)
    ensures o.result.Ok? ==> Get(st, key, o.lastAttempt).None?
    ensures o.result.Ok? ==> Get(o.store, key, o.lastAttempt) == Some(token + meta)
    ensures o.result.Ok? ==>
      o.store == st[key := Entry(token + meta, Some(ExpiryAt(o.lastAttempt, ttl)))]
    ensures o.result.Err? ==> o.store == st
    ensures o.attempts >= 1
    ensures o.attempts > 1 ==> o.lastAttempt < deadline
    ensures ConnAt(conns, 0).ConnOk? && TtlSeconds(ttl) > 0 && Get(st, key, now).None? ==>
      o.result == Ok(Lock(key, token + meta)) && o.attempts == 1 && o.lastAttempt == now
    ensures o.result == Err(ErrNotObtained) ==>
      ConnAt(conns, o.attempts - 1).ConnOk? && TtlSeconds(ttl) > 0 && Get(st, key, o.lastAttempt).Some?
    ensures o.result == Err(ErrNotObtained) ==> GivesUp(o.lastBackoff, o.lastAttempt, deadline)
  {
    ValueParts(key, token, meta);
    ObtainLoop(st, key, token + meta, ttl, strategy, now, deadline, conns, 0)
  }

  /** A lock value built from a token and metadata splits back into them. */
  lemma ValueParts(key: string, token: string, meta: string)
    requires |token| == TOKEN_LEN
    ensures Token(Lock(key, token + meta)) == Some(token)
    ensures Metadata(Lock(key, token + meta)) == Some(meta)
  {
    assert (token + meta)[..TOKEN_LEN] == token;
    assert (token + meta)[TOKEN_LEN..] == meta;
  }

  /** Without a retry strategy, Obtain makes exactly one attempt; on a held key it fails with ErrNotObtained. */
  lemma ObtainWithoutRetryTriesOnce(st: Store, key: string, ttl: int, opt: Option<Options>, ctxDeadline: Option<int>,
                                    now: int, entropy: Result<seq<B64.byte>, string>, conns: seq<Conn>)
    requires entropy.Ok? ==> |entropy.value| == ENTROPY_LEN
    requires entropy.Ok?
    requires opt.None? || opt.value.retry.None?
    ensures Obtain(st, key, ttl, opt, ctxDeadline, now, entropy, conns).attempts == 1
    ensures ConnAt(conns, 0).ConnOk? && TtlSeconds(ttl) > 0 && Get(st, key, now).Some? ==>
      Obtain(st, key, ttl, opt, ctxDeadline, now, entropy, conns).result == Err(ErrNotObtained)
  {
    Retry.LinearConstant(0, 0);
  }

  /**
    Mutual exclusion: while a lock's key is live, no Obtain on that key can
    succeed; a competing Obtain succeeds only at or after the expiry instant.
   */
  lemma ObtainExcludesHeldKey(st: Store, key: string, ttl: int, opt: Option<Options>, ctxDeadline: Option<int>,
                              now: int, entropy: Result<seq<B64.byte>, string>, conns: seq<Conn>, expiry: int)
    requires entropy.Ok? ==> |entropy.value| == ENTROPY_LEN
    requires key in st && st[key].expiresAt == Some(expiry)
    ensures Obtain(st, key, ttl, opt, ctxDeadline, now, entropy, conns).result.Ok? ==>
      Obtain(st, key, ttl, opt, ctxDeadline, now, entropy, conns).lastAttempt >= expiry
  {
  }

  /** Sub-second TTLs truncate to 0 seconds, which the store rejects: Obtain then always fails after one attempt. */
  lemma SubSecondTtlNeverObtains(st: Store, key: string, ttl: int, opt: Option<Options>, ctxDeadline: Option<int>,
                                 now: int, entropy: Result<seq<B64.byte>, string>, conns: seq<Conn>)
    requires entropy.Ok? ==> |entropy.value| == ENTROPY_LEN
    requires entropy.Ok? && -SECOND < ttl < SECOND
    ensures Obtain(st, key, ttl, opt, ctxDeadline, now, entropy, conns).result.Err?
    ensures Obtain(st, key, ttl, opt, ctxDeadline, now, entropy, conns).attempts == 1
  {
    assert TtlSeconds(ttl) == 0;
  }

  /** A failing first connection ends Obtain at once with the connection error, whatever the strategy. */
  lemma ObtainStopsOnStoreFailure(st: Store, key: string, ttl: int, opt: Option<Options>, ctxDeadline: Option<int>,
                                  now: int, entropy: Result<seq<B64.byte>, string>, conns: seq<Conn>)
    requires entropy.Ok? ==> |entropy.value| == ENTROPY_LEN
    requires entropy.Ok? && |conns| > 0 && conns[0].ConnDown?
    ensures Obtain(st, key, ttl, opt, ctxDeadline, now, entropy, conns).result == Err(StoreFailure(conns[0].msg))
    ensures Obtain(st, key, ttl, opt, ctxDeadline, now, entropy, conns).attempts == 1
  {
  }

  /** The compare-then-act guard shared by the three scripts. */
  predicate Holds(st: Store, l: Lock, now: int) {
    Get(st, l.key, now) == Some(l.value)
  }

  /** `TTL`: the remaining time of a lock still held, 0 when it is not held or has no expiry. */
  function Ttl(st: Store, l: Lock, now: int, conn: Conn): (r: Result<int, Error>)
    ensures r.Err? <==> conn.ConnDown?
    ensures r.Ok? && !Holds(st, l, now) ==> r.value == 0
    ensures r.Ok? ==> r.value >= 0 && r.value % MILLISECOND == 0
    ensures r.Ok? && Holds(st, l, now) && st[l.key].expiresAt.Some? ==>
      r.value <= st[l.key].expiresAt.value - now < r.value + MILLISECOND
    ensures r.Ok? && Holds(st, l, now) && st[l.key].expiresAt.None? ==> r.value == 0
  {
    match conn
    case ConnDown(msg) => Err(StoreFailure(msg))
    case ConnOk =>
      var res := if Holds(st, l, now) then PTtl(st, l.key, now) else -3;
      if res > 0 then Ok(res * MILLISECOND) else Ok(0)
  }

  /**
    `Refresh`: moves a held lock's expiry to now + ttl (whole milliseconds);
    a non-positive ttl deletes the key yet still reports success. A lock not
    held is left alone and reported as ErrNotObtained.
   */
  function Refresh(st: Store, l: Lock, ttl: int, now: int, conn: Conn): (r: (Store, Option<Error>))
    ensures conn.ConnDown? ==> r.1.Some? && r.1.value.StoreFailure? && r.0 == st
    ensures conn.ConnOk? ==> (r.1.None? <==> Holds(st, l, now))
    ensures conn.ConnOk? && !Holds(st, l, now) ==> r == (st, Some(ErrNotObtained))
    ensures conn.ConnOk? && Holds(st, l, now) && Quo(ttl, MILLISECOND) > 0 ==>
      r.0 == st[l.key := Entry(l.value, Some(now + Quo(ttl, MILLISECOND) * MILLISECOND))]
    ensures conn.ConnOk? && Holds(st, l, now) && Quo(ttl, MILLISECOND) <= 0 ==> r.0 == st - {l.key}
  {
    match conn
    case ConnDown(msg) => (st, Some(StoreFailure(msg)))
    case ConnOk =>
      var (st', status) := if Holds(st, l, now) then PExpire(st, l.key, Quo(ttl, MILLISECOND), now) else (st, 0);
      if status == 1 then (st', None) else (st', Some(ErrNotObtained))
  }

  /** `Release`: deletes the key only if this lock still holds it; otherwise ErrLockNotHeld and nothing changes. */
  function Release(st: Store, l: Lock, now: int, conn: Conn): (r: (Store, Option<Error>))
    ensures conn.ConnDown? ==> r.1.Some? && r.1.value.StoreFailure? && r.0 == st
    ensures conn.ConnOk? && Holds(st, l, now) ==> r.1.None? && r.0 == st - {l.key}
    ensures conn.ConnOk? && !Holds(st, l, now) ==> r == (st, Some(ErrLockNotHeld))
  {
    match conn
    case ConnDown(msg) => (st, Some(StoreFailure(msg)))
    case ConnOk =>
      var (st', res) := if Holds(st, l, now) then Del(st, l.key, now) else (st, 0);
      if res != 1 then (st', Some(ErrLockNotHeld)) else (st', None)
  }

  /**
    A lock that is obtained is held until its expiry: Release right after
    succeeds and frees the key, so the next SET attempt on it succeeds.
   */
  lemma ObtainThenRelease(st: Store, key: string, ttl: int, opt: Option<Options>, ctxDeadline: Option<int>,
                          now: int, entropy: Result<seq<B64.byte>, string>, conns: seq<Conn>,
                          value2: string, ttl2: int)
    requires entropy.Ok? ==> |entropy.value| == ENTROPY_LEN
    requires Obtain(st, key, ttl, opt, ctxDeadline, now, entropy, conns).result.Ok?
    requires TtlSeconds(ttl2) > 0
    ensures var o := Obtain(st, key, ttl, opt, ctxDeadline, now, entropy, conns);
      var (st', err) := Release(o.store, o.result.value, o.lastAttempt, ConnOk);
      err.None? && TryObtain(st', key, value2, ttl2, o.lastAttempt, ConnOk).1 == Ok(true)
  {
    var o := Obtain(st, key, ttl, opt, ctxDeadline, now, entropy, conns);
    assert Holds(o.store, o.result.value, o.lastAttempt);
  }

  /** A lock whose key now holds another client's value cannot touch that value. */
  lemma ForeignValueUntouched(st: Store, l: Lock, other: string, ttl: int, now: int)
    requires Get(st, l.key, now) == Some(other) && other != l.value
    ensures Release(st, l, now, ConnOk) == (st, Some(ErrLockNotHeld))
    ensures Refresh(st, l, ttl, now, ConnOk) == (st, Some(ErrNotObtained))
    ensures Ttl(st, l, now, ConnOk) == Ok(0)
  {
  }
}

=== FILE: gid.dfy ===
/**
  Identifier helpers of pkg/gid: the worker number derived from the host
  address, the 32-bit short id, and the 11-character text form of an int64 id
  (its 8 little-endian bytes in unpadded base64url).
 */
module Gid {
  import opened GoInt
  import opened Results
  import B64 = Base64Url

  type byte = B64.byte

  function Pow256(n: nat): (p: nat)
    ensures p >= 1
  {
    if n == 0 then 1 else 256 * Pow256(n - 1)
  }

  /** The n low-order bytes of u, least significant first (`binary.LittleEndian.PutUint64` for n = 8). */
  function LittleEndian(u: nat, n: nat): (bs: seq<byte>)
    ensures |bs| == n
  {
    if n == 0 then [] else [u % 256] + LittleEndian(u / 256, n - 1)
  }

  /** The number whose little-endian bytes are bs (`binary.LittleEndian.Uint64` for 8 bytes). */
  function LittleEndianValue(bs: seq<byte>): (v: nat)
    ensures v < Pow256(|bs|)
  {
    if |bs| == 0 then 0 else bs[0] + 256 * LittleEndianValue(bs[1..])
  }

  lemma {:induction false} LittleEndianRoundTrip(u: nat, n: nat)
    requires u < Pow256(n)
    ensures LittleEndianValue(LittleEndian(u, n)) == u
    decreases n
  {
    if n > 0 {
      var bs := LittleEndian(u, n);
      assert bs[1..] == LittleEndian(u / 256, n - 1);
      LittleEndianRoundTrip(u / 256, n - 1);
    }
  }

  lemma Pow256Of8()
    ensures Pow256(8) == TWO_64
  {
  }

  /** `EncodeInt64ToString`: the id's two's-complement bytes, little-endian, in unpadded base64url. */
  function EncodeInt64ToString(id: int64): (s: string)
    ensures |s| == 11
    ensures B64.AllInAlphabet(s)
  {
    Pow256Of8();
    B64.Encode(LittleEndian(ToUint64(id), 8))
  }

  /** What `DecodeStringToInt64` does: returns an id, returns (0, err), or panics inside `Uint64`. */
  datatype DecodeOutcome = Decoded(id: int) | DecodeFailed | PanicsShortInput

  /**
    `DecodeStringToInt64`: a base64url decoding error is returned as is; fewer than
    8 decoded bytes make `binary.LittleEndian.Uint64` panic; otherwise the first 8
    bytes are the id and the rest is ignored.
   */
  function DecodeStringToInt64(s: string): (r: DecodeOutcome)
    ensures r.DecodeFailed? <==> B64.Decode(s).Err?
    ensures r.PanicsShortInput? <==> B64.Decode(s).Ok? && |B64.Decode(s).value| < 8
    ensures r.Decoded? ==> IsInt64(r.id)
    ensures r.Decoded? ==> ToUint64(r.id) == LittleEndianValue(B64.Decode(s).value[..8])
  {
    match B64.Decode(s)
    case Err(_) => DecodeFailed
    case Ok(bytes) =>
      if |bytes| < 8 then PanicsShortInput
      else
        Pow256Of8();
        Decoded(ToInt64(LittleEndianValue(bytes[..8])))
  }

  /** Every int64 id survives encoding then decoding. */
  lemma DecodeEncodeId(id: int64)
    ensures DecodeStringToInt64(EncodeInt64ToString(id)) == Decoded(id)
  {
    Pow256Of8();
    var bs := LittleEndian(ToUint64(id), 8);
    B64.DecodeEncode(bs);
    LittleEndianRoundTrip(ToUint64(id), 8);
    assert bs[..8] == bs;
  }

  /** Only the first 8 decoded bytes matter: inputs that agree on them decode to the same id. */
  lemma DecodeUsesFirstEightBytes(s: string, t: string)
    requires B64.Decode(s).Ok? && B64.Decode(t).Ok?
    requires |B64.Decode(s).value| >= 8 && |B64.Decode(t).value| >= 8
    requires B64.Decode(s).value[..8] == B64.Decode(t).value[..8]
    ensures DecodeStringToInt64(s) == DecodeStringToInt64(t)
  {
  }

  /**
    The worker number chosen by `Init`: the configured IP, else the internal
    IP, reduced modulo 1024 (Go's truncating `%`); with no IP at all, the value
    `rand.Intn(1023)` produced. `addr` is what `ip.InetAtoN` returned for the chosen IP.
   */
  function WorkerId(envIP: string, internalIP: string, addr: int, rnd: int): (w: int)
    requires 0 <= rnd < 1023
    ensures (envIP != "" || internalIP != "") && addr >= 0 ==> 0 <= w < 1024 && w == addr % 1024
    ensures (envIP != "" || internalIP != "") && addr < 0 ==> -1024 < w <= 0
    ensures envIP == "" && internalIP == "" ==> w == rnd
  {
    var ipStr := if envIP != "" then envIP else internalIP;
    if ipStr != "" then Rem(addr, 1024) else rnd
  }

  /** The snowflake generator accepts node numbers 0 through 1023 (10 node bits). */
  const MAX_NODE: int := 1023

  /** `Init`: succeeds with the worker number exactly when the generator accepts it. */
  function Init(envIP: string, internalIP: string, addr: int, rnd: int): (r: Result<int, string>)
    requires 0 <= rnd < 1023
    ensures r.Ok? ==> 0 <= r.value <= MAX_NODE && r.value == WorkerId(envIP, internalIP, addr, rnd)
    ensures r.Ok? <==> (envIP == "" && internalIP == "") || addr >= 0 || addr % 1024 == 0
    ensures addr >= 0 ==> r.Ok?
  {
    var w := WorkerId(envIP, internalIP, addr, rnd);
    if 0 <= w <= MAX_NODE then Ok(w) else Err("node number out of range")
  }

  /** `NewIDInt32`: the generated id modulo 10^8, which always fits in an int32. */
  function NewIdInt32(generated: int64): (r: int)
    ensures -100000000 < r < 100000000
    ensures -0x8000_0000 <= r < 0x8000_0000
    ensures generated >= 0 ==> r == generated % 100000000
    ensures generated == Quo(generated, 100000000) * 100000000 + r
  {
    Rem(generated, 100000000)
  }
}

=== FILE: goint.dfy ===
/**
  Go's fixed-width integer behaviour written out over Dafny's unbounded `int`:
  the int64 range, two's-complement wrap-around, and the truncating `/` and `%`
  that Go uses (Dafny's own operators are Euclidean).
 */
module GoInt {

  const TWO_63: int := 0x8000_0000_0000_0000
  const TWO_64: int := 0x1_0000_0000_0000_0000
  const MIN_INT64: int := -0x8000_0000_0000_0000
  const MAX_INT64: int := 0x7FFF_FFFF_FFFF_FFFF

  /** `time.Second` and `time.Millisecond`: instants and durations are int nanoseconds. */
  const SECOND: int := 1_000_000_000
  const MILLISECOND: int := 1_000_000

  /** Time durations and Unix times in Go are int64 nanoseconds / seconds. */
  type int64 = x: int | -0x8000_0000_0000_0000 <= x <= 0x7FFF_FFFF_FFFF_FFFF

  predicate IsInt64(x: int) {
    MIN_INT64 <= x <= MAX_INT64
  }

  /** The int64 that a Go arithmetic result silently becomes on overflow. */
  function Wrap64(x: int): (r: int)
    ensures IsInt64(r)
    ensures (x - r) % TWO_64 == 0
    ensures IsInt64(x) ==> r == x
  {
    var m := x % TWO_64;
    if m >= TWO_63 then m - TWO_64 else m
  }

  /** Reinterprets a uint64 bit pattern as int64, as Go's `int64(u)` does. */
  function ToInt64(u: nat): (r: int)
    requires u < TWO_64
    ensures IsInt64(r)
    ensures r >= 0 ==> r == u
    ensures r < 0 ==> r == u - TWO_64
  {
    if u >= TWO_63 then u - TWO_64 else u
  }

  /** Reinterprets an int64 as its uint64 bit pattern, as Go's `uint64(i)` does. */
  function ToUint64(i: int): (u: nat)
    requires IsInt64(i)
    ensures u < TWO_64
    ensures ToInt64(u) == i
  {
    if i < 0 then i + TWO_64 else i
  }

  function Abs(x: int): nat {
    if x < 0 then -x else x
  }

  /** Go's integer division by a positive divisor, truncating toward zero. */
  function Quo(a: int, b: int): (q: int)
    requires b > 0
    ensures a >= 0 ==> q >= 0
    ensures a < 0 ==> q <= 0
  {
    if a >= 0 then a / b else -((-a) / b)
  }

  /** Go's remainder by a positive divisor: same sign as the dividend, magnitude below it. */
  function Rem(a: int, b: int): (r: int)
    requires b > 0
    ensures a >= 0 ==> 0 <= r < b
    ensures a < 0 ==> -b < r <= 0
    ensures a == Quo(a, b) * b + r
  {
    if a >= 0 then a % b else -((-a) % b)
  }
}

=== FILE: job_trigger.dfy ===
/**
  The trigger dispatcher of app/api/service/job_trigger.go: a run-once job
  registry, the handling of one trigger message (decode, look up, ack, take
  the job's lock, run, release, report), and the bounded-worker fan-out
  `doPublishConcurrently`.

  JSON decoding, the handlers and the clock are inputs: the decoded command
  (or none), whether the handler failed, and the instants at which handling
  starts and the handler returns.
 */
module JobTrigger {
  import opened Results
  import opened GoInt
  import opened Redis
  import B64 = Base64Url
  import DLock
  import LockKeys
  import XTime

  /** The handlers a job name can be bound to. */
  datatype HandlerId = CronSendLittleMessages | TriggerSendHugeAmountMessages

  /** The job table and whether the `sync.Once` guarding its initialisation has fired. */
  datatype Registry = Registry(jobs: map<string, HandlerId>, initialised: bool)

  /** `registerTriggerJob`: binds (or rebinds) a job name. */
  function RegisterTriggerJob(reg: Registry, job: string, fn: HandlerId): (r: Registry)
    ensures r.jobs == reg.jobs[job := fn] && r.initialised == reg.initialised
    ensures job in r.jobs && r.jobs[job] == fn
  {
    reg.(jobs := reg.jobs[job := fn])
  }

  /**
    `initialTriggerJob`: the first call registers the little-message job and
    then the huge-message job (the names are `def.TriggerJob`'s fields, not
    part of this model); every later call does nothing.
   */
  function InitialTriggerJob(reg: Registry, littleName: string, hugeName: string): (r: Registry)
    ensures r.initialised
    ensures reg.initialised ==> r == reg
    ensures !reg.initialised ==> hugeName in r.jobs && r.jobs[hugeName] == TriggerSendHugeAmountMessages
    ensures !reg.initialised && littleName != hugeName ==> littleName in r.jobs && r.jobs[littleName] == CronSendLittleMessages
    ensures !reg.initialised ==> r.jobs.Keys == reg.jobs.Keys + {littleName, hugeName}
    ensures !reg.initialised ==> forall k | k in reg.jobs && k != littleName && k != hugeName :: r.jobs[k] == reg.jobs[k]
  {
    if reg.initialised then reg
    else
      var r1 := RegisterTriggerJob(reg, littleName, CronSendLittleMessages);
      RegisterTriggerJob(r1, hugeName, TriggerSendHugeAmountMessages).(initialised := true)
  }

  /** Calling the initialisation any number of times equals calling it once. */
  lemma InitialTriggerJobOnce(reg: Registry, littleName: string, hugeName: string)
    ensures InitialTriggerJob(InitialTriggerJob(reg, littleName, hugeName), littleName, hugeName)
      == InitialTriggerJob(reg, littleName, hugeName)
    ensures !reg.initialised && reg.jobs == map[] && littleName != hugeName ==>
      InitialTriggerJob(reg, littleName, hugeName).jobs
        == map[littleName := CronSendLittleMessages, hugeName := TriggerSendHugeAmountMessages]
  {
  }

  /** `model.TriggerCommand` once decoded. */
  datatype TriggerCommand = TriggerCommand(job: string, triggerTime: int)

  /** The observable steps of handling one message, in order. */
  datatype Event =
    | Acked
    | LockObtained(key: string)
    | LockNotObtained(key: string)
    | HandlerRan(job: string)
    | HandlerFailed(job: string, msg: string)
    | LockReleased(key: string, wasHeld: bool)
    | Timing(metric: string, ms: int)
    | Counted(metric: string)
    | SlowWarning(job: string, seconds: int)

  /** What handling one message may observe from outside. */
  datatype Env = Env(
    start: int,                              // time.Now() when handling begins, in ns
    finish: int,                             // when the handler returns, in ns
    clock: XTime.Clock,                      // the clock `xtime.NowUnix` reads, offset included
    ctxDeadline: Option<int>,                // the message context's deadline
    entropy: Result<seq<B64.byte>, string>,  // the lock token's random bytes
    conns: seq<DLock.Conn>,                  // connections for the lock attempt
    releaseConn: DLock.Conn,                 // connection for the release
    handlerError: Option<string>)            // what the handler returned

  predicate WellFormedEnv(env: Env) {
    env.start <= env.finish && (env.entropy.Ok? ==> |env.entropy.value| == DLock.ENTROPY_LEN)
  }

  const LOCK_TTL: int := 30 * SECOND
  const SLOW_SECONDS: int := 60

  function MetricName(job: string): string { "cronjob:" + job }

  /**
    The run length the slow warning reports: the difference of the two
    `xtime.NowUnix` readings, each taken through the clock and so shifted by
    its offset outside production (the timing metric uses the raw instants).
   */
  function SlowSeconds(clock: XTime.Clock, start: int, stop: int): int {
    XTime.NowUnix(clock, stop) - XTime.NowUnix(clock, start)
  }

  predicate Slow(clock: XTime.Clock, start: int, stop: int) {
    SlowSeconds(clock, start, stop) > SLOW_SECONDS
  }

  /** `int64(time.Since(now) / time.Millisecond)`: the elapsed whole milliseconds. */
  function ElapsedMs(start: int, stop: int): int {
    Quo(stop - start, MILLISECOND)
  }

  /**
    The whole milliseconds are the elapsed time truncated toward zero: for a
    run forward in time they lie within one millisecond below it, and a run
    backwards (a clock offset larger than the run) gives a non-positive value.
   */
  lemma ElapsedMsBounds(start: int, stop: int)
    ensures start <= stop ==> ElapsedMs(start, stop) * MILLISECOND <= stop - start < (ElapsedMs(start, stop) + 1) * MILLISECOND
    ensures stop < start ==> (ElapsedMs(start, stop) - 1) * MILLISECOND < stop - start <= ElapsedMs(start, stop) * MILLISECOND
  {
  }

  /** The deferred report: a timing sample in whole ms, a count, and a warning when slow. */
  function Report(job: string, clock: XTime.Clock, start: int, stop: int): (evs: seq<Event>)
    ensures |evs| >= 2 && evs[0] == Timing(MetricName(job), ElapsedMs(start, stop))
    ensures evs[1] == Counted(MetricName(job))
    ensures |evs| == 3 <==> Slow(clock, start, stop)
    ensures |evs| <= 3
    ensures evs[|evs| - 1].SlowWarning? <==> Slow(clock, start, stop)
    ensures |evs| == 3 ==> evs[2] == SlowWarning(job, SlowSeconds(clock, start, stop))
    ensures multiset(evs)[Timing(MetricName(job), ElapsedMs(start, stop))] == 1
    ensures multiset(evs)[Counted(MetricName(job))] == 1
    ensures forall e | e in evs :: e.Timing? || e.Counted? || e.SlowWarning?
  {
    var m := MetricName(job);
    [Timing(m, ElapsedMs(start, stop)), Counted(m)]
      + (if Slow(clock, start, stop) then [SlowWarning(job, SlowSeconds(clock, start, stop))] else [])
  }

  /**
    Whatever the clock's offset, a warned run lasted more than 60 s and a run
    of 62 s or more is warned: the offset shifts both readings alike, and only
    the flooring to whole seconds moves the verdict.
   */
  lemma SlowBounds(clock: XTime.Clock, start: int, stop: int)
    ensures Slow(clock, start, stop) ==> stop - start > SLOW_SECONDS * SECOND
    ensures stop - start >= (SLOW_SECONDS + 2) * SECOND ==> Slow(clock, start, stop)
  {
  }

  /**
    The offset can decide the verdict: a run from 0.9 s to 61 s is warned
    with no offset, but not with an offset of 0.2 s, which moves the first
    reading into the next second.
   */
  lemma OffsetDecidesWarning()
    ensures Slow(XTime.Clock(0, false), 900 * MILLISECOND, 61 * SECOND)
    ensures !Slow(XTime.Clock(200 * MILLISECOND, false), 900 * MILLISECOND, 61 * SECOND)
  {
  }

  /** The events, the store afterwards, and the instant the deferred report was taken. */
  datatype TriggerOutcome = TriggerOutcome(events: seq<Event>, store: Store, stop: int)

  /** The options `jobTrigger` passes: no retry strategy, no metadata (its `Context` field is never read). */
  const TRIGGER_OPTIONS: Option<DLock.Options> := Some(DLock.Options(None, ""))

  function ObtainFor(st: Store, job: string, env: Env): (o: DLock.Outcome)
    requires WellFormedEnv(env)
  {
    DLock.Obtain(st, LockKeys.CronJobLock(job), LOCK_TTL, TRIGGER_OPTIONS, env.ctxDeadline, env.start, env.entropy, env.conns)
  }

  /** Every handler run comes right after taking the lock, and the lock is released later on. */
  predicate HandlerGuarded(evs: seq<Event>) {
    forall i | 0 <= i < |evs| && evs[i].HandlerRan? ::
      0 < i && evs[i - 1].LockObtained? && exists j :: i < j < |evs| && evs[j].LockReleased?
  }

  /**
    The part of `jobTrigger` that runs with the lock: the handler, the second
    ack on either outcome, then the deferred release.
   */
  function Locked(job: string, key: string, handlerError: Option<string>, released: bool): (evs: seq<Event>)
    ensures |evs| == if handlerError.Some? then 5 else 4
    ensures evs[0] == LockObtained(key) && evs[1] == HandlerRan(job)
    ensures handlerError.Some? ==> evs[2] == HandlerFailed(job, handlerError.value)
    ensures evs[|evs| - 2] == Acked && evs[|evs| - 1] == LockReleased(key, released)
    ensures forall i | 0 <= i < |evs| :: evs[i].HandlerRan? <==> i == 1
    ensures forall i | 0 <= i < |evs| :: evs[i].Acked? <==> i == |evs| - 2
    ensures forall i | 0 <= i < |evs| :: !evs[i].Timing? && !evs[i].Counted? && !evs[i].SlowWarning?
  {
    if handlerError.Some? then
      [LockObtained(key), HandlerRan(job), HandlerFailed(job, handlerError.value), Acked, LockReleased(key, released)]
    else
      [LockObtained(key), HandlerRan(job), Acked, LockReleased(key, released)]
  }

  /** An element found at exactly one index occurs once in the multiset of the sequence. */
  lemma CountOnce<T>(s: seq<T>, k: int, x: T)
    requires 0 <= k < |s| && s[k] == x
    requires forall i | 0 <= i < |s| && i != k :: s[i] != x
    ensures multiset(s)[x] == 1
  {
    assert s == s[..k] + [x] + s[k + 1..];
    assert x !in s[..k];
    assert x !in s[k + 1..];
    assert multiset(s) == multiset(s[..k]) + multiset([x]) + multiset(s[k + 1..]);
  }

  /** The ack that precedes the locked part leaves every handler run guarded. */
  lemma LockedGuarded(job: string, key: string, handlerError: Option<string>, released: bool)
    ensures HandlerGuarded([Acked] + Locked(job, key, handlerError, released))
  {
    var l := Locked(job, key, handlerError, released);
    var evs := [Acked] + l;
    forall k | 1 <= k < |evs|
      ensures evs[k] == l[k - 1]
    {
    }
    assert evs[|l|].LockReleased?;
  }

  /** The properties every trace of a known job has, whether or not the lock was taken. */
  predicate ReportedOnce(evs: seq<Event>, job: string, clock: XTime.Clock, start: int, stop: int) {
    && |evs| >= 1 && evs[0] == Acked
    && multiset(evs)[Counted(MetricName(job))] == 1
    && multiset(evs)[Timing(MetricName(job), ElapsedMs(start, stop))] == 1
    && (evs[|evs| - 1].SlowWarning? <==> Slow(clock, start, stop))
    && HandlerGuarded(evs)
    && (forall e | e in evs && e.HandlerRan? :: e.job == job)
  }

  /**
    Appending the report to a guarded prefix that starts with the ack and
    holds no metric of its own gives a trace that reports exactly once.
   */
  lemma ReportAppended(prefix: seq<Event>, job: string, clock: XTime.Clock, start: int, stop: int)
    requires |prefix| >= 1 && prefix[0] == Acked
    requires forall i | 0 <= i < |prefix| :: !prefix[i].Timing? && !prefix[i].Counted?
    requires forall i | 0 <= i < |prefix| && prefix[i].HandlerRan? :: prefix[i].job == job
    requires HandlerGuarded(prefix)
    ensures ReportedOnce(prefix + Report(job, clock, start, stop), job, clock, start, stop)
    ensures multiset(prefix + Report(job, clock, start, stop)) == multiset(prefix) + multiset(Report(job, clock, start, stop))
    ensures forall e | e in Report(job, clock, start, stop) :: !e.HandlerRan? && !e.Acked?
  {
    var report := Report(job, clock, start, stop);
    var evs := prefix + report;
    assert multiset(evs) == multiset(prefix) + multiset(report);
    assert Timing(MetricName(job), ElapsedMs(start, stop)) !in prefix;
    assert Counted(MetricName(job)) !in prefix;
    assert evs[|evs| - 1] == report[|report| - 1];
    forall i | |prefix| <= i < |evs|
      ensures !evs[i].HandlerRan?
    {
      assert evs[i] == report[i - |prefix|] && report[i - |prefix|] in report;
    }
    forall i | 0 <= i < |prefix| && evs[i].HandlerRan?
      ensures 0 < i && evs[i - 1].LockObtained? && exists j :: i < j < |evs| && evs[j].LockReleased?
    {
      assert evs[i] == prefix[i] && evs[i - 1] == prefix[i - 1];
      var j :| i < j < |prefix| && prefix[j].LockReleased?;
      assert evs[j] == prefix[j];
    }
    assert forall e | e in evs :: e in prefix || e in report;
  }

  /** The trace when the lock was not obtained: the ack, the failure, the report. */
  function NotObtainedTrace(job: string, key: string, clock: XTime.Clock, start: int, stop: int): (evs: seq<Event>)
    ensures ReportedOnce(evs, job, clock, start, stop)
    ensures forall e | e in evs :: !e.HandlerRan?
    ensures multiset(evs)[Acked] == 1
  {
    var prefix := [Acked, LockNotObtained(key)];
    ReportAppended(prefix, job, clock, start, stop);
    prefix + Report(job, clock, start, stop)
  }

  /** The trace when the lock was obtained: the ack, the guarded run and release, the report. */
  function ObtainedTrace(job: string, key: string, handlerError: Option<string>, released: bool, clock: XTime.Clock,
                        start: int, stop: int)
    : (evs: seq<Event>)
    ensures ReportedOnce(evs, job, clock, start, stop)
    ensures HandlerRan(job) in evs && multiset(evs)[HandlerRan(job)] == 1
    ensures multiset(evs)[Acked] == 2
    ensures LockReleased(key, released) in evs
  {
    var prefix := [Acked] + Locked(job, key, handlerError, released);
    LockedPrefixFacts(job, key, handlerError, released);
    ReportAppended(prefix, job, clock, start, stop);
    prefix + Report(job, clock, start, stop)
  }

  /** The ack followed by the locked part: what appending the report needs, and the counts. */
  lemma LockedPrefixFacts(job: string, key: string, handlerError: Option<string>, released: bool)
    ensures var prefix := [Acked] + Locked(job, key, handlerError, released);
      && (forall i | 0 <= i < |prefix| :: !prefix[i].Timing? && !prefix[i].Counted?)
      && (forall i | 0 <= i < |prefix| && prefix[i].HandlerRan? :: prefix[i].job == job)
      && HandlerGuarded(prefix)
      && multiset(prefix)[HandlerRan(job)] == 1
      && multiset(prefix)[Acked] == 2
  {
    var locked := Locked(job, key, handlerError, released);
    var prefix := [Acked] + locked;
    CountOnce(locked, 1, HandlerRan(job));
    CountOnce(locked, |locked| - 2, Acked);
    LockedGuarded(job, key, handlerError, released);
    assert multiset(prefix) == multiset([Acked]) + multiset(locked);
    forall i | 1 <= i < |prefix|
      ensures prefix[i] == locked[i - 1]
    {
    }
  }

  /**
    What follows the first ack of a known job, given how the lock attempt
    ended: with the lock the guarded run and the release, without it a note
    of the failure (the error itself is swallowed); the report comes last on
    both paths.
   */
  function AfterLookup(job: string, key: string, o: DLock.Outcome, env: Env): (r: TriggerOutcome)
    ensures ReportedOnce(r.events, job, env.clock, env.start, r.stop)
    ensures HandlerRan(job) in r.events <==> o.result.Ok?
    ensures multiset(r.events)[HandlerRan(job)] <= 1
    ensures multiset(r.events)[Acked] == (if o.result.Ok? then 2 else 1)
    ensures o.result.Err? ==> r.store == o.store && r.stop == o.lastAttempt
    ensures o.result.Ok? ==> r.stop == env.finish && r.store == DLock.Release(o.store, o.result.value, env.finish, env.releaseConn).0
    ensures o.result.Ok? ==> r.events == ObtainedTrace(job, key, env.handlerError,
      DLock.Release(o.store, o.result.value, env.finish, env.releaseConn).1.None?, env.clock, env.start, env.finish)
  {
    match o.result
    case Err(_) =>
      TriggerOutcome(NotObtainedTrace(job, key, env.clock, env.start, o.lastAttempt), o.store, o.lastAttempt)
    case Ok(lock) =>
      var (st', err) := DLock.Release(o.store, lock, env.finish, env.releaseConn);
      TriggerOutcome(ObtainedTrace(job, key, env.handlerError, err.None?, env.clock, env.start, env.finish), st', env.finish)
  }

  /**
    `jobTrigger`: an undecodable or unknown command is acked and dropped.
    A known one is acked at once; then the deferred report is armed, the
    job's lock is tried once, and only with the lock does the handler run,
    after which the message is acked again and the lock released.
   */
  function HandleTrigger(reg: Registry, st: Store, cmd: Option<TriggerCommand>, env: Env): (r: TriggerOutcome)
    requires WellFormedEnv(env)
    ensures |r.events| >= 1 && r.events[0] == Acked
    ensures cmd.None? || cmd.value.job !in reg.jobs ==> r.events == [Acked] && r.store == st
    ensures cmd.Some? && cmd.value.job in reg.jobs ==>
      r == AfterLookup(cmd.value.job, LockKeys.CronJobLock(cmd.value.job), ObtainFor(st, cmd.value.job, env), env)
    ensures HandlerGuarded(r.events)
    ensures forall e | e in r.events && e.HandlerRan? :: cmd.Some? && e.job == cmd.value.job
  {
    if cmd.None? || cmd.value.job !in reg.jobs then TriggerOutcome([Acked], st, env.start)
    else
      var job := cmd.value.job;
      AfterLookup(job, LockKeys.CronJobLock(job), ObtainFor(st, job, env), env)
  }

  /** A known job's lock is its `CronJobLock` key, tried exactly once (no retry strategy is passed). */
  lemma TriggerTriesLockOnce(st: Store, job: string, env: Env)
    requires WellFormedEnv(env) && env.entropy.Ok?
    ensures ObtainFor(st, job, env).attempts == 1
    ensures ObtainFor(st, job, env).result.Ok? ==> ObtainFor(st, job, env).result.value.key == LockKeys.CronJobLock(job)
    ensures DLock.ConnAt(env.conns, 0).ConnOk? && Get(st, LockKeys.CronJobLock(job), env.start).Some? ==>
      ObtainFor(st, job, env).result == Err(DLock.ErrNotObtained)
  {
    DLock.ObtainWithoutRetryTriesOnce(st, LockKeys.CronJobLock(job), LOCK_TTL, TRIGGER_OPTIONS, env.ctxDeadline,
                                      env.start, env.entropy, env.conns);
  }

  /**
    The lock outlives its taking only by 30 s: from then on a second trigger
    of the same job obtains it, even while the first handler still runs.
   */
  lemma LockLapsesAfterTtl(st: Store, job: string, env: Env, otherValue: string)
    requires WellFormedEnv(env)
    requires ObtainFor(st, job, env).result.Ok?
    ensures var o := ObtainFor(st, job, env);
      DLock.TryObtain(o.store, LockKeys.CronJobLock(job), otherValue, LOCK_TTL, o.lastAttempt + LOCK_TTL, DLock.ConnOk).1 == Ok(true)
  {
    assert DLock.TtlSeconds(LOCK_TTL) == 30;
  }

  /** Releasing 30 s or more after the lock was taken finds the lock gone. */
  lemma ReleaseAfterTtlFails(st: Store, job: string, env: Env)
    requires WellFormedEnv(env)
    requires ObtainFor(st, job, env).result.Ok?
    requires env.finish >= ObtainFor(st, job, env).lastAttempt + LOCK_TTL
    requires env.releaseConn.ConnOk?
    ensures var o := ObtainFor(st, job, env);
      DLock.Release(o.store, o.result.value, env.finish, env.releaseConn).1.Some?
  {
    var o := ObtainFor(st, job, env);
    assert DLock.TtlSeconds(LOCK_TTL) == 30;
    assert !DLock.Holds(o.store, o.result.value, env.finish);
  }

  /** A handler that returns 30 s or more after the lock was taken finds the lock gone at release. */
  lemma SlowHandlerReleaseFails(reg: Registry, st: Store, job: string, triggerTime: int, env: Env)
    requires WellFormedEnv(env) && job in reg.jobs
    requires ObtainFor(st, job, env).result.Ok?
    requires env.finish >= ObtainFor(st, job, env).lastAttempt + LOCK_TTL
    requires env.releaseConn.ConnOk?
    ensures LockReleased(LockKeys.CronJobLock(job), false) in HandleTrigger(reg, st, Some(TriggerCommand(job, triggerTime)), env).events
  {
    ReleaseAfterTtlFails(st, job, env);
  }

  /** Every trigger of one job contends on the same key, whatever its trigger time. */
  lemma TriggerTimeIrrelevant(reg: Registry, st: Store, job: string, t1: int, t2: int, env: Env)
    requires WellFormedEnv(env)
    ensures HandleTrigger(reg, st, Some(TriggerCommand(job, t1)), env)
         == HandleTrigger(reg, st, Some(TriggerCommand(job, t2)), env)
  {
  }

  /** One receive from the channel: the worker that took the item, which then calls `fn` on it. */
  datatype Call = Call(worker: nat, id: int64)

  /**
    How `doPublishConcurrently` ends: a negative concurrency makes
    `WaitGroup.Add` panic; otherwise it returns after the listed receives,
    with `leaked` set when the sending goroutine stays blocked forever (no
    workers but items to send). Only the receives are ordered: the `fn` calls
    of different workers may overlap, so the order of calls is stated per
    worker (`CallsBy`).
   */
  datatype FanOutcome = Panicked | Returned(received: seq<Call>, leaked: bool)

  function Ids(calls: seq<Call>): (ids: seq<int64>)
    ensures |ids| == |calls|
    ensures forall k | 0 <= k < |calls| :: ids[k] == calls[k].id
  {
    if |calls| == 0 then [] else Ids(calls[..|calls| - 1]) + [calls[|calls| - 1].id]
  }

  /** The items worker w calls `fn` on, in the order it calls it: the items it received, in turn. */
  function CallsBy(received: seq<Call>, w: nat): seq<int64> {
    if |received| == 0 then []
    else
      var last := received[|received| - 1];
      CallsBy(received[..|received| - 1], w) + (if last.worker == w then [last.id] else [])
  }

  /** The items of `ids` whose position `assign` gives to worker w, in input order. */
  function AssignedTo(ids: seq<int64>, assign: seq<nat>, w: nat): seq<int64>
    requires |assign| == |ids|
  {
    if |ids| == 0 then []
    else
      AssignedTo(ids[..|ids| - 1], assign[..|ids| - 1], w) + (if assign[|ids| - 1] == w then [ids[|ids| - 1]] else [])
  }

  /**
    A receive log that pairs each item with its assigned worker gives every
    worker exactly its assigned items, in input order.
   */
  lemma {:induction false} ReceivesPerWorker(received: seq<Call>, ids: seq<int64>, assign: seq<nat>, w: nat)
    requires |received| == |ids| == |assign|
    requires forall j | 0 <= j < |received| :: received[j].worker == assign[j] && received[j].id == ids[j]
    ensures CallsBy(received, w) == AssignedTo(ids, assign, w)
  {
    if |received| > 0 {
      var n := |received| - 1;
      ReceivesPerWorker(received[..n], ids[..n], assign[..n], w);
    }
  }

  /**
    `doPublishConcurrently`, run sequentially: item k of `ids` is sent on the
    unbuffered channel in order and received by worker `assign[k]`, which
    calls `fn` on it; the function returns once every worker has drained the
    channel. Each worker calls `fn` on exactly the items it was assigned, in
    input order.
   */
  method DoPublishConcurrently(ids: seq<int64>, concurrency: int, assign: seq<nat>) returns (r: FanOutcome)
    requires concurrency > 0 ==> |assign| == |ids| && forall k | 0 <= k < |assign| :: assign[k] < concurrency
    ensures concurrency < 0 <==> r.Panicked?
    ensures concurrency == 0 ==> r == Returned([], |ids| > 0)
    ensures concurrency > 0 ==> r.Returned? && !r.leaked && Ids(r.received) == ids
    ensures r.Returned? ==> multiset(Ids(r.received)) <= multiset(ids)
    ensures concurrency > 0 ==> multiset(Ids(r.received)) == multiset(ids)
    ensures concurrency > 0 ==> forall k | 0 <= k < |r.received| :: r.received[k].worker == assign[k] < concurrency
    ensures concurrency > 0 ==> forall w: nat :: CallsBy(r.received, w) == AssignedTo(ids, assign, w)
  {
    if concurrency < 0 {
      return Panicked;
    }
    if concurrency == 0 {
      return Returned([], |ids| > 0);
    }
    var calls: seq<Call> := [];
    var k := 0;
    while k < |ids|
      invariant 0 <= k <= |ids|
      invariant |calls| == k
      invariant Ids(calls) == ids[..k]
      invariant forall j | 0 <= j < k :: calls[j].worker == assign[j]
    {
      calls := calls + [Call(assign[k], ids[k])];
      k := k + 1;
    }
    assert ids[..k] == ids;
    forall w: nat
      ensures CallsBy(calls, w) == AssignedTo(ids, assign, w)
    {
      ReceivesPerWorker(calls, ids, assign, w);
    }
    return Returned(calls, false);
  }
}

=== FILE: lock_keys.dfy ===
/** The distributed-lock key builders of pkg/def/lock.go. */
module LockKeys {
  import opened GoInt
  import opened Strconv

  const ORDER_LOCK_PREFIX: string := "lock_order_"
  const CRON_JOB_LOCK_PREFIX: string := "lock_cron_job_"

  /** `OrderLock`: "lock_order_" followed by the order id in decimal. */
  function OrderLock(orderID: int64): string {
    ORDER_LOCK_PREFIX + FormatInt(orderID)
  }

  /** `CronJobLock`: "lock_cron_job_" followed by the job name. */
  function CronJobLock(jobName: string): string {
    CRON_JOB_LOCK_PREFIX + jobName
  }

  /** The key with a known prefix removed gives back what followed it. */
  lemma StripPrefix(p: string, a: string, b: string)
    requires p + a == p + b
    ensures a == b
  {
    assert a == (p + a)[|p|..];
    assert b == (p + b)[|p|..];
  }

  /** Two different jobs never contend on the same lock key. */
  lemma CronJobLockInjective(a: string, b: string)
    ensures CronJobLock(a) == CronJobLock(b) ==> a == b
  {
    if CronJobLock(a) == CronJobLock(b) {
      StripPrefix(CRON_JOB_LOCK_PREFIX, a, b);
    }
  }

  /** Two different orders never contend on the same lock key. */
  lemma OrderLockInjective(a: int64, b: int64)
    ensures OrderLock(a) == OrderLock(b) ==> a == b
  {
    if OrderLock(a) == OrderLock(b) {
      StripPrefix(ORDER_LOCK_PREFIX, FormatInt(a), FormatInt(b));
      FormatIntInjective(a, b);
    }
  }

  /** Order locks and job locks live in disjoint key spaces: they differ at the sixth character. */
  lemma LockNamespacesDisjoint(orderID: int64, jobName: string)
    ensures OrderLock(orderID) != CronJobLock(jobName)
  {
    assert OrderLock(orderID)[5] == 'o';
    assert CronJobLock(jobName)[5] == 'c';
  }
}

=== FILE: logger.dfy ===
/**
  The access-log decision of the `Logger` middleware in
  pkg/net/http/vin/logger.go: which caller the stats are attributed to, the
  stats key, and at which level (if any) the request is logged, from the
  request's last error, its duration and its path.
 */
module AccessLog {
  import opened Results
  import opened GoInt

  const NO_USER: string := "no_user"
  /** A request is slow from one second on. */
  const SLOW_THRESHOLD: int := 1000 * MILLISECOND
  /** `_ignorePaths`: paths whose routine requests are not logged. */
  const IGNORED_PATHS: set<string> := {"/monitor/ping", "/favicon.ico"}

  datatype Level = Skip | Info | Warn | Error

  /** The caller the stats name: the metadata's caller, or "no_user". */
  function CallerName(caller: string): (r: string)
    ensures r != ""
    ensures caller != "" ==> r == caller
    ensures caller == "" ==> r == NO_USER
  {
    if caller == "" then NO_USER else caller
  }

  predicate IsSlow(durationNs: int) {
    durationNs >= SLOW_THRESHOLD
  }

  /**
    The level of the access record. `errCode` is the ecode of the request's
    last error, when it has one: positive codes log at Warn, others at
    Error. Without an error, slow requests log at Warn, ignored paths not at
    all, everything else at Info.
   */
  function LogLevel(errCode: Option<int>, durationNs: int, path: string): (l: Level)
    ensures errCode.Some? ==> l == (if errCode.value > 0 then Warn else Error)
    ensures errCode.None? && IsSlow(durationNs) ==> l == Warn
  {
    match errCode
    case Some(code) => if code > 0 then Warn else Error
    case None =>
      if IsSlow(durationNs) then Warn
      else if path in IGNORED_PATHS then Skip
      else Info
  }

  /** A record is written unless the request is fast, error-free and on an ignored path. */
  lemma SkipOnlyRoutineIgnored(errCode: Option<int>, durationNs: int, path: string)
    ensures LogLevel(errCode, durationNs, path) == Skip <==>
      errCode.None? && !IsSlow(durationNs) && path in IGNORED_PATHS
    ensures LogLevel(errCode, durationNs, path) == Info <==>
      errCode.None? && !IsSlow(durationNs) && path !in IGNORED_PATHS
  {
  }

  /** Errors are never downgraded by speed: a slow request with an error logs by its code, a fast one the same. */
  lemma ErrorLevelIgnoresDuration(code: int, d1: int, d2: int, p1: string, p2: string)
    ensures LogLevel(Some(code), d1, p1) == LogLevel(Some(code), d2, p2)
  {
  }

  /** What the middleware emits after the chain ran: the stats attribution and the log level. */
  datatype Access = PanicsEmptyPath | Access(caller: string, statsPath: string, level: Level)

  /** The stats are keyed by the path without its first character; an empty path makes `path[1:]` panic. */
  function Logger(caller: string, errCode: Option<int>, durationNs: int, path: string): (r: Access)
    ensures path == "" <==> r.PanicsEmptyPath?
    ensures r.Access? ==> r.caller == CallerName(caller) && [path[0]] + r.statsPath == path
    ensures r.Access? ==> r.level == LogLevel(errCode, durationNs, path)
  {
    if path == "" then PanicsEmptyPath
    else Access(CallerName(caller), path[1..], LogLevel(errCode, durationNs, path))
  }

  lemma LoggerExamples()
    ensures Logger("", None, 0, "/monitor/ping") == Access(NO_USER, "monitor/ping", Skip)
    ensures Logger("", None, SLOW_THRESHOLD, "/monitor/ping").level == Warn
    ensures Logger("app", Some(-500), 0, "/x") == Access("app", "x", Error)
  {
  }
}

=== FILE: metadata.dfy ===
/**
  The request metadata pkg/net/http/vin/metadata.go derives from HTTP
  headers: the mirror flag, the colour, the propagated timeout (in whole
  milliseconds, reduced by 20 ms per hop), and the client address and port.
  Headers are a map from canonical name to value; a missing header reads as "".
 */
module Metadata {
  import opened Results
  import opened GoInt
  import Strconv
  import Strs

  type Headers = map<string, string>

  /** `Header.Get`. */
  function HeaderGet(h: Headers, name: string): string {
    if name in h then h[name] else ""
  }

  const HEADER_USER: string := "X1-Done-User"
  const HEADER_COLOR: string := "X1-Done-Color"
  const HEADER_TIMEOUT: string := "X1-Done-Timeout"
  const HEADER_MIRROR: string := "X1-Done-Mirror"
  const HEADER_REMOTE_IP: string := "X-Backend-Done-Real-Ip"
  const HEADER_REMOTE_PORT: string := "X-Backend-Done-Real-Ipport"
  const HEADER_FORWARDED_FOR: string := "X-Forwarded-For"
  const HEADER_REAL_IP: string := "X-Real-Ip"

  /** The milliseconds each hop takes off the propagated timeout. */
  const HOP_MS: int := 20

  /** `mirror`: the header read as a Go boolean; empty or unparseable is false. */
  function Mirror(h: Headers): (b: bool)
    ensures b <==> Strconv.ParseBool(HeaderGet(h, HEADER_MIRROR)) == Some(true)
    ensures HeaderGet(h, HEADER_MIRROR) == "" ==> !b
  {
    var s := HeaderGet(h, HEADER_MIRROR);
    if s == "" then false
    else match Strconv.ParseBool(s) case None => false case Some(v) => v
  }

  lemma MirrorSpellings(h: Headers)
    ensures HeaderGet(h, HEADER_MIRROR) in {"1", "t", "T", "TRUE", "true", "True"} ==> Mirror(h)
    ensures HeaderGet(h, HEADER_MIRROR) in {"", "0", "false", "yes", "on"} ==> !Mirror(h)
  {
  }

  /** `caller`: the calling application's id, "" when absent. */
  function Caller(h: Headers): string {
    HeaderGet(h, HEADER_USER)
  }

  /** `color`: the header, or the deployment's colour when the header is empty. */
  function Color(h: Headers, envColor: string): (c: string)
    ensures HeaderGet(h, HEADER_COLOR) != "" ==> c == HeaderGet(h, HEADER_COLOR)
    ensures HeaderGet(h, HEADER_COLOR) == "" ==> c == envColor
  {
    var c := HeaderGet(h, HEADER_COLOR);
    if c == "" then envColor else c
  }

  /** `setTimeout`: the duration in whole milliseconds (Go's truncating division) as a decimal header. */
  function SetTimeout(h: Headers, d: int64): (r: Headers)
    ensures HEADER_TIMEOUT in r && Strconv.ParseInt(r[HEADER_TIMEOUT]) == Strconv.ParsedInt(Quo(d, MILLISECOND), None)
    ensures forall k :: k != HEADER_TIMEOUT ==> HeaderGet(r, k) == HeaderGet(h, k)
  {
    var td := Quo(d, MILLISECOND);
    Strconv.ParseFormat(td);
    h[HEADER_TIMEOUT := Strconv.FormatInt(td)]
  }

  /**
    `timeout`: the header parsed as an int64 count of milliseconds, reduced by
    20 when it parsed and exceeds 20, then multiplied into a Duration with
    int64 wrap-around. A syntax error parses as 0; an out-of-range number,
    even one followed by garbage, as the int64 bound on its sign's side,
    which is not reduced.
   */
  function Timeout(h: Headers): (d: int)
    ensures IsInt64(d)
    ensures Strconv.ParseInt(HeaderGet(h, HEADER_TIMEOUT)).err == Some(Strconv.ErrSyntax) ==> d == 0
  {
    var p := Strconv.ParseInt(HeaderGet(h, HEADER_TIMEOUT));
    var ms := if p.err.None? && p.value > HOP_MS then p.value - HOP_MS else p.value;
    Wrap64(ms * MILLISECOND)
  }

  /** The largest millisecond count whose Duration does not overflow. */
  const MAX_MS: int := MAX_INT64 / MILLISECOND

  /** A header carrying v milliseconds yields v - 20 ms when v > 20, and v ms otherwise (within the Duration range). */
  lemma TimeoutReduces(h: Headers, v: int)
    requires HeaderGet(h, HEADER_TIMEOUT) == Strconv.FormatInt(v)
    requires -MAX_MS <= v <= MAX_MS
    ensures v > HOP_MS ==> Timeout(h) == (v - HOP_MS) * MILLISECOND
    ensures v <= HOP_MS ==> Timeout(h) == v * MILLISECOND
  {
    Strconv.ParseFormat(v);
  }

  /** A number outside int64 never yields a positive timeout: the clamped bound times 10^6 wraps to -1 ms or 0. */
  lemma OutOfRangeTimeoutNotPositive(h: Headers)
    requires Strconv.ParseInt(HeaderGet(h, HEADER_TIMEOUT)).err == Some(Strconv.ErrRange)
    ensures Timeout(h) == -MILLISECOND || Timeout(h) == 0
  {
    WrapBounds();
  }

  lemma WrapBounds()
    ensures Wrap64(MAX_INT64 * MILLISECOND) == -MILLISECOND
    ensures Wrap64(MIN_INT64 * MILLISECOND) == 0
  {
    assert MAX_INT64 * MILLISECOND == (TWO_63 * MILLISECOND / TWO_64) * TWO_64 - MILLISECOND;
    assert MIN_INT64 * MILLISECOND == -(TWO_63 * MILLISECOND / TWO_64) * TWO_64;
  }

  /** What one hop sees: setting d and reading it back gives d in whole milliseconds, less 20 ms. */
  lemma TimeoutSetTimeout(h: Headers, d: int64)
    requires Quo(d, MILLISECOND) > HOP_MS
    ensures Timeout(SetTimeout(h, d)) == (Quo(d, MILLISECOND) - HOP_MS) * MILLISECOND
    ensures d % MILLISECOND == 0 ==> Timeout(SetTimeout(h, d)) == d - HOP_MS * MILLISECOND
  {
    var td := Quo(d, MILLISECOND);
    assert td <= MAX_MS;
    Strconv.ParseFormat(td);
  }

  /**
    `remoteIP`: the trusted proxy's header unless empty or "null"; then the
    first X-Forwarded-For entry, trimmed, but only when the header holds a
    comma; then X-Real-Ip; then the remote address up to its first ':'
    (which panics, here `None`, when the address holds no ':').
   */
  function RemoteIp(h: Headers, remoteAddr: string): (r: Option<string>)
    ensures var v := HeaderGet(h, HEADER_REMOTE_IP); v != "" && v != "null" ==> r == Some(v)
  {
    var v := HeaderGet(h, HEADER_REMOTE_IP);
    if v != "" && v != "null" then Some(v)
    else
      var xff := HeaderGet(h, HEADER_FORWARDED_FOR);
      var first := ForwardedFirst(xff);
      if first.Some? && first.value != "" then first
      else
        var realIp := HeaderGet(h, HEADER_REAL_IP);
        if realIp != "" then Some(realIp)
        else match Strs.Find(remoteAddr, ":") case None => None case Some(i) => Some(remoteAddr[..i])
  }

  /** The trimmed text before the first comma of X-Forwarded-For, when there is a comma. */
  function ForwardedFirst(xff: string): (r: Option<string>)
    ensures r.None? <==> Strs.Free(xff, ",")
    ensures r.Some? ==> exists i :: 0 <= i <= |xff| && r.value == Strs.TrimSpace(xff[..i]) && Strs.Find(xff, ",") == Some(i)
  {
    match Strs.Find(xff, ",")
    case None => None
    case Some(i) => Some(Strs.TrimSpace(xff[..i]))
  }

  /** The four sources in priority order: each is used exactly when every earlier one is unusable. */
  lemma RemoteIpPriority(h: Headers, remoteAddr: string)
    ensures var v := HeaderGet(h, HEADER_REMOTE_IP);
      var first := ForwardedFirst(HeaderGet(h, HEADER_FORWARDED_FOR));
      var realIp := HeaderGet(h, HEADER_REAL_IP);
      var trusted := v != "" && v != "null";
      var forwarded := first.Some? && first.value != "";
      (!trusted && forwarded ==> RemoteIp(h, remoteAddr) == first) &&
      (!trusted && !forwarded && realIp != "" ==> RemoteIp(h, remoteAddr) == Some(realIp)) &&
      (!trusted && !forwarded && realIp == "" ==>
        (RemoteIp(h, remoteAddr).Some? <==> !Strs.Free(remoteAddr, ":")) &&
        (RemoteIp(h, remoteAddr).Some? ==> RemoteIp(h, remoteAddr).value + ":" <= remoteAddr))
  {
    var v := HeaderGet(h, HEADER_REMOTE_IP);
    var f := Strs.Find(remoteAddr, ":");
    if f.Some? {
      assert remoteAddr[..f.value] + ":" == remoteAddr[..f.value + 1];
    }
  }

  /** A single X-Forwarded-For entry (no comma) is ignored: the answer is the same as without the header. */
  lemma SingleForwardedIgnored(h: Headers, remoteAddr: string)
    requires Strs.Free(HeaderGet(h, HEADER_FORWARDED_FOR), ",")
    ensures RemoteIp(h, remoteAddr) == RemoteIp(h - {HEADER_FORWARDED_FOR}, remoteAddr)
  {
    assert HeaderGet(h - {HEADER_FORWARDED_FOR}, HEADER_FORWARDED_FOR) == "";
    assert Strs.Free("", ",");
    assert HeaderGet(h - {HEADER_FORWARDED_FOR}, HEADER_REMOTE_IP) == HeaderGet(h, HEADER_REMOTE_IP);
    assert HeaderGet(h - {HEADER_FORWARDED_FOR}, HEADER_REAL_IP) == HeaderGet(h, HEADER_REAL_IP);
  }

  /** `remotePort`: the header as it stands; its test for "" and "null" returns the same value either way. */
  function RemotePort(h: Headers): (port: string)
    ensures port == "null" <==> HeaderGet(h, HEADER_REMOTE_PORT) == "null"
    ensures |port| == |HeaderGet(h, HEADER_REMOTE_PORT)|
  {
    var port := HeaderGet(h, HEADER_REMOTE_PORT);
    if port != "" && port != "null" then port else port
  }

  /** `remotePort` passes "null" through rather than replacing it. */
  lemma RemotePortKeepsNull(h: Headers)
    requires HeaderGet(h, HEADER_REMOTE_PORT) == "null"
    ensures RemotePort(h) == "null"
  {
  }
}

=== FILE: pubsub.dfy ===
/**
  The Pub/Sub helpers of app/api/service/pubsub.go. The bus is a set of topic
  names and a map from subscription id to its configuration; every answer the
  service could give (an existence-check error, a creation error, a publish
  acknowledgement) is an input.
 */
module PubSub {
  import opened Results
  import JobTrigger
  import XTime
  import GoInt

  datatype DeadLetterPolicy = DeadLetterPolicy(deadLetterTopic: string, maxDeliveryAttempts: int)

  /** What `CreateSubscription` is given: the topic and, when one was passed, the dead-letter policy. */
  datatype SubscriptionConfig = SubscriptionConfig(topic: string, deadLetter: Option<DeadLetterPolicy>)

  datatype Bus = Bus(topics: set<string>, subs: map<string, SubscriptionConfig>)

  /** `EnsureTopic`: a failed existence check is returned as is; an absent topic is created. */
  function EnsureTopic(bus: Bus, topic: string, existsErr: Option<string>, createErr: Option<string>)
    : (r: (Bus, Result<string, string>))
    ensures existsErr.Some? ==> r == (bus, Err(existsErr.value))
    ensures existsErr.None? && topic in bus.topics ==> r == (bus, Ok(topic))
    ensures existsErr.None? && topic !in bus.topics && createErr.Some? ==> r == (bus, Err(createErr.value))
    ensures existsErr.None? && topic !in bus.topics && createErr.None? ==>
      r == (bus.(topics := bus.topics + {topic}), Ok(topic))
    ensures r.1.Ok? ==> topic in r.0.topics
    ensures r.0.subs == bus.subs && bus.topics <= r.0.topics <= bus.topics + {topic}
  {
    if existsErr.Some? then (bus, Err(existsErr.value))
    else if topic in bus.topics then (bus, Ok(topic))
    else if createErr.Some? then (bus, Err(createErr.value))
    else (bus.(topics := bus.topics + {topic}), Ok(topic))
  }

  /** A second EnsureTopic after a successful one creates nothing. */
  lemma EnsureTopicIdempotent(bus: Bus, topic: string, e1: Option<string>, e2: Option<string>)
    requires EnsureTopic(bus, topic, None, e1).1.Ok?
    ensures var b1 := EnsureTopic(bus, topic, None, e1).0;
      EnsureTopic(b1, topic, None, e2) == (b1, Ok(topic))
  {
  }

  /** The subscription id `<topic>.sub.ascale`. */
  function SubscriptionId(topic: string): string { topic + ".sub.ascale" }

  lemma SubscriptionIdInjective(a: string, b: string)
    ensures SubscriptionId(a) == SubscriptionId(b) ==> a == b
  {
    if SubscriptionId(a) == SubscriptionId(b) {
      assert a == SubscriptionId(a)[..|a|];
      assert |a| == |b|;
      assert b == SubscriptionId(b)[..|b|];
    }
  }

  /**
    `EnsureSubscription`: the subscription `<topic>.sub.ascale` is created,
    with the dead-letter policy when one is given, only if it does not exist;
    an existing one is returned unchanged.
   */
  function EnsureSubscription(bus: Bus, topic: string, policy: Option<DeadLetterPolicy>,
                              existsErr: Option<string>, createErr: Option<string>)
    : (r: (Bus, Result<string, string>))
    ensures existsErr.Some? ==> r == (bus, Err(existsErr.value))
    ensures r.1.Ok? ==> r.1.value == SubscriptionId(topic) && SubscriptionId(topic) in r.0.subs
    ensures SubscriptionId(topic) in bus.subs ==> r.0 == bus
    ensures r.1.Err? ==> r.0 == bus
    ensures existsErr.None? && SubscriptionId(topic) in bus.subs ==> r == (bus, Ok(SubscriptionId(topic)))
    ensures existsErr.None? && SubscriptionId(topic) !in bus.subs && createErr.Some? ==> r == (bus, Err(createErr.value))
    ensures existsErr.None? && SubscriptionId(topic) !in bus.subs && createErr.None? ==> r.1 == Ok(SubscriptionId(topic))
    ensures SubscriptionId(topic) !in bus.subs && r.1.Ok? ==>
      r.0 == bus.(subs := bus.subs[SubscriptionId(topic) := SubscriptionConfig(topic, policy)])
    ensures r.0.topics == bus.topics
  {
    var subID := SubscriptionId(topic);
    if existsErr.Some? then (bus, Err(existsErr.value))
    else if subID in bus.subs then (bus, Ok(subID))
    else if createErr.Some? then (bus, Err(createErr.value))
    else (bus.(subs := bus.subs[subID := SubscriptionConfig(topic, policy)]), Ok(subID))
  }

  /** A policy passed to an existing subscription is not applied: its configuration stays as created. */
  lemma ExistingSubscriptionKeepsPolicy(bus: Bus, topic: string, policy: Option<DeadLetterPolicy>, createErr: Option<string>)
    requires SubscriptionId(topic) in bus.subs
    ensures EnsureSubscription(bus, topic, policy, None, createErr) == (bus, Ok(SubscriptionId(topic)))
  {
  }

  /** What `Publish` did: the bytes it handed to the topic, if any, and the error it returned. */
  datatype PublishOutcome = PublishOutcome(sent: Option<seq<int>>, err: Option<string>)

  /**
    `Publish`: a marshalling error is returned without sending; otherwise the
    data is sent and the result is exactly what the acknowledgement reports.
   */
  function Publish(marshalled: Result<seq<int>, string>, ackErr: Option<string>): (r: PublishOutcome)
    ensures marshalled.Err? ==> r.sent.None? && r.err == Some(marshalled.error)
    ensures marshalled.Ok? ==> r.sent == Some(marshalled.value) && r.err == ackErr
    ensures r.err.None? <==> marshalled.Ok? && ackErr.None?
  {
    match marshalled
    case Err(e) => PublishOutcome(None, Some(e))
    case Ok(data) => PublishOutcome(Some(data), ackErr)
  }

  /** The receive settings each subscription worker sets before receiving. */
  datatype ReceiveSettings = ReceiveSettings(synchronous: bool, maxOutstandingMessages: int, maxOutstandingBytes: int)

  const MAX_OUTSTANDING_BYTES: int := 10_000_000_000
  const MAX_RECEIVE_FAILURES: int := 10

  /** The number of failed receives in a run of receive results (true = failed). */
  function Failures(results: seq<bool>): (n: nat)
    ensures n <= |results|
  {
    if |results| == 0 then 0 else Failures(results[..|results| - 1]) + (if results[|results| - 1] then 1 else 0)
  }

  /** How a subscription worker's receive loop stands: still running, or terminated by `log.Fatalf`. */
  datatype LoopState = Running(failures: nat) | Fatal(round: nat)

  /**
    The receive loop of `createSubscription`, over the results of successive
    `Receive` calls: each failure bumps a counter that is never reset, and the
    failure that takes it past 10 terminates the process.
   */
  method ReceiveLoop(results: seq<bool>) returns (s: LoopState)
    ensures s.Running? <==> Failures(results) <= MAX_RECEIVE_FAILURES
    ensures s.Running? ==> s.failures == Failures(results)
    ensures s.Fatal? ==>
      s.round < |results| && results[s.round] && Failures(results[..s.round + 1]) == MAX_RECEIVE_FAILURES + 1
  {
    var i := 0;
    var k := 0;
    while k < |results|
      invariant 0 <= k <= |results|
      invariant i == Failures(results[..k]) <= MAX_RECEIVE_FAILURES
    {
      assert results[..k + 1][..k] == results[..k];
      if results[k] {
        i := i + 1;
        if i > MAX_RECEIVE_FAILURES {
          FailuresMonotone(results, k + 1);
          return Fatal(k);
        }
      }
      k := k + 1;
    }
    assert results[..k] == results;
    return Running(i);
  }

  lemma {:induction false} FailuresMonotone(results: seq<bool>, k: nat)
    requires k <= |results|
    ensures Failures(results[..k]) <= Failures(results)
    decreases |results| - k
  {
    if k < |results| {
      FailuresMonotone(results, k + 1);
      assert results[..k + 1][..k] == results[..k];
    } else {
      assert results[..k] == results;
    }
  }

  /**
    One `createSubscription` worker up to its receive loop: a failure to
    ensure the subscription is fatal; otherwise the worker receives
    synchronously with the given outstanding-message bound and 10^10 bytes.
   */
  function StartSubscriber(bus: Bus, topic: string, maxOutstanding: int, policy: Option<DeadLetterPolicy>,
                           existsErr: Option<string>, createErr: Option<string>)
    : (r: (Bus, Result<ReceiveSettings, string>))
    ensures r.1.Ok? ==> r.1.value == ReceiveSettings(true, maxOutstanding, MAX_OUTSTANDING_BYTES)
    ensures r.1.Ok? <==> EnsureSubscription(bus, topic, policy, existsErr, createErr).1.Ok?
    ensures r.0 == EnsureSubscription(bus, topic, policy, existsErr, createErr).0
  {
    var (bus', sub) := EnsureSubscription(bus, topic, policy, existsErr, createErr);
    match sub
    case Err(e) => (bus', Err(e))
    case Ok(_) => (bus', Ok(ReceiveSettings(true, maxOutstanding, MAX_OUTSTANDING_BYTES)))
  }

  /**
    `subscriptions`: every topic is ensured in turn, the first failure being
    fatal (None); then the trigger, task and dead-letter subscribers each get
    one outstanding message and no dead-letter policy.
   */
  function EnsureTopics(bus: Bus, topics: seq<string>, existsErrs: seq<Option<string>>, createErrs: seq<Option<string>>)
    : (r: Option<Bus>)
    requires |existsErrs| == |topics| && |createErrs| == |topics|
    ensures r.Some? ==> forall t | t in topics :: t in r.value.topics
    ensures r.Some? ==> r.value.subs == bus.subs && bus.topics <= r.value.topics
    ensures r.Some? ==> forall t | t in r.value.topics :: t in bus.topics || t in topics
    ensures (forall k | 0 <= k < |topics| :: existsErrs[k].None? && createErrs[k].None?) ==> r.Some?
    decreases |topics|
  {
    if |topics| == 0 then Some(bus)
    else
      var (b1, res) := EnsureTopic(bus, topics[0], existsErrs[0], createErrs[0]);
      if res.Err? then None
      else EnsureTopics(b1, topics[1..], existsErrs[1..], createErrs[1..])
  }

  /**
    Whether the k-th ensure fails once the ones before it succeeded (and so
    every earlier topic exists): its existence check errs, or its topic is
    new and creating it errs.
   */
  predicate EnsureFailsAt(bus: Bus, topics: seq<string>, existsErrs: seq<Option<string>>,
                          createErrs: seq<Option<string>>, k: nat)
    requires |existsErrs| == |topics| && |createErrs| == |topics| && k < |topics|
  {
    existsErrs[k].Some? || (createErrs[k].Some? && topics[k] !in bus.topics && topics[k] !in topics[..k])
  }

  /** `subscriptions` stops (None) exactly when one of its topic ensures fails. */
  lemma {:induction false} EnsureTopicsFailsIff(bus: Bus, topics: seq<string>, existsErrs: seq<Option<string>>,
                                                createErrs: seq<Option<string>>)
    requires |existsErrs| == |topics| && |createErrs| == |topics|
    ensures EnsureTopics(bus, topics, existsErrs, createErrs).None? <==>
      exists k :: 0 <= k < |topics| && EnsureFailsAt(bus, topics, existsErrs, createErrs, k)
    decreases |topics|
  {
    if |topics| > 0 {
      var (b1, res) := EnsureTopic(bus, topics[0], existsErrs[0], createErrs[0]);
      if res.Err? {
        assert EnsureFailsAt(bus, topics, existsErrs, createErrs, 0);
      } else {
        var ts, es, cs := topics[1..], existsErrs[1..], createErrs[1..];
        EnsureTopicsFailsIff(b1, ts, es, cs);
        assert b1.topics == bus.topics + {topics[0]};
        forall k | 0 <= k < |ts|
          ensures EnsureFailsAt(b1, ts, es, cs, k) <==> EnsureFailsAt(bus, topics, existsErrs, createErrs, k + 1)
        {
          assert topics[..k + 1] == [topics[0]] + ts[..k];
        }
        assert !EnsureFailsAt(bus, topics, existsErrs, createErrs, 0);
        if k :| 0 <= k < |topics| && EnsureFailsAt(bus, topics, existsErrs, createErrs, k) {
          assert EnsureFailsAt(b1, ts, es, cs, k - 1);
        }
      }
    }
  }

  /** The three subscribers `subscriptions` starts all receive one message at a time. */
  const SUBSCRIBER_MAX_OUTSTANDING: int := 1

  lemma SubscribersSynchronousSingle(bus: Bus, topic: string, existsErr: Option<string>, createErr: Option<string>)
    requires StartSubscriber(bus, topic, SUBSCRIBER_MAX_OUTSTANDING, None, existsErr, createErr).1.Ok?
    ensures var s := StartSubscriber(bus, topic, SUBSCRIBER_MAX_OUTSTANDING, None, existsErr, createErr).1.value;
      s.synchronous && s.maxOutstandingMessages == 1 && s.maxOutstandingBytes == 10_000_000_000
    ensures SubscriptionId(topic) !in bus.subs ==>
      StartSubscriber(bus, topic, SUBSCRIBER_MAX_OUTSTANDING, None, existsErr, createErr).0.subs[SubscriptionId(topic)]
        == SubscriptionConfig(topic, None)
  {
  }

  /**
    `logDeadLetter`: logs and acks the message, then reports timing and a
    count for the dead-letter consumer. Its start reading is `xtime.Now()`,
    so outside production the elapsed time is measured from the shifted
    instant.
   */
  function LogDeadLetter(deadLetterTopic: string, clock: XTime.Clock, start: int, stop: int)
    : (evs: seq<JobTrigger.Event>)
    ensures |evs| == 3 && evs[0] == JobTrigger.Acked
    ensures evs[1] == JobTrigger.Timing("consumer:" + deadLetterTopic, JobTrigger.ElapsedMs(XTime.Now(clock, start), stop))
    ensures evs[2] == JobTrigger.Counted("consumer:" + deadLetterTopic)
    ensures multiset(evs)[JobTrigger.Acked] == 1
    ensures multiset(evs)[JobTrigger.Counted("consumer:" + deadLetterTopic)] == 1
  {
    var metric := "consumer:" + deadLetterTopic;
    [JobTrigger.Acked, JobTrigger.Timing(metric, JobTrigger.ElapsedMs(XTime.Now(clock, start), stop)), JobTrigger.Counted(metric)]
  }

  /**
    The dead-letter timing is the run in whole milliseconds: exactly the real
    run in production, and outside production the run from the shifted start,
    so a positive offset shortens it.
   */
  lemma DeadLetterTiming(deadLetterTopic: string, clock: XTime.Clock, start: int, stop: int)
    ensures var ms := LogDeadLetter(deadLetterTopic, clock, start, stop)[1].ms;
      clock.prod && start <= stop ==> ms * GoInt.MILLISECOND <= stop - start < (ms + 1) * GoInt.MILLISECOND
    ensures var ms := LogDeadLetter(deadLetterTopic, clock, start, stop)[1].ms;
      !clock.prod && start + clock.delta <= stop ==>
        ms * GoInt.MILLISECOND <= stop - start - clock.delta < (ms + 1) * GoInt.MILLISECOND
  {
    JobTrigger.ElapsedMsBounds(XTime.Now(clock, start), stop);
  }
}

=== FILE: redis.dfy ===
/**
  The slice of Redis the lock client and the rate limiter rely on: string
  values with an optional expiry instant, and the commands SET NX EX, GET,
  DEL, PEXPIRE, PTTL, INCR and EXPIRE. Time is an integer count of
  nanoseconds; an entry whose expiry instant has been reached reads as absent.
 */
module Redis {
  import opened Results
  import opened GoInt
  import Strconv

  datatype Entry = Entry(value: string, expiresAt: Option<int>)

  type Store = map<string, Entry>

  predicate Live(e: Entry, now: int) {
    e.expiresAt.None? || now < e.expiresAt.value
  }

  /** GET: the value of a live key, nothing for a missing or expired one. */
  function Get(st: Store, key: string, now: int): Option<string> {
    if key in st && Live(st[key], now) then Some(st[key].value) else None
  }

  /** What a SET NX EX answers: "OK" when written, a nil bulk reply when the key exists, or an error. */
  datatype SetReply = SetOk | SetNil | SetError(msg: string)

  /**
    SET key value NX EX secs: a non-positive expiry is rejected; a live key
    is left alone; otherwise the value is written to expire secs seconds from now.
   */
  function SetNxEx(st: Store, key: string, value: string, secs: int, now: int): (r: (Store, SetReply))
    ensures r.1.SetOk? <==> secs > 0 && Get(st, key, now).None?
    ensures r.1.SetError? <==> secs <= 0
    ensures r.1.SetOk? ==> r.0 == st[key := Entry(value, Some(now + secs * SECOND))]
    ensures !r.1.SetOk? ==> r.0 == st
  {
    if secs <= 0 then (st, SetError("invalid expire time in 'set' command"))
    else if Get(st, key, now).Some? then (st, SetNil)
    else (st[key := Entry(value, Some(now + secs * SECOND))], SetOk)
  }

  /** DEL key: removes the key and answers 1 when it was live, 0 otherwise. */
  function Del(st: Store, key: string, now: int): (r: (Store, int))
    ensures key !in r.0
    ensures forall k :: k in st && k != key ==> k in r.0 && r.0[k] == st[k]
    ensures forall k :: k in r.0 ==> k in st
    ensures r.1 == (if Get(st, key, now).Some? then 1 else 0)
  {
    (st - {key}, if Get(st, key, now).Some? then 1 else 0)
  }

  /**
    PEXPIRE key ms: on a live key sets the expiry ms milliseconds ahead, or
    deletes the key when ms is not positive, and answers 1; answers 0 otherwise.
   */
  function PExpire(st: Store, key: string, ms: int, now: int): (r: (Store, int))
    ensures r.1 == 1 <==> Get(st, key, now).Some?
    ensures r.1 == 0 <==> Get(st, key, now).None?
    ensures r.1 == 0 ==> r.0 == st
    ensures r.1 == 1 && ms > 0 ==> r.0 == st[key := Entry(st[key].value, Some(now + ms * MILLISECOND))]
    ensures r.1 == 1 && ms <= 0 ==> r.0 == st - {key}
  {
    if Get(st, key, now).None? then (st, 0)
    else if ms <= 0 then (st - {key}, 1)
    else (st[key := Entry(st[key].value, Some(now + ms * MILLISECOND))], 1)
  }

  /** PTTL key: -2 for a missing key, -1 for one without expiry, otherwise the whole milliseconds left. */
  function PTtl(st: Store, key: string, now: int): (r: int)
    ensures r == -2 <==> Get(st, key, now).None?
    ensures r == -1 <==> Get(st, key, now).Some? && st[key].expiresAt.None?
    ensures r >= 0 <==> Get(st, key, now).Some? && st[key].expiresAt.Some?
    ensures r >= 0 ==> r * MILLISECOND <= st[key].expiresAt.value - now < (r + 1) * MILLISECOND
  {
    if Get(st, key, now).None? then -2
    else if st[key].expiresAt.None? then -1
    else (st[key].expiresAt.value - now) / MILLISECOND
  }

  /**
    INCR key: a missing or expired key counts as "0"; the stored text must be
    an int64 in canonical decimal (an optional '-', no leading zeros, no
    "-0"), as Redis's `string2ll` demands, and below the int64 maximum. The
    new count is stored with the key's expiry kept.
   */
  function Incr(st: Store, key: string, now: int): (r: (Store, Result<int, string>))
    ensures Get(st, key, now).None? ==> r.1 == Ok(1) && r.0 == st[key := Entry("1", None)]
    ensures r.1.Ok? ==> IsInt64(r.1.value) && Get(r.0, key, now) == Some(Strconv.FormatInt(r.1.value))
    ensures r.1.Err? ==> r.0 == st
    ensures Get(st, key, now).Some? && r.1.Ok? ==> Get(st, key, now).value == Strconv.FormatInt(r.1.value - 1)
    ensures forall k :: k != key ==> (k in r.0 <==> k in st) && (k in st ==> r.0[k] == st[k])
  {
    match Get(st, key, now)
    case None => (st[key := Entry("1", None)], Ok(1))
    case Some(text) =>
      var p := Strconv.ParseInt(text);
      if p.err.Some? || text != Strconv.FormatInt(p.value) then (st, Err("value is not an integer or out of range"))
      else if p.value == MAX_INT64 then (st, Err("increment or decrement would overflow"))
      else (st[key := Entry(Strconv.FormatInt(p.value + 1), st[key].expiresAt)], Ok(p.value + 1))
  }

  /**
    A stored canonical decimal is incremented, or refused at the int64
    maximum; with the canonical-form ensures of `Incr`, Redis's `string2ll`
    acceptance is characterised in both directions.
   */
  lemma IncrCanonical(st: Store, key: string, now: int, v: int)
    requires IsInt64(v) && Get(st, key, now) == Some(Strconv.FormatInt(v))
    ensures Incr(st, key, now).1 == if v == MAX_INT64 then Err("increment or decrement would overflow") else Ok(v + 1)
  {
    Strconv.ParseFormat(v);
  }

  /** Leading zeros, a plus sign and a negative zero are refused, as `string2ll` refuses them. */
  lemma IncrRejectsNonCanonical(st: Store, key: string, now: int, text: string)
    requires Get(st, key, now) == Some(text)
    requires || (|text| >= 2 && text[0] == '0')
             || (|text| >= 1 && text[0] == '+')
             || (|text| >= 2 && text[0] == '-' && text[1] == '0')
    ensures Incr(st, key, now) == (st, Err("value is not an integer or out of range"))
  {
    Strconv.FormatIntCanonical(Strconv.ParseInt(text).value);
  }

  /** EXPIRE key secs: like PEXPIRE with whole seconds; the reply is not needed by the callers modelled. */
  function Expire(st: Store, key: string, secs: int, now: int): (r: Store)
    ensures Get(st, key, now).None? ==> r == st
    ensures Get(st, key, now).Some? && secs > 0 ==> r == st[key := Entry(st[key].value, Some(now + secs * SECOND))]
    ensures Get(st, key, now).Some? && secs <= 0 ==> key !in r
  {
    if Get(st, key, now).None? then st
    else if secs <= 0 then st - {key}
    else st[key := Entry(st[key].value, Some(now + secs * SECOND))]
  }
}

=== FILE: results.dfy ===
/** The optional-value and value-or-error shapes that Go expresses with nil and `(T, error)` pairs. */
module Results {

  datatype Option<+T> = None | Some(value: T)

  datatype Result<+T, +E> = Ok(value: T) | Err(error: E)
}

=== FILE: retry.dfy ===
/**
  The lock-retry strategies of pkg/dlock/dlock.go. A strategy is asked for
  the next backoff after every failed attempt; a backoff below one nanosecond
  means "give up". The counting strategies carry their counter in the value,
  so asking returns the backoff together with the advanced strategy.
 */
module Retry {
  import opened GoInt

  datatype Strategy =
    | Linear(interval: int)
    | Limited(inner: Strategy, cnt: int, max: int)
    | Exponential(calls: nat, min: int, max: int)

  /** `LinearBackoff(d)`: always wait d. */
  function LinearBackoff(d: int): Strategy { Linear(d) }

  /** `NoRetry()`: a linear strategy of 0, so the first answer already gives up. */
  function NoRetry(): Strategy { Linear(0) }

  /** `LimitRetry(s, max)`: pass the first `max` requests on to s, then answer 0. */
  function LimitRetry(s: Strategy, max: int): Strategy { Limited(s, 0, max) }

  /** `ExponentialBackoff(min, max)`: 2^(n+1) ms on the n-th request, clamped. */
  function ExponentialBackoff(min: int, max: int): Strategy { Exponential(0, min, max) }

  function Pow2(n: nat): (p: nat)
    ensures p >= 1
  {
    if n == 0 then 1 else 2 * Pow2(n - 1)
  }

  /** The unclamped exponential wait for the n-th request: `2 << n` ms, fixed at `2 << 25` from n = 25 on. */
  function ExpMillis(n: nat): nat {
    if n < 25 then Pow2(n + 1) else Pow2(26)
  }

  /** Raise to `min` when below it; otherwise lower to `max` when a non-zero `max` is exceeded. */
  function Clamp(d: int, min: int, max: int): (r: int)
    ensures d < min ==> r == min
    ensures min <= d && max != 0 && d > max ==> r == max
    ensures min <= d && (max == 0 || d <= max) ==> r == d
    ensures 0 < max && min <= max ==> min <= r <= max
  {
    if d < min then min else if max != 0 && d > max then max else d
  }

  /** `NextBackoff`: the next wait and the strategy as it stands afterwards. */
  function NextBackoff(s: Strategy): (r: (int, Strategy))
    decreases s
  {
    match s
    case Linear(d) => (d, s)
    case Limited(inner, cnt, max) =>
      if cnt >= max then (0, s)
      else
        var (d, inner') := NextBackoff(inner);
        (d, Limited(inner', cnt + 1, max))
    case Exponential(calls, min, max) =>
      var n := calls + 1;
      (Clamp(ExpMillis(n) * MILLISECOND, min, max), Exponential(n, min, max))
  }

  /** The strategy after answering k requests. */
  function Advance(s: Strategy, k: nat): Strategy
    decreases k
  {
    if k == 0 then s else Advance(NextBackoff(s).1, k - 1)
  }

  /** The answer to request number k + 1. */
  function NthBackoff(s: Strategy, k: nat): int {
    NextBackoff(Advance(s, k)).0
  }

  /** A linear strategy answers its interval every time; NoRetry therefore always gives up. */
  lemma {:induction false} LinearConstant(d: int, k: nat)
    ensures Advance(Linear(d), k) == Linear(d)
    ensures NthBackoff(Linear(d), k) == d
    ensures NthBackoff(NoRetry(), k) < 1
    decreases k
  {
    if k > 0 {
      LinearConstant(d, k - 1);
      LinearConstant(0, k - 1);
    }
  }

  lemma {:induction false} AdvanceLimited(s: Strategy, cnt: int, max: int, k: nat)
    requires cnt + k <= max
    ensures Advance(Limited(s, cnt, max), k) == Limited(Advance(s, k), cnt + k, max)
    decreases k
  {
    if k > 0 {
      var s1 := NextBackoff(s).1;
      assert NextBackoff(Limited(s, cnt, max)).1 == Limited(s1, cnt + 1, max);
      AdvanceLimited(s1, cnt + 1, max, k - 1);
    }
  }

  lemma {:induction false} ExhaustedStays(s: Strategy, cnt: int, max: int, k: nat)
    requires cnt >= max
    ensures Advance(Limited(s, cnt, max), k) == Limited(s, cnt, max)
    decreases k
  {
    if k > 0 {
      ExhaustedStays(s, cnt, max, k - 1);
    }
  }

  lemma AdvanceSplit(s: Strategy, a: nat, b: nat)
    ensures Advance(s, a + b) == Advance(Advance(s, a), b)
    decreases a
  {
    if a > 0 {
      AdvanceSplit(NextBackoff(s).1, a - 1, b);
    }
  }

  /**
    `LimitRetry(s, max)` answers the first `max` requests exactly as s would,
    and every later request with 0.
   */
  lemma LimitRetryBackoffs(s: Strategy, max: int, k: nat)
    ensures k < max ==> NthBackoff(LimitRetry(s, max), k) == NthBackoff(s, k)
    ensures k >= max ==> NthBackoff(LimitRetry(s, max), k) == 0
  {
    if k < max {
      AdvanceLimited(s, 0, max, k);
    } else if max <= 0 {
      ExhaustedStays(s, 0, max, k);
    } else {
      AdvanceLimited(s, 0, max, max);
      AdvanceSplit(LimitRetry(s, max), max, k - max);
      ExhaustedStays(Advance(s, max), max, max, k - max);
    }
  }

  lemma {:induction false} AdvanceExponential(cnt: nat, min: int, max: int, k: nat)
    ensures Advance(Exponential(cnt, min, max), k) == Exponential(cnt + k, min, max)
    decreases k
  {
    if k > 0 {
      AdvanceExponential(cnt + 1, min, max, k - 1);
    }
  }

  /**
    Request number n = k + 1 of an exponential strategy waits 2^(n+1) ms, or
    2^26 ms once n reaches 25, raised to `min` or lowered to a non-zero `max`;
    with min <= max the wait always lies in [min, max].
   */
  lemma ExponentialBackoffs(min: int, max: int, k: nat)
    ensures NthBackoff(ExponentialBackoff(min, max), k)
      == Clamp(ExpMillis(k + 1) * MILLISECOND, min, max)
    ensures k + 1 < 25 ==> ExpMillis(k + 1) == Pow2(k + 2)
    ensures k + 1 >= 25 ==> ExpMillis(k + 1) == Pow2(26)
    ensures 0 < min <= max ==> min <= NthBackoff(ExponentialBackoff(min, max), k) <= max
    ensures max == 0 || min <= max ==> NthBackoff(ExponentialBackoff(min, max), k) >= min
  {
    AdvanceExponential(0, min, max, k);
  }

  /** The exponential wait never decreases from one request to the next. */
  lemma ExpMillisMonotone(n: nat)
    ensures ExpMillis(n) <= ExpMillis(n + 1)
  {
    if n + 1 < 25 {
      assert Pow2(n + 2) == 2 * Pow2(n + 1);
    } else if n < 25 {
      assert n == 24;
    }
  }
}

=== FILE: server.dfy ===
/**
  Helpers of the HTTP engine in pkg/net/http/vin/server.go: the last handler
  of a chain, DSN-to-config parsing, `SetConfig`, the route metadata kept by
  `addRoute`, the per-request timeout, and trailing-slash redirects. The DSN
  parser, `path.Clean` and the route tree are not modelled; their results are inputs.
 */
module Server {
  import opened Results
  import opened GoInt
  import Metadata

  /** `HandlersChain.Last`: nil for an empty chain, else the final handler. */
  function Last<H>(chain: seq<H>): (r: Option<H>)
    ensures r.None? <==> |chain| == 0
    ensures r.Some? ==> r.value == chain[|chain| - 1]
  {
    if |chain| > 0 then Some(chain[|chain| - 1]) else None
  }

  /** Appending a handler makes it the last one. */
  lemma LastAppend<H>(chain: seq<H>, h: H)
    ensures Last(chain + [h]) == Some(h)
  {
  }

  /** The settings `SetConfig` and the request path read. */
  datatype ServerConfig = ServerConfig(network: string, addr: string, timeout: int)

  /** What `parseDSN` does: nil for "", the bound config, or a panic on a bad DSN. */
  datatype DsnOutcome = NilConfig | Parsed(conf: ServerConfig) | PanicsInvalidDsn(msg: string)

  /** `parseDSN`: `parsed` is what `dsn.Parse` followed by `Bind` produce. */
  function ParseDsn(raw: string, parsed: Result<ServerConfig, string>): (r: DsnOutcome)
    ensures raw == "" <==> r.NilConfig?
    ensures raw != "" && parsed.Ok? ==> r == Parsed(parsed.value)
    ensures raw != "" && parsed.Err? ==> r.PanicsInvalidDsn?
  {
    if raw == "" then NilConfig
    else match parsed
      case Ok(c) => Parsed(c)
      case Err(e) => PanicsInvalidDsn("vin: invalid dsn: " + raw)
  }

  /**
    `SetConfig`: a non-positive timeout is refused and the engine keeps its
    config; otherwise an empty network becomes "tcp" and the config is installed.
   */
  function SetConfig(current: ServerConfig, conf: ServerConfig): (r: (ServerConfig, Option<string>))
    ensures conf.timeout <= 0 <==> r.1.Some?
    ensures r.1.Some? ==> r.0 == current
    ensures r.1.None? ==> r.0.addr == conf.addr && r.0.timeout == conf.timeout
    ensures r.1.None? ==> r.0.network == (if conf.network == "" then "tcp" else conf.network)
    ensures r.0.timeout > 0 || r.0 == current
  {
    if conf.timeout <= 0 then (current, Some("vin: config timeout must greater than 0"))
    else (conf.(network := if conf.network == "" then "tcp" else conf.network), None)
  }

  /** An installed config always has a network and a positive timeout. */
  lemma SetConfigInstalls(current: ServerConfig, conf: ServerConfig)
    requires SetConfig(current, conf).1.None?
    ensures SetConfig(current, conf).0.network != "" && SetConfig(current, conf).0.timeout > 0
  {
  }

  /** `engine.metastore`: per path, named attributes of the route. */
  type Metastore = map<string, map<string, string>>

  /** What `addRoute` touches: the metastore, and the (method, path) pairs the route trees hold. */
  datatype Routes = Routes(metastore: Metastore, registered: set<(string, string)>)

  /**
    `addRoute`: the path must begin with '/', the method must be non-empty and
    there must be a handler; the method is recorded under the path and the
    route goes into the method's tree, which refuses a path it already holds
    for that method. Each refusal is a panic, here `Err`.
   */
  function AddRoute(e: Routes, verb: string, path: string, handlers: nat): (r: Result<Routes, string>)
    ensures r.Ok? <==> |path| > 0 && path[0] == '/' && verb != "" && handlers > 0 && (verb, path) !in e.registered
    ensures r.Ok? ==> r.value.registered == e.registered + {(verb, path)}
    ensures r.Ok? ==>
      path in r.value.metastore && "method" in r.value.metastore[path] && r.value.metastore[path]["method"] == verb
    ensures r.Ok? ==> forall p :: p != path ==>
      (p in r.value.metastore <==> p in e.metastore) && (p in e.metastore ==> r.value.metastore[p] == e.metastore[p])
    ensures r.Ok? && path in e.metastore ==> forall a :: a != "method" && a in e.metastore[path] ==>
      a in r.value.metastore[path] && r.value.metastore[path][a] == e.metastore[path][a]
  {
    if |path| == 0 then Err("index out of range")
    else if path[0] != '/' then Err("path must begin with '/'")
    else if verb == "" then Err("HTTP method can not be empty")
    else if handlers == 0 then Err("there must be at least one handler")
    else if (verb, path) in e.registered then Err("handlers are already registered for path")
    else
      var attrs := if path in e.metastore then e.metastore[path] else map[];
      Ok(Routes(e.metastore[path := attrs["method" := verb]], e.registered + {(verb, path)}))
  }

  /** Registering a path again under another method records the later method in the metastore. */
  lemma AddRouteLaterWins(e: Routes, v1: string, v2: string, path: string)
    requires AddRoute(e, v1, path, 1).Ok?
    requires v2 != "" && v2 != v1 && (v2, path) !in e.registered
    ensures AddRoute(AddRoute(e, v1, path, 1).value, v2, path, 1).Ok?
    ensures AddRoute(AddRoute(e, v1, path, 1).value, v2, path, 1).value.metastore
      == AddRoute(e, v2, path, 1).value.metastore
  {
    var attrs := if path in e.metastore then e.metastore[path] else map[];
    var a1 := attrs["method" := v1];
    var once := e.metastore[path := a1];
    assert AddRoute(e, v1, path, 1).value.metastore == once;
    assert a1["method" := v2] == attrs["method" := v2];
    assert once[path := a1["method" := v2]] == e.metastore[path := attrs["method" := v2]];
  }

  /** Registering the same method and path twice panics the second time. */
  lemma AddRouteTwiceRefused(e: Routes, verb: string, path: string, h1: nat, h2: nat)
    requires AddRoute(e, verb, path, h1).Ok?
    ensures AddRoute(AddRoute(e, verb, path, h1).value, verb, path, h2).Err?
  {
  }

  /**
    The request timeout chosen in `ServeHTTP`: the server's, replaced by the
    one propagated in the headers when that is positive and smaller.
   */
  function EffectiveTimeout(serverTimeout: int, headerTimeout: int): (tm: int)
    ensures tm <= serverTimeout
    ensures headerTimeout > 0 ==> tm <= headerTimeout
    ensures tm == serverTimeout || tm == headerTimeout
    ensures headerTimeout <= 0 ==> tm == serverTimeout
  {
    if headerTimeout > 0 && serverTimeout > headerTimeout then headerTimeout else serverTimeout
  }

  /** The request context: a deadline when the timeout is positive, merely cancellable otherwise. */
  function RequestDeadline(now: int, tm: int): (d: Option<int>)
    ensures d.Some? <==> tm > 0
    ensures d.Some? ==> d.value > now
  {
    if tm > 0 then Some(now + tm) else None
  }

  /**
    Across one hop: a caller that propagated d (more than 20 ms) bounds the
    callee's deadline by d less 20 ms, and never extends the server's own.
   */
  lemma PropagatedTimeoutBounds(h: Metadata.Headers, d: int64, serverTimeout: int)
    requires Metadata.HOP_MS * GoInt.MILLISECOND < d && d % GoInt.MILLISECOND == 0
    requires serverTimeout > 0
    ensures var tm := EffectiveTimeout(serverTimeout, Metadata.Timeout(Metadata.SetTimeout(h, d)));
      tm == (if serverTimeout > d - 20 * GoInt.MILLISECOND then d - 20 * GoInt.MILLISECOND else serverTimeout) &&
      tm > 0
  {
    assert Quo(d, GoInt.MILLISECOND) > Metadata.HOP_MS;
    Metadata.TimeoutSetTimeout(h, d);
  }

  /** `redirectRequest`: 301 for GET, 307 for any other method. */
  function RedirectCode(verb: string): (code: int)
    ensures verb == "GET" <==> code == 301
    ensures code == 301 || code == 307
  {
    if verb != "GET" then 307 else 301
  }

  predicate EndsWithSlash(p: string) {
    |p| > 1 && p[|p| - 1] == '/'
  }

  /**
    `redirectTrailingSlash`: the path, after the cleaned X-Forwarded-Prefix
    and a '/' unless that prefix is ".", with one trailing slash removed if
    it has one (and is longer than one character), added otherwise.
   */
  function RedirectTrailingSlash(path: string, cleanedPrefix: string): (r: string)
    ensures var p := if cleanedPrefix != "." then cleanedPrefix + "/" + path else path;
      (EndsWithSlash(p) ==> r + "/" == p) && (!EndsWithSlash(p) ==> r == p + "/")
  {
    var p := if cleanedPrefix != "." then cleanedPrefix + "/" + path else path;
    if EndsWithSlash(p) then p[..|p| - 1] else p + "/"
  }

  /** Without a prefix the redirect toggles the trailing slash: twice is the identity unless the path ends in "//". */
  lemma TrailingSlashToggles(path: string)
    requires path != "" && !(|path| >= 2 && path[|path| - 2..] == "//")
    ensures RedirectTrailingSlash(RedirectTrailingSlash(path, "."), ".") == path
  {
    var once := RedirectTrailingSlash(path, ".");
    if EndsWithSlash(path) {
      assert once == path[..|path| - 1];
      assert !EndsWithSlash(once) by {
        if |once| > 1 {
          assert once[|once| - 1] == path[|path| - 2];
          assert path[|path| - 2..] == [path[|path| - 2], '/'];
        }
      }
      assert once + "/" == path;
    } else {
      assert once == path + "/";
      assert EndsWithSlash(once);
      assert once[..|once| - 1] == path;
    }
  }

  lemma TrailingSlashExamples()
    ensures RedirectTrailingSlash("/a", ".") == "/a/"
    ensures RedirectTrailingSlash("/a/", ".") == "/a"
    ensures RedirectTrailingSlash("/", ".") == "//"
    ensures RedirectTrailingSlash("/a", "/api") == "/api//a/"
  {
    assert !EndsWithSlash("/a");
    assert EndsWithSlash("/a/");
    assert !EndsWithSlash("/");
    assert "/api" + "/" + "/a" == "/api//a";
    assert !EndsWithSlash("/api//a");
  }
}

=== FILE: sqalx.dfy ===
/**
  The MySQL node of pkg/database/sqalx/sqalx.go: a write database, a list of
  read replicas, an optional transaction with a nesting flag, and the
  `Driver` that falls-back reads use. Queries are not executed; the model
  records which database a call reaches, with each database's answer an input.
 */
module Sqalx {
  import opened Results
  import opened GoInt
  import Strs

  /** A context as far as `UseMaster` can see it: the bool stored under the master key, if any. */
  datatype Context = Context(master: Option<bool>)

  const BACKGROUND: Context := Context(None)

  /** `NewContext`: derives a context carrying the master flag. */
  function NewContext(c: Context, useMaster: bool): (r: Context)
    ensures r.master == Some(useMaster)
  {
    c.(master := Some(useMaster))
  }

  /** `UseMaster`: the stored flag, or false when none was stored. */
  function UseMaster(c: Context): (b: bool)
    ensures b <==> c.master == Some(true)
  {
    match c.master
    case None => false
    case Some(m) => m
  }

  lemma UseMasterNewContext(c: Context, useMaster: bool)
    ensures UseMaster(NewContext(c, useMaster)) == useMaster
    ensures !UseMaster(BACKGROUND)
  {
  }

  /** What `Driver` points at: the write database, an open transaction, or nil after Commit/Rollback. */
  datatype DriverRef = DriverWrite | DriverTx(tx: nat) | DriverNil

  /**
    The fields of `node` that decide routing: the number of replicas, the
    read counter, the transaction (identified by a number), the nesting
    flag, and the driver.
   */
  datatype Node = Node(replicas: nat, idx: int64, tx: Option<nat>, nested: bool, driver: DriverRef)

  /** `NewMySQL`'s node: no transaction, the driver is the write database. */
  function NewNode(replicas: nat): Node {
    Node(replicas, 0, None, false, DriverWrite)
  }

  datatype DbError = ErrNotInTransaction | DriverError(msg: string)

  /**
    `Beginx` (value receiver): without a transaction a real one is begun on
    the write database and becomes the driver; inside one, the copy is only
    marked nested and shares the transaction.
   */
  function Beginx(n: Node, begun: Result<nat, string>): (r: Result<Node, DbError>)
    ensures n.tx.None? && begun.Err? ==> r == Err(DriverError(begun.error))
    ensures n.tx.None? && begun.Ok? ==>
      r == Ok(n.(tx := Some(begun.value), driver := DriverTx(begun.value)))
    ensures n.tx.Some? ==> r == Ok(n.(nested := true))
    ensures r.Ok? ==> r.value.tx.Some? && r.value.replicas == n.replicas && r.value.idx == n.idx
    ensures r.Ok? && n.tx.Some? ==> r.value.tx == n.tx && r.value.nested
  {
    if n.tx.None? then
      match begun
      case Err(e) => Err(DriverError(e))
      case Ok(t) => Ok(n.(tx := Some(t), driver := DriverTx(t)))
    else Ok(n.(nested := true))
  }

  /**
    `Commit`: no transaction is ErrNotInTransaction; a nested node skips the
    real commit; on success the transaction and the driver are cleared.
    `realErr` is what committing the real transaction returns.
   */
  function Commit(n: Node, realErr: Option<string>): (r: (Node, Option<DbError>))
    ensures n.tx.None? ==> r == (n, Some(ErrNotInTransaction))
    ensures n.tx.Some? && !n.nested && realErr.Some? ==> r == (n, Some(DriverError(realErr.value)))
    ensures n.tx.Some? && (n.nested || realErr.None?) ==> r == (n.(tx := None, driver := DriverNil), None)
  {
    if n.tx.None? then (n, Some(ErrNotInTransaction))
    else if !n.nested && realErr.Some? then (n, Some(DriverError(realErr.value)))
    else (n.(tx := None, driver := DriverNil), None)
  }

  /** `Rollback`: like Commit, except that no transaction is not an error. */
  function Rollback(n: Node, realErr: Option<string>): (r: (Node, Option<DbError>))
    ensures n.tx.None? ==> r == (n, None)
    ensures n.tx.Some? && !n.nested && realErr.Some? ==> r == (n, Some(DriverError(realErr.value)))
    ensures n.tx.Some? && (n.nested || realErr.None?) ==> r == (n.(tx := None, driver := DriverNil), None)
  {
    if n.tx.None? then (n, None)
    else if !n.nested && realErr.Some? then (n, Some(DriverError(realErr.value)))
    else (n.(tx := None, driver := DriverNil), None)
  }

  /** A nested node commits and rolls back without touching the shared transaction, whatever it would answer. */
  lemma NestedNeverTouchesRealTx(n: Node, begun: Result<nat, string>, e1: Option<string>, e2: Option<string>)
    requires n.tx.Some?
    ensures var m := Beginx(n, begun).value;
      Commit(m, e1) == Commit(m, e2) && Rollback(m, e1) == Rollback(m, e2) && Commit(m, e1).1.None?
  {
  }

  /** Begin, then commit, leaves a node with neither transaction nor driver. */
  lemma BeginCommitClears(n: Node, t: nat)
    requires n.tx.None?
    ensures Commit(Beginx(n, Ok(t)).value, None) == (n.(tx := None, driver := DriverNil), None)
  {
  }

  /**
    `readIndex`: 0 without replicas (the counter is left alone); otherwise the
    counter is incremented with int64 wrap-around and the new value is
    reduced modulo the replica count with Go's truncating `%`.
   */
  function ReadIndex(n: Node): (r: (int, Node))
    ensures n.replicas == 0 ==> r == (0, n)
    ensures n.replicas > 0 ==> r.1 == n.(idx := Wrap64(n.idx + 1))
    ensures n.replicas > 0 && r.1.idx >= 0 ==> 0 <= r.0 < n.replicas && r.0 == r.1.idx % n.replicas
    ensures n.replicas > 0 ==> -(n.replicas as int) < r.0 < n.replicas
  {
    if n.replicas == 0 then (0, n)
    else
      var v := Wrap64(n.idx + 1);
      (Rem(v, n.replicas), n.(idx := v))
  }

  /** Successive reads start one replica further on, wrapping around (while the counter does not overflow). */
  lemma ReadIndexAdvances(n: Node)
    requires n.replicas > 0 && 0 <= n.idx && n.idx + 2 <= MAX_INT64
    ensures ReadIndex(ReadIndex(n).1).0 == (ReadIndex(n).0 + 1) % n.replicas
  {
    ModSucc(n.idx + 1, n.replicas);
  }

  lemma ModSucc(v: nat, m: nat)
    requires m > 0
    ensures (v + 1) % m == (v % m + 1) % m
  {
    var q, r := v / m, v % m;
    assert v == q * m + r;
    if r + 1 < m {
      ModUnique(v + 1, m, q, r + 1);
      ModUnique(r + 1, m, 0, r + 1);
    } else {
      assert v + 1 == (q + 1) * m;
      ModUnique(v + 1, m, q + 1, 0);
      ModUnique(m, m, 1, 0);
    }
  }

  lemma ModUnique(a: nat, m: nat, q: int, r: int)
    requires m > 0 && 0 <= r < m && a == q * m + r
    ensures a % m == r
  {
    var q', r' := a / m, a % m;
    assert (q - q') * m == r' - r;
    MulMagnitude(q - q', m);
  }

  /** A non-zero multiple of m is at least m away from zero. */
  lemma MulMagnitude(d: int, m: nat)
    ensures d == 0 || d * m >= m || d * m <= -(m as int)
  {
    if d >= 1 {
      MulAtLeast(d, m);
    } else if d <= -1 {
      MulAtLeast(-d, m);
      assert d * m == -((-d) * m);
    }
  }

  lemma {:induction false} MulAtLeast(d: int, m: nat)
    requires d >= 1
    ensures d * m >= m
    decreases d
  {
    if d > 1 {
      MulAtLeast(d - 1, m);
      assert d * m == (d - 1) * m + m;
    }
  }

  /** The replica tried k-th when starting at `start`: `(start + k) % len` for start, k below len. */
  function Rotate(start: nat, k: nat, len: nat): (r: nat)
    requires start < len && k < len
    ensures r < len
    ensures r == (start + k) % len
  {
    if start + k < len then start + k else start + k - len
  }

  /** Starting anywhere, the rotation visits every replica exactly once. */
  lemma RotateBijective(start: nat, len: nat)
    requires start < len
    ensures forall k1: nat, k2: nat | k1 < len && k2 < len && k1 != k2 :: Rotate(start, k1, len) != Rotate(start, k2, len)
    ensures forall r: nat | r < len :: Rotate(start, Back(start, r, len), len) == r
  {
  }

  /** The step at which the rotation from `start` reaches replica r. */
  function Back(start: nat, r: nat, len: nat): (k: nat)
    requires start < len && r < len
    ensures k < len
  {
    if r >= start then r - start else r + len - start
  }

  /** How a replica answered: unavailable (`ecode.ServiceUnavailable`) or anything else. */
  datatype Answer = Unavailable | Answered(err: Option<string>)

  /** The first k at or after `from` whose replica did not answer unavailable. */
  function Probe(answers: seq<Answer>, start: nat, from: nat): (r: Option<nat>)
    requires start < |answers| && from <= |answers|
    ensures r.Some? ==> from <= r.value < |answers| && !answers[Rotate(start, r.value, |answers|)].Unavailable?
    ensures r.Some? ==> forall k | from <= k < r.value :: answers[Rotate(start, k, |answers|)].Unavailable?
    ensures r.None? ==> forall k | from <= k < |answers| :: answers[Rotate(start, k, |answers|)].Unavailable?
    decreases |answers| - from
  {
    if from == |answers| then None
    else if !answers[Rotate(start, from, |answers|)].Unavailable? then Some(from)
    else Probe(answers, start, from + 1)
  }

  /** Where a call went. */
  datatype Target = WriteDb | ReplicaDb(index: nat) | TxDb(tx: nat) | NilDriver

  /** Which read operation: Select and Get fall back to the driver, Queryx to the write database. */
  datatype ReadKind = Select | Get | Queryx

  /** The replicas tried and where the call was answered. */
  datatype Routing = Routing(tried: seq<nat>, target: Target)

  /** The node afterwards (its read counter advanced) together with the routing. */
  datatype ReadOutcome = ReadOutcome(tried: seq<nat>, target: Target, node: Node)

  function DriverTarget(d: DriverRef): Target {
    match d
    case DriverWrite => WriteDb
    case DriverTx(t) => TxDb(t)
    case DriverNil => NilDriver
  }

  /** The first `count` replicas the rotation from `start` visits. */
  function Rotations(start: nat, count: nat, len: nat): (r: seq<nat>)
    requires start < len && count <= len
    ensures |r| == count
    ensures forall i | 0 <= i < count :: r[i] == Rotate(start, i, len)
  {
    if count == 0 then [] else Rotations(start, count - 1, len) + [Rotate(start, count - 1, len)]
  }

  /** Distinct replica numbers, each below `len`. */
  predicate DistinctBelow(tried: seq<nat>, len: nat) {
    (forall a, b | 0 <= a < b < |tried| :: tried[a] != tried[b]) &&
    (forall k | 0 <= k < |tried| :: tried[k] < len)
  }

  /**
    The rotation over the replicas starting at `start`: stops at the first
    replica whose answer is not unavailable, else falls back after trying all.
   */
  function Rotation(answers: seq<Answer>, start: nat, fallback: Target): (r: Routing)
    requires start < |answers|
    requires !fallback.ReplicaDb?
    ensures 1 <= |r.tried| <= |answers| && r.tried[0] == start && DistinctBelow(r.tried, |answers|)
    ensures r.target.ReplicaDb? ==>
      |r.tried| > 0 && r.target.index == r.tried[|r.tried| - 1] && !answers[r.target.index].Unavailable?
    ensures r.target.ReplicaDb? ==> forall k | 0 <= k < |r.tried| - 1 :: answers[r.tried[k]].Unavailable?
    ensures !r.target.ReplicaDb? ==>
      r.target == fallback && |r.tried| == |answers| && forall i | 0 <= i < |answers| :: answers[i].Unavailable?
  {
    var len := |answers|;
    RotateBijective(start, len);
    match Probe(answers, start, 0)
    case Some(k) =>
      var tried := Rotations(start, k + 1, len);
      Routing(tried, ReplicaDb(Rotate(start, k, len)))
    case None =>
      var tried := Rotations(start, len, len);
      assert forall i | 0 <= i < len :: answers[i].Unavailable? by {
        forall i | 0 <= i < len ensures answers[i].Unavailable? {
          assert Rotate(start, Back(start, i, len), len) == i;
        }
      }
      Routing(tried, fallback)
  }

  /**
    `SelectContext` / `GetContext` / `QueryxContext`: outside a transaction
    the master flag sends the read to the write database; otherwise, outside
    a transaction, the replicas are tried in rotation from `readIndex` until
    one answers other than unavailable; failing that (or inside a
    transaction) the fallback serves it. `answers[i]` is replica i's answer.
   */
  function Read(n: Node, kind: ReadKind, ctx: Context, answers: seq<Answer>): (r: ReadOutcome)
    requires |answers| == n.replicas
    requires n.replicas > 0 ==> 0 <= n.idx < MAX_INT64
    ensures n.tx.None? && UseMaster(ctx) ==> r == ReadOutcome([], WriteDb, n)
    ensures n.tx.Some? ==> r.tried == [] && r.node == n && r.target == (if kind == Queryx then WriteDb else DriverTarget(n.driver))
    ensures n.tx.None? && !UseMaster(ctx) ==> r.node == ReadIndex(n).1
    ensures n.tx.None? && !UseMaster(ctx) && n.replicas > 0 ==> |r.tried| >= 1 && r.tried[0] == ReadIndex(n).0
    ensures |r.tried| <= n.replicas && DistinctBelow(r.tried, n.replicas)
    ensures r.target.ReplicaDb? ==>
      |r.tried| > 0 && r.target.index == r.tried[|r.tried| - 1] && !answers[r.target.index].Unavailable?
    ensures r.target.ReplicaDb? ==> forall k | 0 <= k < |r.tried| - 1 :: answers[r.tried[k]].Unavailable?
    ensures n.tx.None? && !UseMaster(ctx) && !r.target.ReplicaDb? ==>
      |r.tried| == n.replicas && forall i | 0 <= i < n.replicas :: answers[i].Unavailable?
    ensures !r.target.ReplicaDb? && !(n.tx.None? && UseMaster(ctx)) ==>
      r.target == (if kind == Queryx then WriteDb else DriverTarget(n.driver))
  {
    var fallback := if kind == Queryx then WriteDb else DriverTarget(n.driver);
    if n.tx.None? && UseMaster(ctx) then ReadOutcome([], WriteDb, n)
    else if n.tx.Some? then ReadOutcome([], fallback, n)
    else
      var (start, n') := ReadIndex(n);
      if n.replicas == 0 then ReadOutcome([], fallback, n')
      else
        var routing := Rotation(answers, start, fallback);
        ReadOutcome(routing.tried, routing.target, n')
  }

  /** After Commit or Rollback clears the driver, a Select or Get that finds no available replica reaches a nil driver. */
  lemma ClearedNodeReadsHitNil(n: Node, kind: ReadKind, ctx: Context, answers: seq<Answer>)
    requires n.tx.Some? && !n.nested
    requires |answers| == n.replicas && (n.replicas > 0 ==> 0 <= n.idx < MAX_INT64)
    requires kind != Queryx && !UseMaster(ctx)
    requires forall i | 0 <= i < |answers| :: answers[i].Unavailable?
    ensures Read(Commit(n, None).0, kind, ctx, answers).target == NilDriver
  {
  }

  /** `ExecContext`: the transaction when there is one, otherwise the write database; never a replica. */
  function ExecTarget(n: Node, ctx: Context): (t: Target)
    ensures !t.ReplicaDb? && !t.NilDriver?
    ensures n.tx.Some? <==> t.TxDb?
    ensures n.tx.Some? ==> t == TxDb(n.tx.value)
  {
    if n.tx.None? && UseMaster(ctx) then WriteDb
    else if n.tx.Some? then TxDb(n.tx.value)
    else WriteDb
  }

  /** `GetContextByMaster`: the write database outside a transaction, else the driver. */
  function GetByMasterTarget(n: Node): (t: Target)
    ensures n.tx.None? ==> t == WriteDb
    ensures !t.ReplicaDb?
  {
    if n.tx.None? then WriteDb else DriverTarget(n.driver)
  }

  /** MySQL's deadlock error number (`def.MysqlErrorCode.DeadLock`). */
  const DEADLOCK: int := 1213
  const MAX_EXEC_TRIES: int := 3

  /** How one execution ended. */
  datatype ExecResult = ExecOk | MySqlError(number: int) | OtherError(msg: string)

  predicate IsDeadlock(e: ExecResult) { e == MySqlError(DEADLOCK) }

  /**
    `ExecContextWithRetry`: up to three executions on the `ExecContext`
    target, retrying only after a deadlock. `results[k]` is what try k+1
    would return. The answer is the last try's result and the number of tries.
   */
  method ExecContextWithRetry(n: Node, ctx: Context, results: seq<ExecResult>) returns (last: ExecResult, tries: nat, target: Target)
    requires |results| >= MAX_EXEC_TRIES
    ensures 1 <= tries <= MAX_EXEC_TRIES
    ensures last == results[tries - 1]
    ensures forall k | 0 <= k < tries - 1 :: IsDeadlock(results[k])
    ensures tries < MAX_EXEC_TRIES ==> !IsDeadlock(last)
    ensures !IsDeadlock(results[0]) ==> tries == 1
    ensures target == ExecTarget(n, ctx)
  {
    target := ExecTarget(n, ctx);
    tries := 0;
    last := results[0];
    var done := false;
    while tries < MAX_EXEC_TRIES && !done
      invariant 0 <= tries <= MAX_EXEC_TRIES
      invariant tries == 0 ==> !done
      invariant tries > 0 ==> last == results[tries - 1]
      invariant forall k | 0 <= k < tries - 1 :: IsDeadlock(results[k])
      invariant tries > 0 && !done ==> IsDeadlock(last)
      invariant done ==> !IsDeadlock(last)
      decreases MAX_EXEC_TRIES - tries
    {
      last := results[tries];
      tries := tries + 1;
      if !IsDeadlock(last) {
        done := true;
      }
    }
  }

  /**
    `parseDSNAddr`: "" for an empty DSN or one without "@@"; otherwise the
    second "@@"-separated piece up to its first "?".
   */
  function ParseDsnAddr(dsn: string): (addr: string)
  {
    if dsn == "" then ""
    else
      var part0 := Strs.Split(dsn, "@@");
      if |part0| > 1 then Strs.Split(part0[1], "?")[0] else ""
  }

  /** The same address read off directly: after the first "@@", up to the next "@@" or the first "?". */
  function DsnAddrSpec(dsn: string): string {
    match Strs.Find(dsn, "@@")
    case None => ""
    case Some(i) =>
      var rest := dsn[i + 2..];
      var seg := match Strs.Find(rest, "@@") case None => rest case Some(j) => rest[..j];
      match Strs.Find(seg, "?") case None => seg case Some(q) => seg[..q]
  }

  /** The code and the direct reading agree on every DSN; without "@@" the address is empty. */
  lemma ParseDsnAddrMatches(dsn: string)
    ensures ParseDsnAddr(dsn) == DsnAddrSpec(dsn)
    ensures Strs.Free(dsn, "@@") ==> ParseDsnAddr(dsn) == ""
  {
    Strs.SplitSingle(dsn, "@@");
    if dsn != "" && Strs.Find(dsn, "@@").Some? {
      var i := Strs.Find(dsn, "@@").value;
      var rest := dsn[i + 2..];
      Strs.SplitSecond(dsn, "@@");
      Strs.SplitFirst(rest, "@@");
      var seg := Strs.Split(rest, "@@")[0];
      assert seg == match Strs.Find(rest, "@@") case None => rest case Some(j) => rest[..j];
      Strs.SplitFirst(seg, "?");
    }
  }

  /** The address never contains "?" or "@@". */
  lemma ParseDsnAddrClean(dsn: string)
    ensures Strs.Free(ParseDsnAddr(dsn), "?") && Strs.Free(ParseDsnAddr(dsn), "@@")
  {
    var part0 := Strs.Split(dsn, "@@");
    if dsn != "" && |part0| > 1 {
      Strs.PiecesFree(dsn, "@@");
      var seg := part0[1];
      assert Strs.Free(seg, "@@");
      Strs.PiecesFree(seg, "?");
      Strs.SplitFirst(seg, "?");
      var addr := Strs.Split(seg, "?")[0];
      assert addr <= seg;
      FreePrefix(seg, addr, "@@");
    }
  }

  lemma FreePrefix(s: string, p: string, sep: string)
    requires p <= s && Strs.Free(s, sep)
    ensures Strs.Free(p, sep)
  {
    forall j: nat | j <= |p|
      ensures Strs.OccursAt(p, sep, j) ==> Strs.OccursAt(s, sep, j)
    {
    }
  }
}

=== FILE: strconv.dfy ===
/**
  Go's decimal integer formatting (`fmt`'s `%d`, `strconv.FormatInt`) and
  parsing (`strconv.ParseInt(s, 10, 64)`), and `strconv.ParseBool`.
 */
module Strconv {
  import opened GoInt
  import opened Results

  predicate IsDigit(c: char) {
    '0' <= c <= '9'
  }

  predicate AllDigits(s: string) {
    forall i :: 0 <= i < |s| ==> IsDigit(s[i])
  }

  function DigitChar(d: nat): (c: char)
    requires d < 10
    ensures IsDigit(c)
  {
    (48 + d) as char
  }

  function DigitValue(c: char): (d: nat)
    requires IsDigit(c)
    ensures d < 10 && DigitChar(d) == c
  {
    c as int - 48
  }

  /** The shortest decimal rendering of a natural number. */
  function NatToDecimal(n: nat): (s: string)
    ensures |s| >= 1 && AllDigits(s)
    ensures (|s| == 1) == (n < 10)
    decreases n
  {
    if n < 10 then [DigitChar(n)] else NatToDecimal(n / 10) + [DigitChar(n % 10)]
  }

  /** Go's `%d` / `strconv.FormatInt(i, 10)`: a minus sign, then the magnitude. */
  function FormatInt(i: int): (s: string)
    ensures |s| >= 1
    ensures (s[0] == '-') == (i < 0)
    ensures i >= 0 ==> AllDigits(s)
  {
    if i < 0 then "-" + NatToDecimal(-i) else NatToDecimal(i)
  }

  /** The value of a string of decimal digits, read most significant first. */
  function DigitsValue(s: string): nat
    requires AllDigits(s)
  {
    if |s| == 0 then 0 else DigitsValue(s[..|s| - 1]) * 10 + DigitValue(s[|s| - 1])
  }

  lemma {:induction false} DecimalValue(n: nat)
    ensures DigitsValue(NatToDecimal(n)) == n
    decreases n
  {
    if n >= 10 {
      var s := NatToDecimal(n);
      assert s[..|s| - 1] == NatToDecimal(n / 10);
      DecimalValue(n / 10);
    }
  }

  /** Distinct numbers have distinct renderings. */
  lemma NatToDecimalInjective(a: nat, b: nat)
    ensures NatToDecimal(a) == NatToDecimal(b) ==> a == b
  {
    if NatToDecimal(a) == NatToDecimal(b) {
      DecimalValue(a);
      DecimalValue(b);
    }
  }

  lemma FormatIntInjective(a: int, b: int)
    ensures FormatInt(a) == FormatInt(b) ==> a == b
  {
    if FormatInt(a) == FormatInt(b) && a < 0 && b < 0 {
      assert NatToDecimal(-a) == FormatInt(a)[1..];
      assert NatToDecimal(-b) == FormatInt(b)[1..];
      NatToDecimalInjective(-a, -b);
    } else if FormatInt(a) == FormatInt(b) && a >= 0 && b >= 0 {
      NatToDecimalInjective(a, b);
    }
  }

  /** Only zero renders with a leading '0'. */
  lemma {:induction false} LeadingZero(n: nat)
    ensures NatToDecimal(n)[0] == '0' <==> n == 0
    decreases n
  {
    if n >= 10 {
      LeadingZero(n / 10);
      assert NatToDecimal(n)[0] == NatToDecimal(n / 10)[0];
    }
  }

  /**
    `FormatInt` writes the canonical form: no '+', no leading zero except in
    "0" itself, and a '-' is followed by a non-zero digit.
   */
  lemma FormatIntCanonical(i: int)
    ensures var s := FormatInt(i);
      && s[0] != '+'
      && (s[0] == '0' ==> s == "0")
      && (s[0] == '-' ==> |s| >= 2 && '1' <= s[1] <= '9')
  {
    if i < 0 {
      LeadingZero(-i);
      assert FormatInt(i)[1] == NatToDecimal(-i)[0];
    } else {
      LeadingZero(i);
    }
  }

  /** The two ways `strconv.ParseInt` fails. */
  datatype NumError = ErrSyntax | ErrRange

  /** `strconv.ParseInt` returns a value together with an optional error. */
  datatype ParsedInt = ParsedInt(value: int, err: Option<NumError>)


  /** The digits after an optional sign, in the shape `ParseUint` accepts for base 10. */
  function Magnitude(s: string): string {
    if |s| > 0 && (s[0] == '+' || s[0] == '-') then s[1..] else s
  }

  /** The length of the leading run of decimal digits. */
  function DigitRun(s: string): (n: nat)
    ensures n <= |s| && AllDigits(s[..n])
    ensures n < |s| ==> !IsDigit(s[n])
  {
    if |s| == 0 || !IsDigit(s[0]) then 0
    else
      var m := DigitRun(s[1..]);
      assert s[..m + 1] == [s[0]] + s[1..][..m];
      m + 1
  }

  lemma DigitRunAll(s: string)
    requires AllDigits(s)
    ensures DigitRun(s) == |s| && s[..DigitRun(s)] == s
  {
  }

  /** Whether `ParseUint` overflows uint64 before it reaches the first non-digit of its input. */
  predicate OverflowsFirst(digits: string) {
    DigitsValue(digits[..DigitRun(digits)]) >= TWO_64
  }

  /**
    `strconv.ParseInt(s, 10, 64)`: an optional sign, then one or more digits.
    `ParseUint` reads the digits left to right and stops at the first one
    that makes the value exceed uint64, with a range error, or at the first
    non-digit, with a syntax error, whichever comes first. A syntax error
    yields 0; any value outside int64 yields the bound on the sign's side
    together with a range error.
   */
  function ParseInt(s: string): (r: ParsedInt)
    ensures IsInt64(r.value)
    ensures r.err == Some(ErrSyntax) <==>
      Magnitude(s) == "" || (!AllDigits(Magnitude(s)) && !OverflowsFirst(Magnitude(s)))
    ensures r.err == Some(ErrSyntax) ==> r.value == 0
    ensures r.err == Some(ErrRange) ==> r.value == (if |s| > 0 && s[0] == '-' then MIN_INT64 else MAX_INT64)
    ensures Magnitude(s) != "" && OverflowsFirst(Magnitude(s)) ==> r.err == Some(ErrRange)
    ensures r.err.None? ==> AllDigits(Magnitude(s)) && Magnitude(s) != ""
    ensures r.err.None? ==> r.value == (if s[0] == '-' then -(DigitsValue(Magnitude(s)) as int) else DigitsValue(Magnitude(s)) as int)
  {
    var neg := |s| > 0 && s[0] == '-';
    var digits := Magnitude(s);
    if digits == "" then ParsedInt(0, Some(ErrSyntax))
    else if OverflowsFirst(digits) then ParsedInt(if neg then MIN_INT64 else MAX_INT64, Some(ErrRange))
    else if !AllDigits(digits) then ParsedInt(0, Some(ErrSyntax))
    else
      var v: int := DigitsValue(digits);
      if !neg && v >= TWO_63 then ParsedInt(MAX_INT64, Some(ErrRange))
      else if neg && v > TWO_63 then ParsedInt(MIN_INT64, Some(ErrRange))
      else ParsedInt(if neg then -v else v, None)
  }

  /** A digit run that overflows uint64 is a range error even when garbage follows it. */
  lemma OverflowBeforeGarbage(run: string, rest: string)
    requires |run| > 0 && AllDigits(run) && DigitsValue(run) >= TWO_64
    requires |rest| > 0 && !IsDigit(rest[0])
    ensures ParseInt(run + rest) == ParsedInt(MAX_INT64, Some(ErrRange))
    ensures ParseInt("-" + run + rest) == ParsedInt(MIN_INT64, Some(ErrRange))
  {
    var s := run + rest;
    assert DigitRun(s) == |run| by {
      DigitRunAll(run);
      assert s[..|run|] == run;
      DigitRunPrefix(s, |run|);
    }
    assert Magnitude(s) == s;
    assert s[..DigitRun(s)] == run;
    assert Magnitude("-" + run + rest) == s;
  }

  /** The digit run ends at the first non-digit. */
  lemma {:induction false} DigitRunPrefix(s: string, k: nat)
    requires k < |s| && AllDigits(s[..k]) && !IsDigit(s[k])
    ensures DigitRun(s) == k
    decreases k
  {
    if k > 0 {
      assert s[1..][..k - 1] == s[..k][1..];
      assert s[1..][k - 1] == s[k];
      DigitRunPrefix(s[1..], k - 1);
    }
  }

  /** Every int64 survives a format-then-parse round trip. */
  lemma ParseFormat(i: int)
    requires IsInt64(i)
    ensures ParseInt(FormatInt(i)) == ParsedInt(i, None)
  {
    var s := FormatInt(i);
    if i < 0 {
      assert Magnitude(s) == NatToDecimal(-i);
      DecimalValue(-i);
    } else {
      assert Magnitude(s) == NatToDecimal(i);
      DecimalValue(i);
    }
    DigitRunAll(Magnitude(s));
  }

  /** `strconv.ParseBool`: the six spellings of each truth value, anything else an error. */
  function ParseBool(s: string): Option<bool>
  {
    if s in {"1", "t", "T", "TRUE", "true", "True"} then Some(true)
    else if s in {"0", "f", "F", "FALSE", "false", "False"} then Some(false)
    else None
  }
}

=== FILE: strs.dfy ===
/**
  The handful of Go `strings` functions the modelled code relies on:
  `Index`, `IndexByte`, `Split` (with a non-empty separator) and `TrimSpace`.
 */
module Strs {
  import opened Results


  /** `sep` occurs in `s` starting at position `j`. */
  predicate OccursAt(s: string, sep: string, j: nat) {
    j + |sep| <= |s| && forall k | 0 <= k < |sep| :: s[j + k] == sep[k]
  }

  /** `sep` occurs nowhere in `s`. */
  predicate Free(s: string, sep: string) {
    forall j: nat | j <= |s| :: !OccursAt(s, sep, j)
  }

  /** The first occurrence of `sep` at or after `from`. */
  function FindFrom(s: string, sep: string, from: nat): (r: Option<nat>)
    requires |sep| > 0
    requires from <= |s|
    ensures r.Some? ==> from <= r.value && OccursAt(s, sep, r.value)
    ensures r.Some? ==> forall j: nat :: from <= j < r.value ==> !OccursAt(s, sep, j)
    ensures r.None? ==> forall j: nat :: from <= j ==> !OccursAt(s, sep, j)
    decreases |s| - from
  {
    if from + |sep| > |s| then None
    else if s[from..from + |sep|] == sep then Some(from)
    else FindFrom(s, sep, from + 1)
  }

  /** Go's `strings.Index`: the first occurrence of `sep`, or None for Go's -1. */
  function Find(s: string, sep: string): (r: Option<nat>)
    requires |sep| > 0
    ensures r.Some? ==> OccursAt(s, sep, r.value)
    ensures r.Some? ==> forall j: nat :: j < r.value ==> !OccursAt(s, sep, j)
    ensures r.None? <==> Free(s, sep)
  {
    FindFrom(s, sep, 0)
  }

  /**
    Go's `strings.Split` with a non-empty separator: the pieces between the
    non-overlapping occurrences of `sep`, scanned from the left.
   */
  function Split(s: string, sep: string): (parts: seq<string>)
    requires |sep| > 0
    ensures |parts| >= 1
    decreases |s|
  {
    match Find(s, sep)
    case None => [s]
    case Some(i) => [s[..i]] + Split(s[i + |sep|..], sep)
  }

  /** A split yields one piece exactly when the separator is absent, and no piece contains it. */
  lemma SplitPieces(s: string, sep: string)
    requires |sep| > 0
    ensures |Split(s, sep)| == 1 <==> Free(s, sep)
    ensures forall i :: 0 <= i < |Split(s, sep)| ==> Free(Split(s, sep)[i], sep)
  {
    SplitSingle(s, sep);
    PiecesFree(s, sep);
  }

  lemma SplitSingle(s: string, sep: string)
    requires |sep| > 0
    ensures |Split(s, sep)| == 1 <==> Free(s, sep)
  {
    var f := Find(s, sep);
    assert f.None? <==> Free(s, sep);
    match f
    case None =>
      assert Split(s, sep) == [s];
    case Some(i) =>
      assert |Split(s, sep)| == 1 + |Split(s[i + |sep|..], sep)|;
  }

  lemma {:induction false} PiecesFree(s: string, sep: string)
    requires |sep| > 0
    ensures forall i :: 0 <= i < |Split(s, sep)| ==> Free(Split(s, sep)[i], sep)
    decreases |s|
  {
    match Find(s, sep)
    case None =>
    case Some(i) =>
      var rest := s[i + |sep|..];
      var parts, tail := Split(s, sep), Split(rest, sep);
      assert parts == [s[..i]] + tail;
      PiecesFree(rest, sep);
      forall k | 0 <= k < |parts|
        ensures Free(parts[k], sep)
      {
        if k == 0 {
          PrefixBeforeFirstIsFree(s, sep, i);
        } else {
          assert parts[k] == tail[k - 1];
        }
      }
  }

  /** Go's `strings.Join`. */
  function Join(parts: seq<string>, sep: string): string
    requires |parts| >= 1
  {
    if |parts| == 1 then parts[0] else parts[0] + sep + Join(parts[1..], sep)
  }

  lemma PrefixBeforeFirstIsFree(s: string, sep: string, i: nat)
    requires |sep| > 0 && OccursAt(s, sep, i)
    requires forall j: nat :: j < i ==> !OccursAt(s, sep, j)
    ensures Free(s[..i], sep)
  {
    forall j: nat
      ensures !OccursAt(s[..i], sep, j)
    {
      if OccursAt(s[..i], sep, j) {
        assert s[..i][j..j + |sep|] == s[j..j + |sep|];
        assert OccursAt(s, sep, j) && j < i;
      }
    }
  }

  /** The first piece of a split is everything before the first separator. */
  lemma SplitFirst(s: string, sep: string)
    requires |sep| > 0
    ensures Find(s, sep).None? ==> Split(s, sep) == [s]
    ensures Find(s, sep).Some? ==> Split(s, sep)[0] == s[..Find(s, sep).value]
  {
  }

  /** The second piece of a split is the text between the first and the second separator. */
  lemma SplitSecond(s: string, sep: string)
    requires |sep| > 0
    requires Find(s, sep).Some?
    ensures var rest := s[Find(s, sep).value + |sep|..];
      |Split(s, sep)| >= 2 && Split(s, sep)[1] == Split(rest, sep)[0]
  {
  }

  /** Splitting and joining back on the same separator gives the original string. */
  lemma {:induction false} JoinSplit(s: string, sep: string)
    requires |sep| > 0
    ensures Join(Split(s, sep), sep) == s
    decreases |s|, 1
  {
    var f := Find(s, sep);
    if f.Some? {
      JoinSplitAt(s, sep, f.value);
    } else {
      assert Split(s, sep) == [s];
    }
  }

  lemma {:induction false} JoinSplitAt(s: string, sep: string, i: nat)
    requires |sep| > 0 && Find(s, sep) == Some(i)
    ensures Join(Split(s, sep), sep) == s
    decreases |s|, 0
  {
    var rest := s[i + |sep|..];
    var tail := Split(rest, sep);
    assert Split(s, sep) == [s[..i]] + tail;
    JoinSplit(rest, sep);
    JoinCons(s[..i], tail, sep);
    Reassemble(s, i, i + |sep|);
  }

  lemma Reassemble<T>(s: seq<T>, i: nat, j: nat)
    requires i <= j <= |s|
    ensures s == s[..i] + s[i..j] + s[j..]
  {
  }

  lemma JoinCons(head: string, tail: seq<string>, sep: string)
    requires |tail| >= 1
    ensures Join([head] + tail, sep) == head + sep + Join(tail, sep)
  {
    assert ([head] + tail)[1..] == tail;
  }

  /** Go's `unicode.IsSpace`. */
  predicate IsSpace(c: char) {
    c == '\t' || c == '\n' || c == '\U{000B}' || c == '\U{000C}' || c == '\r' || c == ' '
    || c == '\U{0085}' || c == '\U{00A0}' || c == '\U{1680}'
    || ('\U{2000}' <= c <= '\U{200A}')
    || c == '\U{2028}' || c == '\U{2029}' || c == '\U{202F}' || c == '\U{205F}' || c == '\U{3000}'
  }

  function TrimLeft(s: string): (r: string)
    ensures |r| <= |s| && r == s[|s| - |r|..]
    ensures |r| > 0 ==> !IsSpace(r[0])
    ensures forall i :: 0 <= i < |s| - |r| ==> IsSpace(s[i])
  {
    if |s| > 0 && IsSpace(s[0]) then TrimLeft(s[1..]) else s
  }

  function TrimRight(s: string): (r: string)
    ensures |r| <= |s| && r == s[..|r|]
    ensures |r| > 0 ==> !IsSpace(r[|r| - 1])
    ensures forall i :: |r| <= i < |s| ==> IsSpace(s[i])
  {
    if |s| > 0 && IsSpace(s[|s| - 1]) then TrimRight(s[..|s| - 1]) else s
  }

  /** Go's `strings.TrimSpace`: drops leading and trailing white space. */
  function TrimSpace(s: string): (r: string)
    ensures |r| > 0 ==> !IsSpace(r[0]) && !IsSpace(r[|r| - 1])
    ensures r == "" <==> forall i :: 0 <= i < |s| ==> IsSpace(s[i])
  {
    TrimRight(TrimLeft(s))
  }
}

=== FILE: supervisor.dfy ===
/**
  The maintenance-window gate of pkg/net/http/vin/middleware/supervisor:
  while switched on, every request other than GET that arrives strictly
  inside (Begin, End) is answered ServiceUpdate and the chain is aborted.
  Instants are integers (nanoseconds); the clock is an input.
 */
module Supervisor {
  import opened Results

  const METHOD_GET: string := "GET"
  /** `ecode.ServiceUpdate`. */
  const SERVICE_UPDATE: int := 112

  datatype Config = Config(on: bool, begin: int, end: int)

  /** The configuration (nil before any) and the derived switch. */
  datatype Supervisor = Supervisor(conf: Option<Config>, on: bool)

  /** The switch is only ever on together with the configuration that turned it on. */
  predicate Wf(s: Supervisor) {
    s.on ==> s.conf.Some? && s.conf.value.on && s.conf.value.begin < s.conf.value.end
  }

  /** `Reload`: a nil config is ignored; otherwise the gate is on iff On and Begin is strictly before End. */
  function Reload(s: Supervisor, c: Option<Config>): (r: Supervisor)
    ensures c.None? ==> r == s
    ensures c.Some? ==> r.conf == c && (r.on <==> c.value.on && c.value.begin < c.value.end)
    ensures Wf(s) ==> Wf(r)
  {
    match c
    case None => s
    case Some(conf) => Supervisor(c, conf.on && conf.begin < conf.end)
  }

  /** `New`: the config is stored as is, then reloaded. */
  function New(c: Option<Config>): (r: Supervisor)
    ensures Wf(r)
    ensures r.conf == c
    ensures r.on <==> c.Some? && c.value.on && c.value.begin < c.value.end
  {
    Reload(Supervisor(c, false), c)
  }

  /** `forbid`: only GET is allowed, and only strictly inside the window is anything forbidden. */
  function Forbid(conf: Config, verb: string, now: int): (b: bool)
    ensures verb == METHOD_GET ==> !b
    ensures now <= conf.begin || conf.end <= now ==> !b
  {
    verb != METHOD_GET && now < conf.end && now > conf.begin
  }

  datatype Verdict = Continue | Abort(code: int)

  /** `ServeHTTP`: consults the window only while the gate is on. */
  function ServeHttp(s: Supervisor, verb: string, now: int): (r: Verdict)
    requires Wf(s)
    ensures !s.on ==> r == Continue
    ensures r.Abort? ==> r.code == SERVICE_UPDATE && verb != METHOD_GET
  {
    if s.on && Forbid(s.conf.value, verb, now) then Abort(SERVICE_UPDATE) else Continue
  }

  /** While the gate is on, a request is aborted exactly when it is not GET and strictly inside the window. */
  lemma GateCharacterised(s: Supervisor, verb: string, now: int)
    requires Wf(s) && s.on
    ensures ServeHttp(s, verb, now).Abort? <==>
      verb != METHOD_GET && s.conf.value.begin < now < s.conf.value.end
  {
  }

  /** Both ends of the window are open: a write at Begin or at End goes through. */
  lemma BoundariesAllowed(c: Config, verb: string)
    ensures ServeHttp(New(Some(c)), verb, c.begin) == Continue
    ensures ServeHttp(New(Some(c)), verb, c.end) == Continue
  {
  }

  /** An empty or inverted window never turns the gate on, whatever On says. */
  lemma InvertedWindowOff(c: Config, verb: string, now: int)
    requires c.end <= c.begin
    ensures ServeHttp(New(Some(c)), verb, now) == Continue
  {
  }
}

=== FILE: xtime.dfy ===
/**
  The time helpers of pkg/xtime/time.go: a process-wide test clock offset
  that production ignores, the MySQL timestamp type `Time` (Unix seconds),
  `Duration.UnmarshalText` and `Duration.Shrink`. Instants are integer
  nanoseconds since the Unix epoch; the wall clock is an input.
 */
module XTime {
  import opened Results
  import opened GoInt
  import Strconv

  /** `Time.Sub` and `time.Until`: the difference, saturated to the Duration range. */
  function Sub(a: int, b: int): (d: int)
    ensures IsInt64(d)
    ensures IsInt64(a - b) ==> d == a - b
    ensures a - b > MAX_INT64 ==> d == MAX_INT64
    ensures a - b < MIN_INT64 ==> d == MIN_INT64
  {
    var x := a - b;
    if x > MAX_INT64 then MAX_INT64 else if x < MIN_INT64 then MIN_INT64 else x
  }

  /** The package variable `delta` and whether the deployment is production. */
  datatype Clock = Clock(delta: int64, prod: bool)

  /** `Now`: the wall time, shifted by `delta` outside production. */
  function Now(c: Clock, wall: int): (t: int)
    ensures c.prod ==> t == wall
    ensures !c.prod ==> t - wall == c.delta
  {
    if c.prod then wall else wall + c.delta
  }

  /** `NowUnix`: `Now` in whole seconds, floored as `Time.Unix` does. */
  function NowUnix(c: Clock, wall: int): (s: int)
    ensures s * SECOND <= Now(c, wall) < (s + 1) * SECOND
  {
    Now(c, wall) / SECOND
  }

  /** `SetSystemTimeDelta`: outside production the offset becomes dt minus the wall time (saturated). */
  function SetSystemTimeDelta(c: Clock, dt: int, wall: int): (r: Clock)
    ensures c.prod ==> r == c
    ensures r.prod == c.prod
    ensures !c.prod ==> r.delta == Sub(dt, wall)
  {
    if c.prod then c else c.(delta := Sub(dt, wall))
  }

  /** `ResetSystemTimeDelta`: outside production the offset returns to zero. */
  function ResetSystemTimeDelta(c: Clock): (r: Clock)
    ensures c.prod ==> r == c
    ensures !c.prod ==> r.delta == 0 && !r.prod
  {
    if c.prod then c else c.(delta := 0)
  }

  /** Outside production, setting the clock to dt makes `Now` read dt at that instant and run at wall speed after. */
  lemma SetThenNow(c: Clock, dt: int, wall: int, later: int)
    requires !c.prod && IsInt64(dt - wall)
    ensures Now(SetSystemTimeDelta(c, dt, wall), wall) == dt
    ensures Now(SetSystemTimeDelta(c, dt, wall), later) == dt + (later - wall)
    ensures Now(ResetSystemTimeDelta(SetSystemTimeDelta(c, dt, wall)), later) == later
  {
  }

  /** In production the offset can never be changed, so `Now` is the wall time. */
  lemma ProdIgnoresDelta(c: Clock, dt: int, wall: int, t: int)
    requires c.prod
    ensures Now(SetSystemTimeDelta(c, dt, wall), t) == t
    ensures Now(ResetSystemTimeDelta(c), t) == t
  {
  }

  /** A value handed to `Time.Scan`: a `time.Time` (an instant), a string, or anything else. */
  datatype Source = TimeSource(instant: int) | StringSource(s: string) | OtherSource

  /** `Time.Scan`: an instant becomes its Unix seconds; a string is parsed (an error stores the parsed value); anything else changes nothing. */
  function Scan(jt: int64, src: Source): (r: (int64, Option<Strconv.NumError>))
    ensures src.OtherSource? ==> r == (jt, None)
    ensures src.StringSource? ==> r == (Strconv.ParseInt(src.s).value, Strconv.ParseInt(src.s).err)
    ensures src.StringSource? && Strconv.ParseInt(src.s).err == Some(Strconv.ErrSyntax) ==> r.0 == 0
    ensures src.TimeSource? && IsInt64(src.instant / SECOND) ==>
      r == (src.instant / SECOND, None) && r.0 * SECOND <= src.instant < (r.0 + 1) * SECOND
  {
    match src
    case TimeSource(t) => (Wrap64(t / SECOND), None)
    case StringSource(s) =>
      var p := Strconv.ParseInt(s);
      (p.value, p.err)
    case OtherSource => (jt, None)
  }

  /** `Time.Value`: the instant `time.Unix(jt, 0)`. */
  function Value(jt: int64): (instant: int)
    ensures instant / SECOND == jt && instant % SECOND == 0
  {
    jt * SECOND
  }

  /** `Time.Time`: the same instant as `Value`. */
  function ToTime(jt: int64): (instant: int)
    ensures instant == Value(jt)
  {
    jt * SECOND
  }

  /** A timestamp survives writing to and reading back from the database, whatever was stored before. */
  lemma ScanValue(prev: int64, jt: int64)
    ensures Scan(prev, TimeSource(Value(jt))) == (jt, None)
    ensures Scan(prev, StringSource(Strconv.FormatInt(jt))) == (jt, None)
  {
    Strconv.ParseFormat(jt);
  }

  /** `Duration.UnmarshalText`: `parsed` is what `time.ParseDuration` returned; on an error the duration stays. */
  function UnmarshalText(d: int64, parsed: Result<int64, string>): (r: (int64, Option<string>))
    ensures parsed.Err? ==> r == (d, Some(parsed.error))
    ensures parsed.Ok? ==> r == (parsed.value, None)
  {
    match parsed
    case Ok(v) => (v, None)
    case Err(e) => (d, Some(e))
  }

  /** Unmarshalling into the same value twice changes nothing the second time. */
  lemma UnmarshalIdempotent(d: int64, parsed: Result<int64, string>)
    ensures UnmarshalText(UnmarshalText(d, parsed).0, parsed) == UnmarshalText(d, parsed)
  {
  }

  /** The context `Shrink` returns: the caller's own (with a no-op cancel), or a child with a deadline. */
  datatype ShrunkContext = Original | Child(deadline: int)

  datatype Shrunk = Shrunk(timeout: int64, ctx: ShrunkContext)

  /**
    `Duration.Shrink`: when the context's remaining time is smaller than d,
    that remaining time with the context itself; otherwise d with a child
    context whose deadline is the earlier of the parent's and now + d.
   */
  function Shrink(d: int64, deadline: Option<int>, now: int): (r: Shrunk)
    ensures r.timeout <= d
    ensures deadline.None? ==> r == Shrunk(d, Child(now + d))
    ensures deadline.Some? && Sub(deadline.value, now) < d ==> r == Shrunk(Sub(deadline.value, now), Original)
    ensures r.ctx.Original? <==> deadline.Some? && Sub(deadline.value, now) < d
    ensures r.ctx.Child? ==> r.timeout == d && r.ctx.deadline <= now + d
    ensures r.ctx.Child? && deadline.Some? ==> r.ctx.deadline <= deadline.value
  {
    match deadline
    case Some(dl) =>
      var remaining := Sub(dl, now);
      if remaining < d then Shrunk(remaining, Original)
      else Shrunk(d, Child(if dl < now + d then dl else now + d))
    case None => Shrunk(d, Child(now + d))
  }

  /** The shrunk timeout is the smaller of d and the time remaining. */
  lemma ShrinkIsMin(d: int64, dl: int, now: int)
    requires IsInt64(dl - now)
    ensures Shrink(d, Some(dl), now).timeout == if dl - now < d then dl - now else d
  {
  }
}
